=== FILE: README.md ===
# Tenant cost engine of tenant-api, modelled in Dafny

tenant-api charges the tenants of a Kubernetes cluster for what they
request: CPU, memory, persistent storage per storage class, and ingress
hosts. This project models its cost engine as pure functions over
abstract inputs and proves what each part promises. The parts are:

- the unit-cost calculator: linear prices scaled by `1 - discount`, and
  an unpriced storage class as an error;
- ingress domain extraction: the last two labels of each host, charged
  once per distinct domain;
- usage aggregation:
  - per-tenant CPU and memory request sums;
  - per-class storage sums, with tenants without claims dropped;
  - ingress host lists, with the vcluster exclusion;
  - the "not found means empty" rule;
  - the discount label, including its last-write-wins global and the
    out-of-range case that hands back nothing and no error;
- the periodic snapshot: tenant get-or-create by slug, then one row per
  tenant and kind, with the first failed write stopping the run;
- the monthly rollup: the mean of each kind over the window (0 with no
  rows), per-class storage means summed, the total, and the upsert keyed
  by (tenant, month, year);
- LoadEnv: the `STORAGE_COST_<class>=<price>` table, the cluster-class
  coverage check, and defaults for prices, flags and the interval;
- the HTTP handlers:
  - the 401/403/500 decision order;
  - which tenants appear in each cost map;
  - the per-class storage quota map, in int64 arithmetic;
  - `Contains` with its DEBUG bypass.

Modules, one file each:

| file | module | content |
|---|---|---|
| wrappers.dfy | Wrappers | `Option`, `Result` |
| seqs.dfy | Seqs | a non-empty sequence as its prefix plus its last element |
| text.dfy | Text | Go's `strings.HasPrefix`, `Contains`, `Split` and the first field of a split |
| pricing.dfy | Pricing | `Config` (the package globals), discounts, unit costs, domains |
| cluster.dfy | Cluster | cluster objects, list outcomes, the four aggregation passes, name listings |
| calendar.dfy | Calendar | dates, instants, one month back (as Go computes it, and corrected) |
| store.dfy | Store | the database as a value, the write budget, tenant sync, SaveCostsToDB |
| report.dfy | Report | window queries, means, summaries, the upsert, CreateMonthlyCostReport |
| env.dfy | Env | the environment, `Getenv`, `ParseBool`, the storage price table, LoadEnv |
| handlers.dfy | Handlers | the access gate, the cost and quota handlers |

Go behaviour that is stated explicitly:

- A nil map reads as empty, and a missing key reads as the zero value
  (`Cluster.Lookup`).
- Map iteration order is unspecified. The snapshot's storage loop visits
  classes in an arbitrary enumeration (`Store.Enumerate`, which is ghost,
  so the snapshot run is ghost too). The handler's class loop picks any
  remaining class.
- The discount globals are explicit inputs and outputs. Every pass takes
  the value the previous run left and returns the value it leaves.
- Each discount check declares its own `err` with `:=`. An out-of-range
  label therefore returns a nil map with a nil error (`Status.Abandoned`).
- `time.AddDate(0, -1, 0)` normalises an overflowing day into the next
  month (`Calendar.MonthEarlierAsWritten`).
- GORM's `First(&x)` overwrites `x` with the stored row
  (`Report.UpsertAsWritten`).
- The storage quota multiplies int64 values, so it wraps
  (`Handlers.Wrap64`).

The database is a value (`Store.Db`). Whether a write fails is decided by
a write budget (`Store.Budget`): `Unlimited`, or the number of writes that
still succeed. Every write goes through `Store.Commit`.

## Model

| member | source | states |
|---|---|---|
| Pricing.ChargeBounds | util/costs.go:31-40 | A full discount charges nothing and no discount charges the list price. With a non-negative price and quantity and a discount in [0, 1], the charge lies between 0 and the list price. |
| Pricing.ChargeAntitone | util/costs.go:31-40 | Raising the discount never raises the charge. |
| Pricing.ChargeAdditive | util/costs.go:31-40 | The charge is linear in the quantity: pricing a pooled quantity equals pricing its parts. |
| Pricing.CpuCost | util/costs.go:31-34 | 1000 millicores at no discount cost CPU_COST; a full discount costs 0; the cost never exceeds the undiscounted price. |
| Pricing.MemoryCost | util/costs.go:37-40 | 2^30 bytes at no discount cost MEMORY_COST; a full discount costs 0; the cost never exceeds the undiscounted price. |
| Pricing.StorageCost | util/costs.go:43-50 | Fails exactly when the class has no price, and then with the error "storage class <c> not found" and no cost. A priced class costs its price per 2^30 bytes, scaled by the discount. |
| Pricing.IngressCost | util/costs.go:87-89 | No hosts cost 0; with no discount the cost is INGRESS_COST per host; the discount scales it. |
| Pricing.DomainOf | util/costs.go:62-75 | A host without a dot has no domain. Otherwise the domain is a suffix of the host with exactly one dot. |
| Pricing.DomainOfBoundary | util/costs.go:62-66 | The domain is the whole host or starts right after a dot of it. With its single dot and as a suffix, that makes it exactly the last two labels. |
| Pricing.DomainOfThree | util/costs.go:62-66 | `a.b.c` is charged under `b.c`. |
| Pricing.DistinctDomains | util/costs.go:58-76 | The collected domain set is exactly the set of domains of the dotted hosts. |
| Pricing.SumPerDomain | util/costs.go:79-81 | Adding the per-domain price once per domain gives the count times that price. |
| Pricing.IngressCostByDomain | util/costs.go:53-84 | The domain-mode cost is IngressCost of the number of distinct domains. |
| Pricing.SharedDomainsChargedOnce | util/costs.go:53-84 | Two hosts of one domain and one of another give two domains. |
| Text.Contains | util/k8s.go:24 | `strings.Contains`: true exactly when the substring occurs at some position. |
| Text.Split | util/costs.go:62 | `strings.Split` on one character: the pieces join back to the input and contain no separator. |
| Text.Before | util/k8s.go:31 | The first field of a split on "-x-": a prefix of the name that holds no "-x-" and at which no "-x-" of the name starts. It is either all of the name or followed by "-x-", so it ends at the first occurrence. |
| Cluster.ListItems | util/k8s.go:23-26 | A listing succeeds with its items. A failed listing counts as empty exactly when its message contains "not found"; otherwise it is the error. |
| Cluster.ReadDiscount | util/k8s.go:78-86 | A missing label reads as "0". Unparsable text is a syntax error that carries that text. A parsed value outside [0, 1] is out of range and carries that value. Otherwise the accepted fraction is exactly the parsed value. |
| Cluster.Admit | util/k8s.go:83-88 | A syntax error fails the pass and returns no map. An out-of-range value returns no map and no error. An accepted value sets the discount and lets the object count. |
| Cluster.FoldStatus | util/k8s.go:75-91 | A tenant's objects all go through exactly when every one of their labels is accepted. |
| Cluster.FoldAdmitted | util/k8s.go:75-91 | When every label is accepted, every object is added and the discount is the one the last label gave. |
| Cluster.LastWrittenAppend | util/k8s.go:88 | The discount after two runs of objects is the last write across both. |
| Cluster.FoldKeepsFraction | util/k8s.go:84-88 | A discount that starts in [0, 1] stays in [0, 1] whatever the labels. |
| Cluster.PassStatus | util/k8s.go:66-93 | A pass completes exactly when every requested tenant lists (or is not found) and all its labels are accepted. |
| Cluster.PassAdmitted | util/k8s.go:66-93 | A pass over admitted tenants folds every tenant's objects. Its discount is the last label read across all tenants. |
| Cluster.PassKeepsFraction | util/k8s.go:66-93 | A discount that starts in [0, 1] stays in [0, 1] through a whole pass, whatever stops it. |
| Cluster.RequestSumsSpec | util/k8s.go:66-124 | CPU and memory passes: when a pass completes, a tenant has an entry exactly when it has pods. The entry is the sum of the first-container requests of its pods, and a tenant without pods reads as 0. |
| Cluster.IngressRequestsSpec | util/k8s.go:163-200 | The ingress pass completes exactly when every tenant is admitted. A tenant then has an entry exactly when it has a counted host, holding every rule host in order. Ingresses named with "vcluster" are skipped when excluded, but their labels are still read. |
| Cluster.ClassTotalsEmpty | util/k8s.go:154-157 | The per-class sums are empty exactly when there are no claims. |
| Cluster.TenantClaimsStatus | util/k8s.go:129-148 | One tenant of the storage pass goes through exactly when its listing and labels are accepted. |
| Cluster.TenantClaimsAdmitted | util/k8s.go:137-157 | An admitted tenant's entry becomes its per-class sums, and is removed when it has no claims. |
| Cluster.StorageRequestsStatus | util/k8s.go:127-160 | The storage pass returns a map exactly when every tenant is admitted. |
| Cluster.StorageRequestsValues | util/k8s.go:127-160 | A completed storage pass has an entry exactly for the tenants with claims, each holding its per-class byte sums. The discount is the last label read. |
| Cluster.PodNamesByTenant | util/k8s.go:19-36 | Succeeds exactly when no listing fails hard. Every requested tenant then has an entry, possibly empty, holding its pod names cut at "-x-". |
| Cluster.NamesByClass | util/k8s.go:46-58 | A class has an entry exactly when it is a cluster class and some claim has it. |
| Cluster.NamesByClassValues | util/k8s.go:47-58 | Each class entry lists exactly the names of that class's claims, in listing order. |
| Cluster.ClaimNamesByTenant | util/k8s.go:38-63 | A class-listing error is returned as is. On success every requested tenant has an entry grouping its claim names by cluster class. |
| Calendar.MonthBefore | util/costs.go:430-435 | The previous calendar month, with the month index one lower. |
| Calendar.MonthEarlierAsWritten | util/costs.go:430 | `AddDate(0, -1, 0)`: a valid date, no later day, in the previous month exactly when the day exists there, otherwise still in the same month. |
| Calendar.MonthEarlier | util/costs.go:429-430 | One month earlier with the day clamped: always a valid date in the previous month. |
| Calendar.MonthEarlierAgreement | util/costs.go:430 | The two agree exactly when the day exists in the previous month. |
| Calendar.MarchThirtyFirst | util/costs.go:430-435 | On 31 March 2023 Go's one-month-earlier date is 3 March 2023, still March; the clamped one is in February. |
| Calendar.WindowStartAsWritten | util/costs.go:229 | The window start as Go computes it is a valid instant no later than now. |
| Calendar.WindowStart | util/costs.go:227-229 | The corrected window start lies in the previous calendar month, at the same time of day. |
| Store.Commit | util/costs.go:161-164 | A stopped run writes nothing. A write either lands, or fails only when the budget is spent, and then leaves the database as it was. |
| Store.CreateTenant | util/costs.go:119-125 | `Create` appends a tenant with the next key, and keeps the table well formed for a new slug. |
| Store.SyncTenantsSpec | util/costs.go:116-127 | Syncing only appends tenants, each with a requested slug the table did not hold, and leaves the cost tables alone. The tenant table stays well formed. When no write failed, every requested slug has a tenant. |
| Store.SyncTenantsNoop | util/costs.go:116-127 | When every slug already has a tenant, syncing changes nothing. |
| Store.SyncTenantsIdempotent | util/costs.go:116-127 | Running the get-or-create loop twice is running it once. |
| Store.SyncNeverFailsUnlimited | util/costs.go:116-127 | Without a write budget the sync never fails. |
| Store.Enumerate | util/costs.go:176 | A map range visits every key exactly once, in some order. |
| Store.TenantIngressCost | util/costs.go:193-215 | Ingress rows cost per host, or per distinct domain when INGRESS_COST_PER_DOMAIN is set; no hosts cost 0. |
| Store.SnapshotRow | util/costs.go:155-174 | A tenant's row belongs to that tenant and is stamped now. A tenant missing from the sums is charged 0. |
| Store.RunPasses | util/costs.go:135-153 | The four passes run in order. The first pass that fails stops the rest. Its own error is the run's error, and the discounts are those the passes up to it left, with the later ones untouched. When none fails, the usage and discounts are what the passes returned. |
| Store.WriteClassesUnlimited | util/costs.go:176-191 | Without write failures, a tenant's storage loop succeeds exactly when every class it visits is priced, and then writes one row per class in visiting order. Otherwise it stops with the error naming an unpriced class. |
| Store.WriteTenantUnlimited | util/costs.go:155-217 | One tenant's snapshot succeeds exactly when every class it requests is priced. It then appends one CPU, memory and ingress row and one storage row per class, and leaves the tenant table alone. |
| Store.WriteSnapshotsUnlimited | util/costs.go:155-219 | Without write failures the snapshot succeeds exactly when every requested class is priced. It then appends one CPU, memory and ingress row per tenant, in table order, plus that tenant's storage rows. |
| Store.SnapshotRowsMeaning | util/costs.go:155-174 | One row per tenant, in order, each priced from that tenant's usage. |
| Store.ClassRowsMeaning | util/costs.go:176-191 | One storage row per class visited, priced for that class. |
| Store.StorageRowsCover | util/costs.go:176-191 | Every class a tenant requests gets its priced storage row. |
| Store.StorageRowsOnly | util/costs.go:176-191 | Every storage row is the priced row of a class that one of the tenants requests. |
| Store.StorageRowsUnique | util/costs.go:176-191 | No (tenant, class) pair is written twice. |
| Store.WriteSnapshotsExtends | util/costs.go:155-219 | The snapshot only appends cost rows, and the tenant table is unchanged. |
| Store.SaveCostsToDBKeepsRows | util/costs.go:92-220 | Whatever the budget, a run only appends and keeps the tenant table well formed. A namespace-listing error changes nothing. |
| Store.SaveCostsToDBBudget | util/costs.go:155-217 | A failed write stops the run. The rows written before it stay, and they are a prefix of the run without failures. A run with no failed write ends as that run does. |
| Store.SaveCostsToDBUnlimited | util/costs.go:92-220 | Every namespace has a tenant. A failed pass stops the run before any cost row. Otherwise the snapshot is exactly the priced rows of every tenant of the table. |
| Store.AbandonedPassChargesNothing | util/costs.go:135-164 | After an out-of-range CPU discount, every CPU row of a successful run is 0. |
| Report.Mean | util/costs.go:235-246 | The average is 0 with no values; otherwise it times the count is the sum. |
| Report.MeanBounds | util/costs.go:238-246 | A mean lies between the least and greatest value. |
| Report.MeanOfConstant | util/costs.go:238-246 | Averaging copies of one value gives that value. |
| Report.WindowValues | util/costs.go:229 | The window query returns no more values than there are rows. |
| Report.WindowValuesMeaning | util/costs.go:229 | A value is returned exactly when some row of the tenant within the window, both ends included, holds it. |
| Report.WindowValuesAppend | util/costs.go:229 | The query distributes over concatenated tables. |
| Report.MonthlyMean | util/costs.go:223-254 | The monthly CPU, memory or ingress figure is 0 when no row is in the window; otherwise it times the count is the sum. |
| Report.WindowRows | util/costs.go:300 | The storage query keeps exactly the selected rows. |
| Report.ClassOrder | util/costs.go:308-313 | Each class is listed once, and only classes that have rows. |
| Report.ClassOrderMeaning | util/costs.go:308-313 | A class is listed exactly when some row has it. |
| Report.StorageMeans | util/costs.go:290-325 | One mean per class, no class twice, each the average of the window's rows of that class. |
| Report.MeansOfClassOrder | util/costs.go:308-322 | Averaging each class in first-appearance order gives one mean per class, no class twice, each the average of that class's rows. |
| Report.StorageMeansClasses | util/costs.go:308-322 | A class has a mean exactly when the tenant has a row of that class in the window. |
| Report.Summary | util/costs.go:404-446 | The row belongs to the tenant and month. The CPU, memory and ingress figures are the monthly means of their windows. By the mean's own contract, each is 0 with no rows and otherwise times the row count gives the window's sum. The storage figure is the sum of the class means, and the total is the sum of the four figures. |
| Report.SummariesUnique | util/costs.go:437-446 | Tenants with increasing keys give summaries with distinct (tenant, month, year) keys. |
| Report.FindKey | util/costs.go:452 | `First` by key: nothing exactly when no row has the key, else the first such row. |
| Report.UpsertStores | util/costs.go:450-467 | The corrected upsert stores the summary under its key and leaves every other key alone. It keeps one row per key and grows the table only for a new key. |
| Report.UpsertIdempotent | util/costs.go:450-467 | Upserting a summary twice is upserting it once. |
| Report.UpsertAsWrittenKeepsStale | util/costs.go:452-465 | The upsert as written keeps one row per key, leaves a table that already has the key unchanged, and inserts otherwise. |
| Report.StaleSummaryExample | util/costs.go:452-465 | With a stored summary for the key, the upsert as written keeps the stale figures, while the corrected one stores the new ones. |
| Report.From | util/costs.go:229 | The window starts no later than now; corrected, it starts in the previous calendar month. |
| Report.StoreSummariesSpec | util/costs.go:450-467 | Storing distinct-key summaries with the corrected upsert stores each under its key and keeps every other key. |
| Report.SummariesStored | util/costs.go:437-467 | Storing the month's summaries without a write budget never fails and changes only the monthly table. Every tenant's summary is then stored under its (tenant, month, year) key, and other months keep their rows. |
| Report.StoreSummariesUnlimited | util/costs.go:450-467 | Without a write budget, storing never fails. |
| Report.StoreSummariesAsWritten | util/costs.go:450-467 | With the upsert as written, every stored summary keeps its figures whatever the budget. |
| Report.CreateMonthlyCostReportStores | util/costs.go:363-470 | Corrected, without failures: every namespace has a tenant. Every tenant has exactly one summary for the previous calendar month, computed over the month up to now. Other months keep their rows, and only the monthly table differs from the synced one. |
| Report.CreateMonthlyCostReportAsWrittenKeeps | util/costs.go:363-470 | As written, a rollup never changes a summary already stored, so a second run in the same month keeps the first run's figures. |
| Env.GetenvFinds | util/env.go:22 | `os.Getenv` finds the first entry for the key, whatever follows it. |
| Env.GetenvUnset | util/env.go:22 | A key no entry sets reads as the empty string. |
| Env.ParseBoolFormat | util/env.go:99 | `ParseBool` reads back what `FormatBool` writes and rejects other spellings. |
| Env.Flag | util/env.go:99-113 | A flag is on exactly when its entry parses to true. |
| Env.PriceOrDefault | util/env.go:75-97 | A unit price is the parsed value, or 1.00 when unset, unparsable or zero; it is never zero. |
| Env.IntervalOrDefault | util/env.go:201-207 | The interval is the parsed number, or 3600 when zero or invalid; it is never zero. |
| Env.KeyFields | util/env.go:148 | The third `_` field of `STORAGE_COST_<class>...` is the class. |
| Env.ValueFields | util/env.go:146 | The first two `=` fields of `<key>=<price>...` are the key and the price. |
| Env.ReadEntryFields | util/env.go:144-158 | An entry `STORAGE_COST_<class>[_...]=<price>[=...]` prices that class with that text. |
| Env.StorageTableFailure | util/env.go:143-161 | The table fails exactly when some storage entry is malformed or unparsable, and then with the first such entry's error. |
| Env.StorageTableContents | util/env.go:143-162 | A parsed table holds exactly the classes the storage entries name. Each price is the one of the last entry for that class. |
| Env.Uncovered | util/env.go:173-180 | Nothing exactly when every cluster class is priced, else the first class that is not. |
| Env.LoadStorage | util/env.go:142-188 | On success the class listing succeeded and every cluster class is priced. |
| Env.LoadStorageSpec | util/env.go:142-188 | The table error comes first, then the listing error, then an unpriced class. On success the table is exactly the parsed one. |
| Env.NoDefaultFallback | util/env.go:182-188 | The "default" class is priced only when an entry names it: the nil fallback never fires. |
| Env.LoadEnv | util/env.go:21-188 | A missing CLIENT_ID or CLIENT_SECRET is the returned error. On success the storage table is what LoadStorage gives, the prices and interval are non-zero and the discount label is non-empty. |
| Env.LoadEnvStorage | util/env.go:115-188 | With the required entries present and Slack unconfigured, LoadEnv fails exactly when its storage part fails, with that error. |
| Env.LoadEnvDefaults | util/env.go:67-262 | Each flag is on exactly when its entry parses to true. Each price is the parsed value when that is present and non-zero, and 1.00 otherwise. The interval is the same with 3600. An empty DISCOUNT_LABEL gives "natron.io/discount", and a non-empty one is taken as it is. |
| Handlers.Contains | util/parse.go:4-15 | True exactly when the tenant is listed or DEBUG is on. |
| Handlers.ContainsCases | util/parse.go:4-15 | The two cases of the unit test at test/parse_test.go:9-16: "tenant1" is in the list, "tenant4" is not. Also, with DEBUG on, any tenant is accepted even against an empty list (the fall-through at lines 10-13). |
| Handlers.Gate | controllers/costController.go:13-23 | 401 exactly when no tenant is authorized, and 403 exactly when a non-empty tenant parameter is refused by Contains. Otherwise the call goes through. |
| Handlers.Shape | controllers/costController.go:41-45 | No tenant parameter gives the whole map. Otherwise the answer is that tenant's entry, or the zero value when it has none. |
| Handlers.NonZeroCosts | controllers/costController.go:34-39 | Exactly the listed tenants with a non-zero request sum, each priced from that sum. |
| Handlers.HostCosts | controllers/costController.go:171-191 | Exactly the listed tenants with a host list, each priced from its hosts. |
| Handlers.Respond | controllers/costController.go:13-45 | A refused caller gets the gate's status and changes no discount. An aggregation error is 500. Otherwise the answer is 200 with the cost map shaped for the tenant parameter. |
| Handlers.CpuCostSumMeaning | controllers/costController.go:9-46 | A failed pass is 500. Otherwise the whole map holds exactly the listed tenants with a non-zero CPU total, each charged at the last pod's discount. A single listed tenant reads its own charge, or 0 with a zero total; an unlisted one reads 0. |
| Handlers.MemoryCostSumMeaning | controllers/costController.go:49-86 | The same for memory bytes priced per GiB, for the whole map and for a single tenant. |
| Handlers.AbandonedPassAnswersEmpty | controllers/costController.go:26-45 | An out-of-range discount label is no error: the handler answers 200 with an empty map. |
| Handlers.IngressCostSumMeaning | controllers/costController.go:145-198 | A failed pass is 500. Otherwise the whole map holds exactly the tenants with a counted host, charged per host or per distinct domain. A single tenant reads its own charge, or 0 when it is unlisted or has no counted host. |
| Handlers.PriceClasses | controllers/costController.go:116-127 | Fails exactly when a non-zero class has no price. Otherwise it prices exactly the non-zero classes, each by GetStorageCost. |
| Handlers.StorageCosts | controllers/costController.go:113-135 | Fails exactly when some listed tenant has an unpriced non-zero class. Otherwise it holds exactly the listed tenants with a non-zero class, each with its priced classes. |
| Handlers.StorageCostSum | controllers/costController.go:89-142 | The gate first, then 500 on a pass error or an unpriced class. Otherwise the map of tenants with storage costs. A single listed tenant gets exactly its charged classes, each priced by GetStorageCost; an unlisted one gets an empty map. |
| Handlers.QuotaOf | controllers/quotaController.go:13-32 | The gate first, then 500 on a quota lookup error, else the quota. |
| Handlers.CpuQuota | controllers/quotaController.go:10-37 | A refused call gets the status QuotaOf gives (401, 403, then 500). Otherwise 200 with the CPU hard limit in millicores. |
| Handlers.MemoryQuota | controllers/quotaController.go:40-67 | A refused call gets the status QuotaOf gives (401, 403, then 500). Otherwise 200 with the memory hard limit in bytes. |
| Handlers.Wrap64 | controllers/quotaController.go:117 | int64 arithmetic: the result lies in [-2^63, 2^63), agrees with the exact value modulo 2^64, and equals it when it fits. |
| Handlers.WrapTwice | controllers/quotaController.go:117 | Wrapping after each `* 1024` is wrapping once after `* 1048576`. |
| Handlers.ClassQuota | controllers/quotaController.go:114-120 | A class without a hard limit for `<class>.storageclass.storage.k8s.io/requests.storage` gets 0. Otherwise it gets that limit times 1024*1024, wrapped to int64, and exact when it fits. |
| Handlers.QuotaMap | controllers/quotaController.go:111-121 | Exactly one entry per cluster storage class, each that class's quota. |
| Handlers.StorageQuota | controllers/quotaController.go:70-125 | The gate and quota lookup first, then 500 on a class-listing error, else the per-class quota map. |

## Left out

- Kubernetes client calls and `resource.Quantity` conversion: list results, namespace listings, storage class listings and quotas are inputs, with quantities already converted to integers.
- `GetNamespaces` is not part of this model: its result is an input.
- GORM and Postgres mechanics: the database is a value with one table per row kind. A failed `First` is read as "not found", and a failed write comes from the write budget.
- Database reads never fail. `db.Find(&tenants)` (util/costs.go:130-133, 398-402) and the four window queries (util/costs.go:229-232, 262-265, 300-303, 333-336) can return an error that aborts SaveCostsToDB or CreateMonthlyCostReport; the model has no such outcome, and only writes fail.
- `Find` returns rows in insertion order (util/costs.go:130, 399). Row order fixes the order of the snapshot and which row `First` finds; GORM gives no such promise without an ORDER BY.
- Every claim has a storage class. A claim whose `StorageClassName` is nil makes util/k8s.go:55 and :151 dereference nil and panic; `Cluster.Claim.storageClass` is a plain string, so that panic is not modelled.
- Calls do not interleave. The discount package variables are written by every aggregation pass (util/k8s.go:88, 118, 150, 186) and read by the pricing functions (util/costs.go:33-88), without locks, while HTTP handlers and the periodic snapshot may run at the same time. The model passes one `Discounts` value from call to call, so "charged at the last label read" holds only when no other pass runs in between.
- `time.Now()` is one `now` parameter per run, although the source reads the clock at each use.
- The tenant's two key fields (`Id` and `ID`) are one key, handed out from `nextId`.
- IEEE-754 rounding: prices and costs are `real`.
- IEEE-754 special values: `strconv.ParseFloat` accepts "NaN", "Inf" and "Infinity", and `real` has none of them. `Cluster.FloatParser` is assumed to return only finite values. In Go a "NaN" discount label passes the range checks at util/k8s.go:84, 114, 146 and 182, since both comparisons are false, and then turns every charge of that kind into NaN. Likewise a NaN or infinite CPU_COST, MEMORY_COST or INGRESS_COST passes the zero checks at util/env.go:75, 83 and 91. The model does not represent these runs.
- Logging and the `Status` global are left out. `os.Exit` is the outcome `Exited`, a returned error is `Returned`, and a `STORAGE_COST_` entry that the source indexes past the end of (one without `=`) is `Panicked`.
- The per-tenant request sums are unbounded naturals; their int64 overflow is not modelled.
- SECRET_KEY's random fallback is `None` in the settings, since randomness is left out. The DB_* connection settings are not read.
- Slack notifications, GitHub OAuth, routing and fiber plumbing are left out; so are util/os.go, a superseded second LoadEnv, and tenant-api.go, whose bootstrap is stale.
- `strconv.ParseFloat` and `strconv.Atoi` are parser parameters (`Cluster.FloatParser`, `Env.IntParser`); only `ParseBool`'s exact spellings are written out.
- Cluster.RequestSumsSpec: assumes the authorized tenant list has no duplicates. The source does not require this, and a duplicate would count its namespace twice.
- Cluster.IngressRequestsSpec: assumes a duplicate-free tenant list, for the same reason.
- Handlers.CpuCostSumMeaning: assumes a duplicate-free tenant list, for the same reason.
- Handlers.MemoryCostSumMeaning: assumes a duplicate-free tenant list, for the same reason.
- Handlers.IngressCostSumMeaning: assumes a duplicate-free tenant list, for the same reason.
- Env.LoadEnv: the CLIENT_ID and CLIENT_SECRET clauses say that a missing entry gives that error, not the converse. The converse holds because no other failure carries those messages.
- Report.CreateMonthlyCostReportStores: proved for the corrected variant without write failures. Failures are covered by `Store.Commit` and `Report.StoreSummariesUnlimited`.
- Store.SaveCostsToDB is ghost, because its storage loop visits map keys in an unspecified order. The lemmas about it hold for every order.

## Findings

| source | as written | input that shows it | evidently intended | confidence | as-written member | corrected member |
|---|---|---|---|---|---|---|
| util/costs.go:229 | The window starts at `time.Now().AddDate(0, -1, 0)`, and the month label is taken from the same value (util/costs.go:430-435). Go normalises a day that does not exist in the previous month into the following month. | Run on 31 March 2023: one month earlier is 3 March 2023, so the report covers 3-31 March and is labelled March, the month still running. | The window starts in the previous month, and the summary is labelled with that month (February 2023). | not executed | Calendar.MarchThirtyFirst | Report.CreateMonthlyCostReportStores |
| util/costs.go:452-465 | `First(&monthlyCost)` loads the stored row into the variable that holds the new summary, and `Save` then writes the stored row back. | A stored summary for (tenant 1, March 2023) with total 5, and a new run that computes total 7: the table still holds 5. | When the key is present, the stored summary is updated with the new figures. | not executed | Report.StaleSummaryExample | Report.UpsertStores |

=== FILE: calendar.dfy ===
/** Dates and instants of the proleptic Gregorian calendar, as far as the
    monthly rollup needs them: ordering, and stepping one month back. */
module Calendar {

  datatype Date = Date(year: int, month: int, day: int)

  /** A point in time: a date and the time since midnight on it, in any
      unit finer than a day. */
  datatype Instant = Instant(date: Date, clock: nat)

  datatype YearMonth = YearMonth(year: int, month: int)

  predicate LeapYear(year: int) {
    year % 4 == 0 && (year % 100 != 0 || year % 400 == 0)
  }

  function DaysIn(year: int, month: int): (r: int)
    requires 1 <= month <= 12
    ensures 28 <= r <= 31
    ensures month == 2 <==> r < 30
    ensures r == 29 <==> month == 2 && LeapYear(year)
  {
    if month == 2 then (if LeapYear(year) then 29 else 28)
    else if month == 4 || month == 6 || month == 9 || month == 11 then 30
    else 31
  }

  predicate ValidDate(d: Date) {
    1 <= d.month <= 12 && 1 <= d.day <= DaysIn(d.year, d.month)
  }

  predicate ValidInstant(i: Instant) {
    ValidDate(i.date)
  }

  function MonthOf(d: Date): YearMonth {
    YearMonth(d.year, d.month)
  }

  /** Months counted from year 0, so that consecutive months differ by one. */
  function MonthIndex(m: YearMonth): int {
    m.year * 12 + m.month - 1
  }

  /** The calendar month before `m`. */
  function MonthBefore(m: YearMonth): (r: YearMonth)
    requires 1 <= m.month <= 12
    ensures 1 <= r.month <= 12
    ensures MonthIndex(r) == MonthIndex(m) - 1
  {
    if m.month == 1 then YearMonth(m.year - 1, 12) else YearMonth(m.year, m.month - 1)
  }

  /** `time.AddDate(0, -1, 0)` on a valid date: the month goes back by one
      and Go's normalisation then carries a day past the end of that month
      over into the next one, which is the month it started from. */
  function MonthEarlierAsWritten(d: Date): (r: Date)
    requires ValidDate(d)
    ensures ValidDate(r)
    ensures r.day <= d.day
    ensures MonthOf(r) == MonthBefore(MonthOf(d)) || MonthOf(r) == MonthOf(d)
    ensures MonthOf(r) == MonthBefore(MonthOf(d)) <==> r.day == d.day
  {
    var p := MonthBefore(MonthOf(d));
    var last := DaysIn(p.year, p.month);
    if d.day <= last then Date(p.year, p.month, d.day)
    else Date(d.year, d.month, d.day - last)
  }

  /** One month earlier with the day clamped to the length of the
      previous month: always a date in the previous calendar month. */
  function MonthEarlier(d: Date): (r: Date)
    requires ValidDate(d)
    ensures ValidDate(r)
    ensures MonthOf(r) == MonthBefore(MonthOf(d))
    ensures r.day <= d.day
    ensures r.day == d.day || r.day == DaysIn(r.year, r.month)
  {
    var p := MonthBefore(MonthOf(d));
    var last := DaysIn(p.year, p.month);
    Date(p.year, p.month, if d.day <= last then d.day else last)
  }

  /** The two agree exactly when the day exists in the previous month. */
  lemma {:induction false} MonthEarlierAgreement(d: Date)
    requires ValidDate(d)
    ensures MonthEarlierAsWritten(d) == MonthEarlier(d) <==>
            d.day <= DaysIn(MonthBefore(MonthOf(d)).year, MonthBefore(MonthOf(d)).month)
  {
  }

  /** On 31 March 2023, one month earlier as Go computes it is 3 March
      2023: still March, so the rollup labels the month it is run in. */
  lemma {:induction false} MarchThirtyFirst()
    ensures MonthEarlierAsWritten(Date(2023, 3, 31)) == Date(2023, 3, 3)
    ensures MonthOf(MonthEarlierAsWritten(Date(2023, 3, 31))) != MonthBefore(MonthOf(Date(2023, 3, 31)))
    ensures MonthOf(MonthEarlier(Date(2023, 3, 31))) == YearMonth(2023, 2)
  {
    assert !LeapYear(2023);
  }

  /** Chronological order of dates. */
  predicate DateBefore(a: Date, b: Date) {
    a.year < b.year ||
    (a.year == b.year && (a.month < b.month || (a.month == b.month && a.day < b.day)))
  }

  /** `a` is not later than `b`. */
  predicate AtOrBefore(a: Instant, b: Instant) {
    DateBefore(a.date, b.date) || (a.date == b.date && a.clock <= b.clock)
  }

  /** SQL's `BETWEEN from AND to`: both ends included. */
  predicate InWindow(at: Instant, from: Instant, to: Instant) {
    AtOrBefore(from, at) && AtOrBefore(at, to)
  }

  lemma {:induction false} AtOrBeforeTransitive(a: Instant, b: Instant, c: Instant)
    requires AtOrBefore(a, b) && AtOrBefore(b, c)
    ensures AtOrBefore(a, c)
  {
  }

  /** Instants are totally ordered. */
  lemma {:induction false} AtOrBeforeTotal(a: Instant, b: Instant)
    ensures AtOrBefore(a, b) || AtOrBefore(b, a)
    ensures AtOrBefore(a, b) && AtOrBefore(b, a) ==> a == b
  {
  }

  /** `now.AddDate(0, -1, 0)`: the start of the rollup window. */
  function WindowStartAsWritten(now: Instant): (r: Instant)
    requires ValidInstant(now)
    ensures ValidInstant(r) && r.clock == now.clock
    ensures AtOrBefore(r, now)
  {
    Instant(MonthEarlierAsWritten(now.date), now.clock)
  }

  /** The corrected window start: the same time of day one calendar month
      back, on the last day of that month when the day does not exist. */
  function WindowStart(now: Instant): (r: Instant)
    requires ValidInstant(now)
    ensures ValidInstant(r) && r.clock == now.clock
    ensures DateBefore(r.date, now.date)
    ensures MonthOf(r.date) == MonthBefore(MonthOf(now.date))
  {
    Instant(MonthEarlier(now.date), now.clock)
  }
}

=== FILE: cluster.dfy ===
/** Usage aggregation of util/k8s.go over a point-in-time snapshot of the
    cluster. The Kubernetes client calls become `Listing` values (already
    converted to integer quantities), `strconv.ParseFloat` becomes a
    parser parameter, and the discount each pass writes to a package
    variable becomes the `discount` component of the result. */
module Cluster {
  import opened Wrappers
  import Text
  import Pricing
  import Seqs

  /** A pod, reduced to what aggregation reads: its name, labels and the
      CPU (millicores) and memory (bytes) requests of its first container. */
  datatype Pod = Pod(name: string, labels: map<string, string>, cpuMilli: nat, memoryBytes: nat)

  /** A persistent-volume claim: name, labels, storage class and requested bytes. */
  datatype Claim = Claim(name: string, labels: map<string, string>, storageClass: string, bytes: nat)

  /** An ingress: name, labels and the host of each of its rules, in order. */
  datatype Ingress = Ingress(name: string, labels: map<string, string>, hosts: seq<string>)

  /** The outcome of one list call against the cluster API. */
  datatype Listing<T> = Listed(items: seq<T>) | ListFailed(message: string)

  /** The cluster as the aggregation sees it: per-namespace list results
      (a namespace missing from a map lists as empty) and the listing of
      storage classes. Tenants are namespaces of the same name. */
  datatype Snapshot = Snapshot(
    pods: map<string, Listing<Pod>>,
    claims: map<string, Listing<Claim>>,
    ingresses: map<string, Listing<Ingress>>,
    storageClasses: Listing<string>)

  /** Why an aggregation pass stopped with an error. */
  datatype ReadError = ListError(message: string) | DiscountSyntax(text: string)

  /** The substring that turns a failed list call into an empty one. */
  const NotFound: string := "not found"

  /** The "not found means empty" rule: a failed list whose message
      contains "not found" reads as no items; any other failure is an
      error carrying the message. */
  function ListItems<T>(l: Listing<T>): (r: Result<seq<T>, ReadError>)
    ensures l.Listed? ==> r == Success(l.items)
    ensures l.ListFailed? ==> (r.Success? <==> Text.Contains(l.message, NotFound))
    ensures l.ListFailed? && r.Success? ==> r.value == []
    ensures r.Failure? ==> r.error == ListError(l.message)
  {
    match l
    case Listed(items) => Success(items)
    case ListFailed(msg) => if Text.Contains(msg, NotFound) then Success([]) else Failure(ListError(msg))
  }

  /** The items a listing contributes when it does not abort. */
  function ItemsOf<T>(l: Listing<T>): seq<T> {
    match ListItems(l)
    case Success(xs) => xs
    case Failure(_) => []
  }

  /** Go's read of a map at a missing key: the zero value. */
  function Lookup<V>(m: map<string, V>, k: string, zero: V): V {
    if k in m then m[k] else zero
  }

  /** The external float parser (`strconv.ParseFloat`): `None` on a syntax error. */
  type FloatParser = string -> Option<real>

  /** How one object's discount label reads. */
  datatype DiscountRead = Accepted(fraction: real) | Unparsable(text: string) | OutOfRange(value: real)

  /** The label value the parser sees: a missing or empty label reads as "0". */
  function DiscountText(labels: map<string, string>, key: string): string {
    if key in labels && labels[key] != "" then labels[key] else "0"
  }

  /** The discount-label rule shared by all four passes: parse the label
      text; a syntax error and a value outside [0, 1] are told apart. */
  function ReadDiscount(labels: map<string, string>, key: string, parse: FloatParser): (r: DiscountRead)
    ensures r.Accepted? ==> Pricing.ValidFraction(r.fraction)
    ensures r.Unparsable? <==> parse(DiscountText(labels, key)).None?
    ensures r.OutOfRange? <==> parse(DiscountText(labels, key)).Some? && !Pricing.ValidFraction(parse(DiscountText(labels, key)).value)
    ensures key !in labels && parse("0") == Some(0.0) ==> r == Accepted(0.0)
    ensures r.Accepted? ==> parse(DiscountText(labels, key)) == Some(r.fraction)
    ensures r.OutOfRange? ==> parse(DiscountText(labels, key)) == Some(r.value)
    ensures r.Unparsable? ==> r.text == DiscountText(labels, key)
  {
    var text := DiscountText(labels, key);
    match parse(text)
    case None => Unparsable(text)
    case Some(x) => if Pricing.ValidFraction(x) then Accepted(x) else OutOfRange(x)
  }

  /** Where a pass stands: still running (and, at the end, complete), stopped
      with an error, or abandoned by the out-of-range branch, which returns
      a nil map together with the nil `err` of the outer scope. */
  datatype Status = Complete | Failed(error: ReadError) | Abandoned

  /** The state of an aggregation pass: status, the per-tenant map built
      so far and the discount variable as last written. */
  datatype Read<V> = Read(status: Status, sums: map<string, V>, discount: real) {

    /** The map handed back to the caller; Go's nil map reads as empty. */
    function Returned(): map<string, V> {
      if status.Complete? then sums else map[]
    }

    /** The error handed back to the caller. */
    function Error(): Option<ReadError> {
      if status.Failed? then Some(status.error) else None
    }
  }

  /** One object's discount gate: an unparsable label aborts with the parse
      error, an out-of-range value aborts with no map and no error, and an
      accepted value is written to the discount variable before the
      object's contribution `updated` takes effect. */
  function Admit<V>(st: Read<V>, dr: DiscountRead, updated: map<string, V>): (r: Read<V>)
    requires st.status.Complete?
    ensures dr.Unparsable? ==> r.Error() == Some(DiscountSyntax(dr.text)) && r.Returned() == map[]
    ensures dr.OutOfRange? ==> r.Error() == None && r.Returned() == map[]
    ensures dr.Accepted? ==> r.status.Complete? && r.Returned() == updated && r.discount == dr.fraction
    ensures !dr.Accepted? ==> r.discount == st.discount
  {
    match dr
    case Unparsable(text) => st.(status := Failed(DiscountSyntax(text)))
    case OutOfRange(_) => st.(status := Abandoned)
    case Accepted(x) => Read(Complete, updated, x)
  }

  /** `xs` lists no element twice (the tenant lists handed in by the
      authorization layer are team names, so they are distinct). */
  predicate Distinct<T(==)>(xs: seq<T>) {
    forall i, j :: 0 <= i < j < |xs| ==> xs[i] != xs[j]
  }

  lemma {:induction false} DistinctPrefix<T>(xs: seq<T>)
    requires |xs| > 0 && Distinct(xs)
    ensures Distinct(xs[..|xs| - 1]) && xs[|xs| - 1] !in xs[..|xs| - 1]
  {
  }

  type Labels = map<string, string>

  /** The final discount after processing objects whose labels are
      `labels`, in order, starting from `d0`: the last object's label wins.
      It is meaningful only when every label is accepted (`AllAdmitted`),
      which every use requires: a rejected label stops the pass, and the
      fold's own contract then gives the discount it leaves. */
  function LastWritten(labels: seq<Labels>, key: string, parse: FloatParser, d0: real): real {
    if |labels| == 0 then d0
    else match ReadDiscount(labels[|labels| - 1], key, parse)
      case Accepted(x) => x
      case _ => d0
  }

  /** Every object in `labels` has an accepted discount. */
  predicate AllAdmitted(labels: seq<Labels>, key: string, parse: FloatParser) {
    forall i :: 0 <= i < |labels| ==> ReadDiscount(labels[i], key, parse).Accepted?
  }

  /** The labels of `objs`, in order. */
  function LabelsOf<T>(labelsOf: T -> Labels, objs: seq<T>): seq<Labels> {
    seq(|objs|, i requires 0 <= i < |objs| => labelsOf(objs[i]))
  }

  // ---------------------------------------------------------------------
  // The per-object loop shared by all four passes
  // ---------------------------------------------------------------------

  /** The objects of one tenant, in listing order: each passes the discount
      gate, then `add` folds it into the map. A stopped pass ignores the rest. */
  function Fold<T, V>(key: string, parse: FloatParser, labelsOf: T -> Labels,
                      add: (string, map<string, V>, T) -> map<string, V>,
                      tenant: string, st: Read<V>, objs: seq<T>): Read<V>
    decreases |objs|
  {
    if |objs| == 0 then st
    else
      var mid := Fold(key, parse, labelsOf, add, tenant, st, objs[..|objs| - 1]);
      var o := objs[|objs| - 1];
      if !mid.status.Complete? then mid
      else Admit(mid, ReadDiscount(labelsOf(o), key, parse), add(tenant, mid.sums, o))
  }

  /** What the fold adds up when nothing stops it. */
  function AddAll<T, V>(add: (string, map<string, V>, T) -> map<string, V>,
                        tenant: string, m: map<string, V>, objs: seq<T>): map<string, V>
  {
    if |objs| == 0 then m else add(tenant, AddAll(add, tenant, m, objs[..|objs| - 1]), objs[|objs| - 1])
  }

  lemma {:induction false} FoldStopped<T, V>(key: string, parse: FloatParser, labelsOf: T -> Labels,
                                              add: (string, map<string, V>, T) -> map<string, V>,
                                              tenant: string, st: Read<V>, objs: seq<T>)
    requires !st.status.Complete?
    ensures Fold(key, parse, labelsOf, add, tenant, st, objs) == st
    decreases |objs|
  {
    if |objs| > 0 {
      FoldStopped(key, parse, labelsOf, add, tenant, st, objs[..|objs| - 1]);
    }
  }

  /** A tenant's objects go through exactly when every one of their
      discount labels is accepted. */
  lemma {:induction false} FoldStatus<T, V>(key: string, parse: FloatParser, labelsOf: T -> Labels,
                                             add: (string, map<string, V>, T) -> map<string, V>,
                                             tenant: string, st: Read<V>, objs: seq<T>)
    requires st.status.Complete?
    ensures Fold(key, parse, labelsOf, add, tenant, st, objs).status.Complete? <==>
            AllAdmitted(LabelsOf(labelsOf, objs), key, parse)
    decreases |objs|
  {
    if |objs| > 0 {
      var init := objs[..|objs| - 1];
      FoldStatus(key, parse, labelsOf, add, tenant, st, init);
      var all := LabelsOf(labelsOf, objs);
      assert LabelsOf(labelsOf, init) == all[..|objs| - 1];
      assert all[|objs| - 1] == labelsOf(objs[|objs| - 1]);
      var mid := Fold(key, parse, labelsOf, add, tenant, st, init);
      if mid.status.Complete? {
        if AllAdmitted(LabelsOf(labelsOf, init), key, parse) && ReadDiscount(all[|objs| - 1], key, parse).Accepted? {
          forall i | 0 <= i < |objs|
            ensures ReadDiscount(all[i], key, parse).Accepted?
          {
            if i < |init| {
              assert all[i] == LabelsOf(labelsOf, init)[i];
            }
          }
        }
      } else {
        var i :| 0 <= i < |init| && !ReadDiscount(LabelsOf(labelsOf, init)[i], key, parse).Accepted?;
        assert all[i] == LabelsOf(labelsOf, init)[i];
      }
    }
  }

  /** When every label is accepted the fold adds every object and leaves
      the last object's discount in the variable. */
  lemma {:induction false} FoldAdmitted<T, V>(key: string, parse: FloatParser, labelsOf: T -> Labels,
                                               add: (string, map<string, V>, T) -> map<string, V>,
                                               tenant: string, st: Read<V>, objs: seq<T>)
    requires st.status.Complete?
    requires AllAdmitted(LabelsOf(labelsOf, objs), key, parse)
    ensures var r := Fold(key, parse, labelsOf, add, tenant, st, objs);
      && r.status.Complete?
      && r.sums == AddAll(add, tenant, st.sums, objs)
      && r.discount == LastWritten(LabelsOf(labelsOf, objs), key, parse, st.discount)
    decreases |objs|
  {
    if |objs| > 0 {
      var init := objs[..|objs| - 1];
      var all := LabelsOf(labelsOf, objs);
      assert LabelsOf(labelsOf, init) == all[..|objs| - 1];
      FoldAdmitted(key, parse, labelsOf, add, tenant, st, init);
      assert ReadDiscount(all[|objs| - 1], key, parse).Accepted?;
    }
  }

  /** The last object's label wins across a concatenation too. */
  lemma {:induction false} LastWrittenAppend(a: seq<Labels>, b: seq<Labels>, key: string, parse: FloatParser, d0: real)
    ensures LastWritten(a + b, key, parse, d0) == LastWritten(b, key, parse, LastWritten(a, key, parse, d0))
            || !AllAdmitted(b, key, parse)
  {
    if |b| > 0 {
      assert (a + b)[|a + b| - 1] == b[|b| - 1];
    } else {
      assert a + b == a;
    }
  }

  /** A discount that starts as a fraction in [0, 1] stays one: the
      variable is only ever overwritten with an accepted label. */
  lemma {:induction false} FoldKeepsFraction<T, V>(key: string, parse: FloatParser, labelsOf: T -> Labels,
                                                    add: (string, map<string, V>, T) -> map<string, V>,
                                                    tenant: string, st: Read<V>, objs: seq<T>)
    requires Pricing.ValidFraction(st.discount)
    ensures Pricing.ValidFraction(Fold(key, parse, labelsOf, add, tenant, st, objs).discount)
    decreases |objs|
  {
    if |objs| > 0 {
      FoldKeepsFraction(key, parse, labelsOf, add, tenant, st, objs[..|objs| - 1]);
    }
  }

  // ---------------------------------------------------------------------
  // The per-tenant loop of the CPU, memory and ingress passes
  // ---------------------------------------------------------------------

  function ListingAt<T>(lists: map<string, Listing<T>>, ns: string): Listing<T> {
    if ns in lists then lists[ns] else Listed([])
  }

  /** One tenant: list its namespace, abort on a hard list error, else fold its objects. */
  function TenantStep<T, V>(lists: map<string, Listing<T>>, key: string, parse: FloatParser,
                            labelsOf: T -> Labels, add: (string, map<string, V>, T) -> map<string, V>,
                            st: Read<V>, tenant: string): Read<V>
  {
    if !st.status.Complete? then st
    else match ListItems(ListingAt(lists, tenant))
      case Failure(e) => st.(status := Failed(e))
      case Success(objs) => Fold(key, parse, labelsOf, add, tenant, st, objs)
  }

  /** The tenants in the order given, from an empty map and the discount `d0`. */
  function Pass<T, V>(lists: map<string, Listing<T>>, key: string, parse: FloatParser,
                      labelsOf: T -> Labels, add: (string, map<string, V>, T) -> map<string, V>,
                      tenants: seq<string>, d0: real): Read<V>
  {
    if |tenants| == 0 then Read(Complete, map[], d0)
    else TenantStep(lists, key, parse, labelsOf, add,
                    Pass(lists, key, parse, labelsOf, add, tenants[..|tenants| - 1], d0), tenants[|tenants| - 1])
  }

  /** A tenant a pass gets through: its namespace lists (or is not found)
      and every listed object's discount label is accepted. */
  predicate Admitted<T>(lists: map<string, Listing<T>>, key: string, parse: FloatParser,
                        labelsOf: T -> Labels, tenant: string)
  {
    ListItems(ListingAt(lists, tenant)).Success? &&
    AllAdmitted(LabelsOf(labelsOf, ItemsOf(ListingAt(lists, tenant))), key, parse)
  }

  /** Every tenant of `tenants` is admitted. */
  predicate AllTenantsAdmitted<T>(lists: map<string, Listing<T>>, key: string, parse: FloatParser,
                                  labelsOf: T -> Labels, tenants: seq<string>)
  {
    forall i :: 0 <= i < |tenants| ==> Admitted(lists, key, parse, labelsOf, tenants[i])
  }

  /** The labels of every object a pass visits, tenant after tenant. */
  function AllLabels<T>(lists: map<string, Listing<T>>, labelsOf: T -> Labels, tenants: seq<string>): seq<Labels> {
    if |tenants| == 0 then []
    else AllLabels(lists, labelsOf, tenants[..|tenants| - 1]) + LabelsOf(labelsOf, ItemsOf(ListingAt(lists, tenants[|tenants| - 1])))
  }

  /** A pass returns a map exactly when every requested tenant is admitted;
      any hard list error or rejected discount label leaves it without one. */
  lemma {:induction false} PassStatus<T, V>(lists: map<string, Listing<T>>, key: string, parse: FloatParser,
                                             labelsOf: T -> Labels, add: (string, map<string, V>, T) -> map<string, V>,
                                             tenants: seq<string>, d0: real)
    ensures Pass(lists, key, parse, labelsOf, add, tenants, d0).status.Complete? <==>
            AllTenantsAdmitted(lists, key, parse, labelsOf, tenants)
  {
    if |tenants| > 0 {
      var init := tenants[..|tenants| - 1];
      var t := tenants[|tenants| - 1];
      PassStatus(lists, key, parse, labelsOf, add, init, d0);
      var mid := Pass(lists, key, parse, labelsOf, add, init, d0);
      if mid.status.Complete? {
        if ListItems(ListingAt(lists, t)).Success? {
          FoldStatus(key, parse, labelsOf, add, t, mid, ItemsOf(ListingAt(lists, t)));
        }
        if Admitted(lists, key, parse, labelsOf, t) {
          forall i | 0 <= i < |tenants|
            ensures Admitted(lists, key, parse, labelsOf, tenants[i])
          {
            if i < |init| {
              assert tenants[i] == init[i];
            }
          }
        }
      } else {
        var i :| 0 <= i < |init| && !Admitted(lists, key, parse, labelsOf, init[i]);
        assert tenants[i] == init[i];
      }
    }
  }

  /** When a pass completes it has folded every tenant's objects, and the
      discount variable holds the label of the last object visited across
      all tenants, or `d0` when there was none (last write wins). */
  lemma {:induction false} PassAdmitted<T, V>(lists: map<string, Listing<T>>, key: string, parse: FloatParser,
                                               labelsOf: T -> Labels, add: (string, map<string, V>, T) -> map<string, V>,
                                               tenants: seq<string>, d0: real)
    requires AllTenantsAdmitted(lists, key, parse, labelsOf, tenants)
    ensures var r := Pass(lists, key, parse, labelsOf, add, tenants, d0);
      && r.status.Complete?
      && r.discount == LastWritten(AllLabels(lists, labelsOf, tenants), key, parse, d0)
      && (|tenants| > 0 ==>
            r.sums == AddAll(add, tenants[|tenants| - 1],
                             Pass(lists, key, parse, labelsOf, add, tenants[..|tenants| - 1], d0).sums,
                             ItemsOf(ListingAt(lists, tenants[|tenants| - 1]))))
  {
    if |tenants| > 0 {
      var init := tenants[..|tenants| - 1];
      var t := tenants[|tenants| - 1];
      forall i | 0 <= i < |init| ensures Admitted(lists, key, parse, labelsOf, init[i]) {
        assert init[i] == tenants[i];
      }
      PassAdmitted(lists, key, parse, labelsOf, add, init, d0);
      var mid := Pass(lists, key, parse, labelsOf, add, init, d0);
      var objs := ItemsOf(ListingAt(lists, t));
      FoldAdmitted(key, parse, labelsOf, add, t, mid, objs);
      LastWrittenAppend(AllLabels(lists, labelsOf, init), LabelsOf(labelsOf, objs), key, parse, d0);
    }
  }

  /** Whatever happens, the discount variable keeps holding a fraction in
      [0, 1] if it started as one. */
  lemma {:induction false} PassKeepsFraction<T, V>(lists: map<string, Listing<T>>, key: string, parse: FloatParser,
                                                    labelsOf: T -> Labels, add: (string, map<string, V>, T) -> map<string, V>,
                                                    tenants: seq<string>, d0: real)
    requires Pricing.ValidFraction(d0)
    ensures Pricing.ValidFraction(Pass(lists, key, parse, labelsOf, add, tenants, d0).discount)
  {
    if |tenants| > 0 {
      var init := tenants[..|tenants| - 1];
      PassKeepsFraction(lists, key, parse, labelsOf, add, init, d0);
      var mid := Pass(lists, key, parse, labelsOf, add, init, d0);
      if mid.status.Complete? && ListItems(ListingAt(lists, tenants[|tenants| - 1])).Success? {
        FoldKeepsFraction(key, parse, labelsOf, add, tenants[|tenants| - 1], mid, ItemsOf(ListingAt(lists, tenants[|tenants| - 1])));
      }
    }
  }
  // ---------------------------------------------------------------------
  // CPU and memory: GetCPURequestsSumByTenant, GetMemoryRequestsSumByTenant
  // ---------------------------------------------------------------------

  /** The two pod requests that are summed per tenant. */
  datatype PodResource = CpuMillis | MemoryBytes

  function Request(p: Pod, res: PodResource): nat {
    match res
    case CpuMillis => p.cpuMilli
    case MemoryBytes => p.memoryBytes
  }

  /** The reference sum: the requests of `pods`, added up. */
  function Total(pods: seq<Pod>, res: PodResource): nat {
    if |pods| == 0 then 0 else Total(pods[..|pods| - 1], res) + Request(pods[|pods| - 1], res)
  }

  function PodLabelsOf(p: Pod): Labels {
    p.labels
  }

  /** `tenantCPURequests[tenant] += ...MilliValue()`. */
  function AddCpu(tenant: string, m: map<string, nat>, p: Pod): map<string, nat> {
    m[tenant := Lookup(m, tenant, 0) + p.cpuMilli]
  }

  /** `tenantMemoryRequests[tenant] += ...Value()`. */
  function AddMemory(tenant: string, m: map<string, nat>, p: Pod): map<string, nat> {
    m[tenant := Lookup(m, tenant, 0) + p.memoryBytes]
  }

  function AddFor(res: PodResource): (string, map<string, nat>, Pod) -> map<string, nat> {
    match res
    case CpuMillis => AddCpu
    case MemoryBytes => AddMemory
  }

  /** The per-tenant pod request sums of one resource over `tenants`. */
  function RequestSums(s: Snapshot, key: string, parse: FloatParser, res: PodResource,
                       tenants: seq<string>, d0: real): Read<nat>
  {
    Pass(s.pods, key, parse, PodLabelsOf, AddFor(res), tenants, d0)
  }

  /** GetCPURequestsSumByTenant: millicores per tenant and the final CPU discount. */
  function CpuRequestsSum(key: string, parse: FloatParser, s: Snapshot, tenants: seq<string>, d0: real): Read<nat> {
    RequestSums(s, key, parse, CpuMillis, tenants, d0)
  }

  /** GetMemoryRequestsSumByTenant: bytes per tenant and the final memory discount. */
  function MemoryRequestsSum(key: string, parse: FloatParser, s: Snapshot, tenants: seq<string>, d0: real): Read<nat> {
    RequestSums(s, key, parse, MemoryBytes, tenants, d0)
  }

  lemma {:induction false} AddAllRequests(res: PodResource, tenant: string, m: map<string, nat>, pods: seq<Pod>)
    ensures AddAll(AddFor(res), tenant, m, pods) ==
            if |pods| == 0 then m else m[tenant := Lookup(m, tenant, 0) + Total(pods, res)]
  {
    if |pods| > 0 {
      AddAllRequests(res, tenant, m, pods[..|pods| - 1]);
    }
  }

  /** The pods of a tenant's namespace as the passes see them. */
  function PodsOf(s: Snapshot, tenant: string): seq<Pod> {
    ItemsOf(ListingAt(s.pods, tenant))
  }

  /** The CPU and memory passes over distinct tenants: the pass completes
      exactly when every tenant is admitted; then a tenant has an entry
      exactly when it is requested and has at least one pod (so a tenant
      without pods reads as 0), the entry is the total request of its pods,
      and the discount is the label of the last pod visited. */
  lemma {:induction false} RequestSumsSpec(s: Snapshot, key: string, parse: FloatParser, res: PodResource,
                                            tenants: seq<string>, d0: real)
    requires Distinct(tenants)
    ensures var r := RequestSums(s, key, parse, res, tenants, d0);
      && (r.status.Complete? <==> AllTenantsAdmitted(s.pods, key, parse, PodLabelsOf, tenants))
      && (r.status.Complete? ==>
            && (forall t :: t in r.sums <==> t in tenants && |PodsOf(s, t)| > 0)
            && (forall t :: t in r.sums ==> r.sums[t] == Total(PodsOf(s, t), res))
            && r.discount == LastWritten(AllLabels(s.pods, PodLabelsOf, tenants), key, parse, d0))
  {
    PassStatus(s.pods, key, parse, PodLabelsOf, AddFor(res), tenants, d0);
    var r := RequestSums(s, key, parse, res, tenants, d0);
    if r.status.Complete? {
      PassAdmitted(s.pods, key, parse, PodLabelsOf, AddFor(res), tenants, d0);
      if |tenants| > 0 {
        var init := tenants[..|tenants| - 1];
        var t := tenants[|tenants| - 1];
        DistinctPrefix(tenants);
        forall i | 0 <= i < |init| ensures Admitted(s.pods, key, parse, PodLabelsOf, init[i]) {
          assert init[i] == tenants[i];
        }
        PassStatus(s.pods, key, parse, PodLabelsOf, AddFor(res), init, d0);
        RequestSumsSpec(s, key, parse, res, init, d0);
        var mid := RequestSums(s, key, parse, res, init, d0);
        AddAllRequests(res, t, mid.sums, PodsOf(s, t));
        Seqs.Snoc(tenants);
      }
    }
  }

  // ---------------------------------------------------------------------
  // Ingress: GetIngressRequestsSumByTenant
  // ---------------------------------------------------------------------

  function IngressLabelsOf(i: Ingress): Labels {
    i.labels
  }

  /** An ingress the vcluster exclusion skips (after its discount was read). */
  predicate Skipped(i: Ingress, exclude: bool) {
    Text.Contains(i.name, "vcluster") && exclude
  }

  /** The reference list: the rule hosts of the ingresses that are not
      skipped, in listing order. */
  function CountedHosts(ings: seq<Ingress>, exclude: bool): seq<string> {
    if |ings| == 0 then []
    else CountedHosts(ings[..|ings| - 1], exclude) +
         (if Skipped(ings[|ings| - 1], exclude) then [] else ings[|ings| - 1].hosts)
  }

  /** Appending each rule host of one ingress; an ingress without rules
      creates no entry. */
  function AddHosts(exclude: bool, tenant: string, m: map<string, seq<string>>, i: Ingress): map<string, seq<string>> {
    if Skipped(i, exclude) || |i.hosts| == 0 then m
    else m[tenant := Lookup(m, tenant, []) + i.hosts]
  }

  function AddHostsAll(tenant: string, m: map<string, seq<string>>, i: Ingress): map<string, seq<string>> {
    AddHosts(false, tenant, m, i)
  }

  function AddHostsSkippingVcluster(tenant: string, m: map<string, seq<string>>, i: Ingress): map<string, seq<string>> {
    AddHosts(true, tenant, m, i)
  }

  function AddHostsFor(exclude: bool): (string, map<string, seq<string>>, Ingress) -> map<string, seq<string>> {
    if exclude then AddHostsSkippingVcluster else AddHostsAll
  }

  /** GetIngressRequestsSumByTenant: rule hosts per tenant and the final
      ingress discount; `exclude` is EXCLUDE_INGRESS_VCLUSTER. */
  function IngressRequestsSum(key: string, parse: FloatParser, exclude: bool, s: Snapshot,
                              tenants: seq<string>, d0: real): Read<seq<string>>
  {
    Pass(s.ingresses, key, parse, IngressLabelsOf, AddHostsFor(exclude), tenants, d0)
  }

  /** Appending `hosts` to an entry that already holds `before` appends
      `before + hosts` to what the entry held at first. */
  lemma {:induction false} HostsOnto(tenant: string, m: map<string, seq<string>>, before: seq<string>,
                                     hosts: seq<string>, mid: map<string, seq<string>>)
    requires mid == if |before| == 0 then m else m[tenant := Lookup(m, tenant, []) + before]
    requires |hosts| > 0
    ensures mid[tenant := Lookup(mid, tenant, []) + hosts] == m[tenant := Lookup(m, tenant, []) + (before + hosts)]
  {
    if |before| == 0 {
      assert before + hosts == hosts;
    } else {
      assert Lookup(m, tenant, []) + before + hosts == Lookup(m, tenant, []) + (before + hosts);
    }
  }

  lemma {:induction false} AddAllHosts(exclude: bool, tenant: string, m: map<string, seq<string>>, ings: seq<Ingress>)
    ensures AddAll(AddHostsFor(exclude), tenant, m, ings) ==
            if |CountedHosts(ings, exclude)| == 0 then m
            else m[tenant := Lookup(m, tenant, []) + CountedHosts(ings, exclude)]
  {
    if |ings| > 0 {
      var init := ings[..|ings| - 1];
      AddAllHosts(exclude, tenant, m, init);
      var before := CountedHosts(init, exclude);
      var last := ings[|ings| - 1];
      var mid := AddAll(AddHostsFor(exclude), tenant, m, init);
      assert AddHostsFor(exclude)(tenant, mid, last) == AddHosts(exclude, tenant, mid, last);
      if !Skipped(last, exclude) && |last.hosts| > 0 {
        assert CountedHosts(ings, exclude) == before + last.hosts;
        HostsOnto(tenant, m, before, last.hosts, mid);
      } else {
        assert CountedHosts(ings, exclude) == before;
      }
    }
  }

  /** The ingresses of a tenant's namespace as the pass sees them. */
  function IngressesOf(s: Snapshot, tenant: string): seq<Ingress> {
    ItemsOf(ListingAt(s.ingresses, tenant))
  }

  /** The ingress pass over distinct tenants: it completes exactly when
      every tenant is admitted; then a tenant has an entry exactly when its
      counted ingresses have at least one rule host, the entry lists those
      hosts in order, and the discount is the label of the last ingress
      visited, skipped vcluster ingresses included. */
  lemma {:induction false} IngressRequestsSpec(s: Snapshot, key: string, parse: FloatParser, exclude: bool,
                                                tenants: seq<string>, d0: real)
    requires Distinct(tenants)
    ensures var r := IngressRequestsSum(key, parse, exclude, s, tenants, d0);
      && (r.status.Complete? <==> AllTenantsAdmitted(s.ingresses, key, parse, IngressLabelsOf, tenants))
      && (r.status.Complete? ==>
            && (forall t :: t in r.sums <==> t in tenants && |CountedHosts(IngressesOf(s, t), exclude)| > 0)
            && (forall t :: t in r.sums ==> r.sums[t] == CountedHosts(IngressesOf(s, t), exclude))
            && r.discount == LastWritten(AllLabels(s.ingresses, IngressLabelsOf, tenants), key, parse, d0))
  {
    PassStatus(s.ingresses, key, parse, IngressLabelsOf, AddHostsFor(exclude), tenants, d0);
    var r := IngressRequestsSum(key, parse, exclude, s, tenants, d0);
    if r.status.Complete? {
      PassAdmitted(s.ingresses, key, parse, IngressLabelsOf, AddHostsFor(exclude), tenants, d0);
      if |tenants| > 0 {
        var init := tenants[..|tenants| - 1];
        var t := tenants[|tenants| - 1];
        DistinctPrefix(tenants);
        forall i | 0 <= i < |init| ensures Admitted(s.ingresses, key, parse, IngressLabelsOf, init[i]) {
          assert init[i] == tenants[i];
        }
        PassStatus(s.ingresses, key, parse, IngressLabelsOf, AddHostsFor(exclude), init, d0);
        IngressRequestsSpec(s, key, parse, exclude, init, d0);
        var mid := IngressRequestsSum(key, parse, exclude, s, init, d0);
        AddAllHosts(exclude, t, mid.sums, IngressesOf(s, t));
        HostsStep(s, exclude, tenants, mid.sums, r.sums);
      }
    }
  }

  /** The per-tenant host map after one more tenant `t`, not seen before:
      `t` gains an entry exactly when its counted hosts are non-empty. */
  lemma {:induction false} HostsStep(s: Snapshot, exclude: bool, tenants: seq<string>,
                                     mid: map<string, seq<string>>, sums: map<string, seq<string>>)
    requires |tenants| > 0 && tenants[|tenants| - 1] !in tenants[..|tenants| - 1]
    requires forall u :: u in mid <==> u in tenants[..|tenants| - 1] && |CountedHosts(IngressesOf(s, u), exclude)| > 0
    requires forall u :: u in mid ==> mid[u] == CountedHosts(IngressesOf(s, u), exclude)
    requires var t := tenants[|tenants| - 1]; var hosts := CountedHosts(IngressesOf(s, t), exclude);
             sums == if |hosts| == 0 then mid else mid[t := Lookup(mid, t, []) + hosts]
    ensures forall u :: u in sums <==> u in tenants && |CountedHosts(IngressesOf(s, u), exclude)| > 0
    ensures forall u :: u in sums ==> sums[u] == CountedHosts(IngressesOf(s, u), exclude)
  {
    var t := tenants[|tenants| - 1];
    Seqs.Snoc(tenants);
    assert Lookup(mid, t, []) == [];
  }
  // ---------------------------------------------------------------------
  // Storage: GetStorageRequestsSumByTenant
  // ---------------------------------------------------------------------

  function ClaimLabelsOf(c: Claim): Labels {
    c.labels
  }

  /** The storage classes that occur among `claims`. */
  function ClassesOf(claims: seq<Claim>): set<string> {
    set i | 0 <= i < |claims| :: claims[i].storageClass
  }

  /** The requested bytes of the claims of class `sc`. */
  function ClassBytes(claims: seq<Claim>, sc: string): nat {
    if |claims| == 0 then 0
    else ClassBytes(claims[..|claims| - 1], sc) +
         (if claims[|claims| - 1].storageClass == sc then claims[|claims| - 1].bytes else 0)
  }

  /** The reference per-class sums: one entry per class that occurs, holding
      the bytes requested in that class. */
  function ClassTotals(claims: seq<Claim>): map<string, nat> {
    map sc | sc in ClassesOf(claims) :: ClassBytes(claims, sc)
  }

  /** `tenantPVCs[tenant][class] += ...Storage().Value()`. */
  function AddClaim(tenant: string, m: map<string, map<string, nat>>, c: Claim): map<string, map<string, nat>> {
    var inner := Lookup(m, tenant, map[]);
    m[tenant := inner[c.storageClass := Lookup(inner, c.storageClass, 0) + c.bytes]]
  }

  /** One tenant of the storage pass: its entry is reset to an empty map
      once its claims list, and removed again if no claim filled it. */
  function TenantClaims(s: Snapshot, key: string, parse: FloatParser,
                        st: Read<map<string, nat>>, tenant: string): Read<map<string, nat>>
  {
    if !st.status.Complete? then st
    else match ListItems(ListingAt(s.claims, tenant))
      case Failure(e) => st.(status := Failed(e))
      case Success(claims) =>
        var r := Fold(key, parse, ClaimLabelsOf, AddClaim, tenant, st.(sums := st.sums[tenant := map[]]), claims);
        if r.status.Complete? && tenant in r.sums && |r.sums[tenant]| == 0 then r.(sums := r.sums - {tenant})
        else r
  }

  /** GetStorageRequestsSumByTenant: per-tenant, per-class requested bytes
      and the final storage discount. */
  function StorageRequestsSum(key: string, parse: FloatParser, s: Snapshot,
                              tenants: seq<string>, d0: real): Read<map<string, nat>>
  {
    if |tenants| == 0 then Read(Complete, map[], d0)
    else TenantClaims(s, key, parse, StorageRequestsSum(key, parse, s, tenants[..|tenants| - 1], d0), tenants[|tenants| - 1])
  }

  lemma {:induction false} ClassBytesAbsent(claims: seq<Claim>, sc: string)
    requires sc !in ClassesOf(claims)
    ensures ClassBytes(claims, sc) == 0
  {
    if |claims| > 0 {
      var init := claims[..|claims| - 1];
      assert ClassesOf(init) <= ClassesOf(claims) by {
        forall x | x in ClassesOf(init) ensures x in ClassesOf(claims) {
          var i :| 0 <= i < |init| && init[i].storageClass == x;
          assert claims[i] == init[i];
        }
      }
      ClassBytesAbsent(init, sc);
      assert claims[|claims| - 1].storageClass in ClassesOf(claims);
    }
  }

  /** Adding one more claim to the reference sums. */
  lemma {:induction false} ClassTotalsSnoc(claims: seq<Claim>)
    requires |claims| > 0
    ensures var init := claims[..|claims| - 1];
            var c := claims[|claims| - 1];
            ClassTotals(claims) == ClassTotals(init)[c.storageClass := Lookup(ClassTotals(init), c.storageClass, 0) + c.bytes]
  {
    var init := claims[..|claims| - 1];
    var c := claims[|claims| - 1];
    assert ClassesOf(claims) == ClassesOf(init) + {c.storageClass} by {
      forall x | x in ClassesOf(claims) ensures x in ClassesOf(init) + {c.storageClass} {
        var i :| 0 <= i < |claims| && claims[i].storageClass == x;
        if i < |init| {
          assert init[i] == claims[i];
        }
      }
      forall x | x in ClassesOf(init) ensures x in ClassesOf(claims) {
        var i :| 0 <= i < |init| && init[i].storageClass == x;
        assert claims[i] == init[i];
      }
    }
    if c.storageClass !in ClassesOf(init) {
      ClassBytesAbsent(init, c.storageClass);
    }
  }

  lemma {:induction false} AddAllClaims(tenant: string, m: map<string, map<string, nat>>, claims: seq<Claim>)
    ensures AddAll(AddClaim, tenant, m[tenant := map[]], claims) == m[tenant := ClassTotals(claims)]
  {
    if |claims| == 0 {
      ClassTotalsNil(claims);
    } else {
      var init := claims[..|claims| - 1];
      var c := claims[|claims| - 1];
      calc {
        AddAll(AddClaim, tenant, m[tenant := map[]], claims);
        AddClaim(tenant, AddAll(AddClaim, tenant, m[tenant := map[]], init), c);
        { AddAllClaims(tenant, m, init); }
        AddClaim(tenant, m[tenant := ClassTotals(init)], c);
        { AddClaimOnto(tenant, m, ClassTotals(init), c); }
        m[tenant := ClassTotals(init)[c.storageClass := Lookup(ClassTotals(init), c.storageClass, 0) + c.bytes]];
        { ClassTotalsSnoc(claims); }
        m[tenant := ClassTotals(claims)];
      }
    }
  }

  lemma {:induction false} ClassTotalsNil(claims: seq<Claim>)
    requires |claims| == 0
    ensures ClassTotals(claims) == map[]
  {
    assert ClassesOf(claims) == {};
  }

  /** Adding a claim to a tenant's entry updates only that entry. */
  lemma {:induction false} AddClaimOnto(tenant: string, m: map<string, map<string, nat>>, inner: map<string, nat>, c: Claim)
    ensures AddClaim(tenant, m[tenant := inner], c) ==
            m[tenant := inner[c.storageClass := Lookup(inner, c.storageClass, 0) + c.bytes]]
  {
    assert Lookup(m[tenant := inner], tenant, map[]) == inner;
  }

  lemma {:induction false} ClassTotalsEmpty(claims: seq<Claim>)
    ensures |ClassTotals(claims)| == 0 <==> |claims| == 0
  {
    if |claims| > 0 {
      assert claims[0].storageClass in ClassTotals(claims);
    } else {
      assert ClassesOf(claims) == {};
    }
  }

  /** The claims of a tenant's namespace as the pass sees them. */
  function ClaimsOf(s: Snapshot, tenant: string): seq<Claim> {
    ItemsOf(ListingAt(s.claims, tenant))
  }

  /** One tenant of the storage pass goes through exactly when it is admitted. */
  lemma {:induction false} TenantClaimsStatus(s: Snapshot, key: string, parse: FloatParser, st: Read<map<string, nat>>, tenant: string)
    requires st.status.Complete?
    ensures TenantClaims(s, key, parse, st, tenant).status.Complete? <==> Admitted(s.claims, key, parse, ClaimLabelsOf, tenant)
  {
    if ListItems(ListingAt(s.claims, tenant)).Success? {
      FoldStatus(key, parse, ClaimLabelsOf, AddClaim, tenant, st.(sums := st.sums[tenant := map[]]), ClaimsOf(s, tenant));
    }
  }

  /** An admitted tenant's entry becomes its per-class sums, or disappears
      when it has no claims. */
  lemma {:induction false} TenantClaimsAdmitted(s: Snapshot, key: string, parse: FloatParser, st: Read<map<string, nat>>, tenant: string)
    requires st.status.Complete?
    requires Admitted(s.claims, key, parse, ClaimLabelsOf, tenant)
    ensures var r := TenantClaims(s, key, parse, st, tenant);
      && r.status.Complete?
      && r.sums == (if |ClaimsOf(s, tenant)| == 0 then st.sums - {tenant} else st.sums[tenant := ClassTotals(ClaimsOf(s, tenant))])
      && r.discount == LastWritten(LabelsOf(ClaimLabelsOf, ClaimsOf(s, tenant)), key, parse, st.discount)
  {
    var claims := ClaimsOf(s, tenant);
    var start := st.(sums := st.sums[tenant := map[]]);
    FoldAdmitted(key, parse, ClaimLabelsOf, AddClaim, tenant, start, claims);
    AddAllClaims(tenant, st.sums, claims);
    ClassTotalsEmpty(claims);
    if |claims| == 0 {
      assert st.sums[tenant := map[]] - {tenant} == st.sums - {tenant};
    }
  }

  /** The storage pass returns a map exactly when every tenant is admitted. */
  lemma {:induction false} StorageRequestsStatus(s: Snapshot, key: string, parse: FloatParser,
                                                  tenants: seq<string>, d0: real)
    ensures StorageRequestsSum(key, parse, s, tenants, d0).status.Complete? <==>
            AllTenantsAdmitted(s.claims, key, parse, ClaimLabelsOf, tenants)
  {
    if |tenants| > 0 {
      var init := tenants[..|tenants| - 1];
      StorageRequestsStatus(s, key, parse, init, d0);
      AdmittedSnoc(s.claims, key, parse, ClaimLabelsOf, tenants);
      var mid := StorageRequestsSum(key, parse, s, init, d0);
      if mid.status.Complete? {
        TenantClaimsStatus(s, key, parse, mid, tenants[|tenants| - 1]);
      }
    }
  }

  /** Every tenant of a non-empty list is admitted exactly when those before
      the last one are and the last one is. */
  lemma {:induction false} AdmittedSnoc<T>(lists: map<string, Listing<T>>, key: string, parse: FloatParser,
                        labelsOf: T -> Labels, tenants: seq<string>)
    requires |tenants| > 0
    ensures AllTenantsAdmitted(lists, key, parse, labelsOf, tenants) <==>
            AllTenantsAdmitted(lists, key, parse, labelsOf, tenants[..|tenants| - 1]) &&
            Admitted(lists, key, parse, labelsOf, tenants[|tenants| - 1])
  {
    var init := tenants[..|tenants| - 1];
    assert forall i :: 0 <= i < |init| ==> init[i] == tenants[i];
  }

  /** When the storage pass completes, a tenant has an entry exactly when
      it is requested and has at least one claim (a tenant with none is
      deleted, not mapped to an empty map), the entry maps each class
      present to the bytes requested in it, and the discount is the label of
      the last claim visited. Repeated tenants are harmless: each visit
      resets the entry. */
  lemma {:induction false} StorageRequestsValues(s: Snapshot, key: string, parse: FloatParser,
                                                  tenants: seq<string>, d0: real)
    requires AllTenantsAdmitted(s.claims, key, parse, ClaimLabelsOf, tenants)
    ensures StorageSumsFit(StorageRequestsSum(key, parse, s, tenants, d0), s, key, parse, tenants, d0)
  {
    if |tenants| > 0 {
      var init := tenants[..|tenants| - 1];
      var t := tenants[|tenants| - 1];
      AdmittedSnoc(s.claims, key, parse, ClaimLabelsOf, tenants);
      StorageRequestsValues(s, key, parse, init, d0);
      var mid := StorageRequestsSum(key, parse, s, init, d0);
      assert StorageRequestsSum(key, parse, s, tenants, d0) == TenantClaims(s, key, parse, mid, t);
      Seqs.Snoc(tenants);
      StorageValuesStep(s, key, parse, init, t, mid, d0);
    }
  }

  /** `r` is a completed storage read over `tenants` holding the sums and
      discount the reference definitions give. */
  ghost predicate StorageSumsFit(r: Read<map<string, nat>>, s: Snapshot, key: string,
                                 parse: FloatParser, tenants: seq<string>, d0: real) {
    && r.status.Complete?
    && (forall t :: t in r.sums <==> t in tenants && |ClaimsOf(s, t)| > 0)
    && (forall t :: t in r.sums ==> r.sums[t] == ClassTotals(ClaimsOf(s, t)))
    && r.discount == LastWritten(AllLabels(s.claims, ClaimLabelsOf, tenants), key, parse, d0)
  }

  lemma {:induction false} StorageValuesStep(s: Snapshot, key: string, parse: FloatParser, init: seq<string>, t: string,
                          mid: Read<map<string, nat>>, d0: real)
    requires StorageSumsFit(mid, s, key, parse, init, d0)
    requires Admitted(s.claims, key, parse, ClaimLabelsOf, t)
    ensures StorageSumsFit(TenantClaims(s, key, parse, mid, t), s, key, parse, init + [t], d0)
  {
    TenantClaimsAdmitted(s, key, parse, mid, t);
    StepKeys(s, key, parse, init, t, mid, d0);
    StepValues(s, key, parse, init, t, mid, d0);
    StepDiscount(s, key, parse, init, t, mid, d0);
    AllLabelsSnoc(s.claims, ClaimLabelsOf, init, t);
  }

  /** The labels a pass visits over one more tenant. */
  lemma {:induction false} AllLabelsSnoc<T>(lists: map<string, Listing<T>>, labelsOf: T -> Labels, init: seq<string>, t: string)
    ensures AllLabels(lists, labelsOf, init + [t]) ==
            AllLabels(lists, labelsOf, init) + LabelsOf(labelsOf, ItemsOf(ListingAt(lists, t)))
  {
    assert (init + [t])[..|init|] == init;
  }

  lemma {:induction false} StepKeys(s: Snapshot, key: string, parse: FloatParser, init: seq<string>, t: string,
                 mid: Read<map<string, nat>>, d0: real)
    requires StorageSumsFit(mid, s, key, parse, init, d0)
    requires Admitted(s.claims, key, parse, ClaimLabelsOf, t)
    ensures var r := TenantClaims(s, key, parse, mid, t);
            forall u :: u in r.sums <==> u in init + [t] && |ClaimsOf(s, u)| > 0
  {
    TenantClaimsAdmitted(s, key, parse, mid, t);
    KeysStep(s, init, t, mid.sums, TenantClaims(s, key, parse, mid, t).sums, ClassTotals(ClaimsOf(s, t)));
  }

  /** Resetting or deleting the last tenant's entry keeps the keys those
      tenants with claims. */
  lemma {:induction false} KeysStep(s: Snapshot, init: seq<string>, t: string,
                                    m: map<string, map<string, nat>>, r: map<string, map<string, nat>>,
                                    v: map<string, nat>)
    requires forall u :: u in m <==> u in init && |ClaimsOf(s, u)| > 0
    requires r == if |ClaimsOf(s, t)| == 0 then m - {t} else m[t := v]
    ensures forall u :: u in r <==> u in init + [t] && |ClaimsOf(s, u)| > 0
  {
    forall u
      ensures u in r <==> u in init + [t] && |ClaimsOf(s, u)| > 0
    {
      assert u in init + [t] <==> u in init || u == t;
    }
  }

  lemma {:induction false} StepValues(s: Snapshot, key: string, parse: FloatParser, init: seq<string>, t: string,
                   mid: Read<map<string, nat>>, d0: real)
    requires StorageSumsFit(mid, s, key, parse, init, d0)
    requires Admitted(s.claims, key, parse, ClaimLabelsOf, t)
    ensures var r := TenantClaims(s, key, parse, mid, t);
            forall u :: u in r.sums ==> r.sums[u] == ClassTotals(ClaimsOf(s, u))
  {
    TenantClaimsAdmitted(s, key, parse, mid, t);
  }

  lemma {:induction false} StepDiscount(s: Snapshot, key: string, parse: FloatParser, init: seq<string>, t: string,
                     mid: Read<map<string, nat>>, d0: real)
    requires StorageSumsFit(mid, s, key, parse, init, d0)
    requires Admitted(s.claims, key, parse, ClaimLabelsOf, t)
    ensures TenantClaims(s, key, parse, mid, t).discount ==
            LastWritten(AllLabels(s.claims, ClaimLabelsOf, init) + LabelsOf(ClaimLabelsOf, ClaimsOf(s, t)), key, parse, d0)
  {
    TenantClaimsAdmitted(s, key, parse, mid, t);
    LastWrittenAppend(AllLabels(s.claims, ClaimLabelsOf, init), LabelsOf(ClaimLabelsOf, ClaimsOf(s, t)), key, parse, d0);
  }

  // ---------------------------------------------------------------------
  // Object names: GetPodsByTenant, GetPVCsByTenantByStorageClass
  // ---------------------------------------------------------------------

  /** A pod's name cut at the first "-x-". */
  function ShortName(name: string): string {
    Text.Before(name, "-x-")
  }

  function ShortNames(pods: seq<Pod>): seq<string> {
    seq(|pods|, i requires 0 <= i < |pods| => ShortName(pods[i].name))
  }

  /** Every tenant's namespace lists (a namespace that is not found lists
      as empty). */
  predicate AllListed<T>(lists: map<string, Listing<T>>, tenants: seq<string>) {
    forall i :: 0 <= i < |tenants| ==> ListItems(ListingAt(lists, tenants[i])).Success?
  }

  lemma {:induction false} AllListedSnoc<T>(lists: map<string, Listing<T>>, tenants: seq<string>)
    requires |tenants| > 0
    ensures AllListed(lists, tenants) <==>
            AllListed(lists, tenants[..|tenants| - 1]) && ListItems(ListingAt(lists, tenants[|tenants| - 1])).Success?
  {
    var init := tenants[..|tenants| - 1];
    assert forall i :: 0 <= i < |init| ==> init[i] == tenants[i];
  }

  /** GetPodsByTenant: every requested tenant gets an entry, possibly empty,
      listing its pods' short names; a hard list error aborts. */
  function PodNamesByTenant(s: Snapshot, tenants: seq<string>): (r: Result<map<string, seq<string>>, ReadError>)
    ensures r.Success? <==> AllListed(s.pods, tenants)
    ensures r.Success? ==> r.value.Keys == set t | t in tenants
    ensures r.Success? ==> forall t :: t in r.value ==> r.value[t] == ShortNames(PodsOf(s, t))
  {
    if |tenants| == 0 then Success(map[])
    else
      var init := tenants[..|tenants| - 1];
      var t := tenants[|tenants| - 1];
      AllListedSnoc(s.pods, tenants);
      Seqs.SetSnoc(tenants, init);
      match PodNamesByTenant(s, init)
      case Failure(e) => Failure(e)
      case Success(m) =>
        match ListItems(ListingAt(s.pods, t))
        case Failure(e) => Failure(e)
        case Success(pods) => Success(m[t := ShortNames(pods)])
  }

  /** The names of the claims of class `sc`, in listing order. */
  function NamesOfClass(claims: seq<Claim>, sc: string): seq<string> {
    if |claims| == 0 then []
    else NamesOfClass(claims[..|claims| - 1], sc) +
         (if claims[|claims| - 1].storageClass == sc then [claims[|claims| - 1].name] else [])
  }

  /** One tenant's claims grouped by the cluster's classes: a class gets an
      entry once some claim of that class is appended; claims of classes
      outside `classes` are never listed. */
  function NamesByClass(claims: seq<Claim>, classes: seq<string>): (r: map<string, seq<string>>)
    ensures forall sc :: sc in r <==> sc in classes && |NamesOfClass(claims, sc)| > 0
  {
    if |classes| == 0 then map[]
    else
      var m := NamesByClass(claims, classes[..|classes| - 1]);
      var sc := classes[|classes| - 1];
      Seqs.Snoc(classes);
      var names := NamesOfClass(claims, sc);
      if |names| == 0 then m else m[sc := Lookup(m, sc, []) + names]
  }

  /** With distinct cluster classes, each entry lists exactly the names of
      the tenant's claims of that class. */
  lemma {:induction false} NamesByClassValues(claims: seq<Claim>, classes: seq<string>)
    requires Distinct(classes)
    ensures var r := NamesByClass(claims, classes);
            forall sc :: sc in r ==> r[sc] == NamesOfClass(claims, sc)
  {
    if |classes| > 0 {
      DistinctPrefix(classes);
      NamesByClassValues(claims, classes[..|classes| - 1]);
    }
  }

  /** GetStorageClassesInCluster: the class names, with the "not found" rule. */
  function StorageClassesInCluster(s: Snapshot): Result<seq<string>, ReadError> {
    ListItems(s.storageClasses)
  }

  /** GetPVCsByTenantByStorageClass: for each tenant, the names of its claims
      grouped by cluster storage class. The claim list is fetched once per
      class, so with no classes it is never fetched and cannot fail. */
  function ClaimNamesByTenant(s: Snapshot, tenants: seq<string>): (r: Result<map<string, map<string, seq<string>>>, ReadError>)
    ensures StorageClassesInCluster(s).Failure? ==> r == Failure(StorageClassesInCluster(s).error)
    ensures r.Success? ==> r.value.Keys == set t | t in tenants
    ensures r.Success? ==> forall t :: t in r.value ==> r.value[t] == NamesByClass(ClaimsOf(s, t), StorageClassesInCluster(s).value)
    ensures StorageClassesInCluster(s).Success? ==>
              (r.Success? <==> |StorageClassesInCluster(s).value| == 0 ||
                               AllListed(s.claims, tenants))
  {
    match StorageClassesInCluster(s)
    case Failure(e) => Failure(e)
    case Success(classes) => ClaimNamesLoop(s, classes, tenants)
  }

  function ClaimNamesLoop(s: Snapshot, classes: seq<string>, tenants: seq<string>): (r: Result<map<string, map<string, seq<string>>>, ReadError>)
    ensures r.Success? ==> r.value.Keys == set t | t in tenants
    ensures r.Success? ==> forall t :: t in r.value ==> r.value[t] == NamesByClass(ClaimsOf(s, t), classes)
    ensures r.Success? <==> |classes| == 0 || AllListed(s.claims, tenants)
  {
    if |tenants| == 0 then Success(map[])
    else
      var init := tenants[..|tenants| - 1];
      var t := tenants[|tenants| - 1];
      AllListedSnoc(s.claims, tenants);
      Seqs.SetSnoc(tenants, init);
      match ClaimNamesLoop(s, classes, init)
      case Failure(e) => Failure(e)
      case Success(m) =>
        if |classes| == 0 then Success(m[t := map[]])
        else match ListItems(ListingAt(s.claims, t))
          case Failure(e) => Failure(e)
          case Success(claims) => Success(m[t := NamesByClass(claims, classes)])
  }
}

=== FILE: env.dfy ===
/** LoadEnv of util/env.go: the settings read from the process
    environment, with their required entries, defaults and fatal checks,
    and the storage price table built from the `STORAGE_COST_<class>`
    entries and checked against the storage classes of the cluster. */
module Env {
  import opened Wrappers
  import opened Text
  import Pricing
  import Cluster
  import Seqs

  /** The process environment as `os.Environ()` lists it: `KEY=VALUE`
      strings, in order. Go's runtime drops later duplicates when it copies
      the environment, so a real listing names each key at most once. The
      type does not enforce this: on a listing with a repeated key, `Getenv`
      takes the first entry and `StorageTable` the last, and no Go process
      sees such a listing. */
  type Environ = seq<string>

  /** The external integer parser (`strconv.Atoi`): `None` on a syntax or
      range error. */
  type IntParser = string -> Option<int>

  /** `os.Getenv`: the value of the first entry for `key`, and the empty
      string when there is none. */
  function Getenv(environ: Environ, key: string): string {
    if |environ| == 0 then ""
    else if HasPrefix(environ[0], key + "=") then environ[0][|key| + 1..]
    else Getenv(environ[1..], key)
  }

  /** The value of an entry is found whatever follows it and whatever
      precedes it, as long as no earlier entry sets the same key. */
  lemma {:induction false} GetenvFinds(pre: Environ, key: string, value: string, post: Environ)
    requires forall i :: 0 <= i < |pre| ==> !HasPrefix(pre[i], key + "=")
    ensures Getenv(pre + [key + "=" + value] + post, key) == value
  {
    var environ := pre + [key + "=" + value] + post;
    if |pre| == 0 {
      assert environ[0] == key + "=" + value;
      assert environ[0][..|key + "="|] == key + "=";
    } else {
      assert environ[1..] == pre[1..] + [key + "=" + value] + post;
      GetenvFinds(pre[1..], key, value, post);
    }
  }

  /** A key no entry sets reads as the empty string. */
  lemma {:induction false} GetenvUnset(environ: Environ, key: string)
    requires forall i :: 0 <= i < |environ| ==> !HasPrefix(environ[i], key + "=")
    ensures Getenv(environ, key) == ""
  {
    if |environ| > 0 {
      GetenvUnset(environ[1..], key);
    }
  }

  // ---------------------------------------------------------------------
  // strconv.ParseBool
  // ---------------------------------------------------------------------

  /** `strconv.ParseBool`: exactly the spellings Go accepts. */
  function ParseBool(s: string): Option<bool> {
    if s == "1" || s == "t" || s == "T" || s == "TRUE" || s == "true" || s == "True" then Some(true)
    else if s == "0" || s == "f" || s == "F" || s == "FALSE" || s == "false" || s == "False" then Some(false)
    else None
  }

  /** `strconv.FormatBool`. */
  function FormatBool(b: bool): string {
    if b then "true" else "false"
  }

  /** Parsing a formatted boolean gives it back; case matters beyond the
      three spellings per value Go lists. */
  lemma {:induction false} ParseBoolFormat(b: bool)
    ensures ParseBool(FormatBool(b)) == Some(b)
    ensures ParseBool("yes") == None && ParseBool("tRue") == None
  {
  }

  /** A flag of the form `if X, err = ParseBool(..); !X || err != nil
      { X = false }`: set only when its value parses to true. */
  function Flag(environ: Environ, key: string): (r: bool)
    ensures r <==> ParseBool(Getenv(environ, key)) == Some(true)
  {
    match ParseBool(Getenv(environ, key))
    case Some(b) => b
    case None => false
  }

  // ---------------------------------------------------------------------
  // Numbers with defaults
  // ---------------------------------------------------------------------

  /** A unit price (CPU_COST, MEMORY_COST, INGRESS_COST): the parsed value,
      or 1.00 when it is unset, unparsable or zero. */
  function PriceOrDefault(text: string, parse: Cluster.FloatParser): (r: real)
    ensures r != 0.0
    ensures r == 1.0 || parse(text) == Some(r)
    ensures parse(text).Some? && parse(text).value != 0.0 ==> r == parse(text).value
  {
    match parse(text)
    case Some(v) => if v == 0.0 then 1.0 else v
    case None => 1.0
  }

  /** COST_PERSISTENCY_INTERVAL: the parsed number of seconds, or 3600
      (one hour) when it is unset, unparsable or zero. */
  function IntervalOrDefault(text: string, atoi: IntParser): (r: int)
    ensures r != 0
    ensures r == 3600 || atoi(text) == Some(r)
    ensures atoi(text).Some? && atoi(text).value != 0 ==> r == atoi(text).value
  {
    match atoi(text)
    case Some(v) => if v == 0 then 3600 else v
    case None => 3600
  }

  /** A text setting with a default for the empty string. */
  function TextOrDefault(environ: Environ, key: string, default: string): (r: string)
    ensures Getenv(environ, key) != "" ==> r == Getenv(environ, key)
    ensures Getenv(environ, key) == "" ==> r == default
  {
    var v := Getenv(environ, key);
    if v == "" then default else v
  }

  // ---------------------------------------------------------------------
  // The storage price table
  // ---------------------------------------------------------------------

  const StoragePrefix: string := "STORAGE_COST_"

  /** How one environment entry reads as a storage price. `Malformed` is an
      entry the source indexes past the end of (a panic). */
  datatype EntryRead = NotStorage | Malformed | Priced(storageClass: string, priceText: string)

  /** `keyValue := Split(env, "=")`, `key := Split(keyValue[0], "_")`: the
      class is `key[2]`, the price text `keyValue[1]`. */
  function ReadEntry(e: string): EntryRead {
    if !HasPrefix(e, StoragePrefix) then NotStorage
    else
      var keyValue := Split(e, '=');
      if |keyValue| < 2 then Malformed
      else
        var key := Split(keyValue[0], '_');
        if |key| < 3 then Malformed
        else Priced(key[2], keyValue[1])
  }

  /** `Split` on a string with no separator gives the string itself. */
  lemma {:induction false} SplitNone(a: string, c: char)
    requires c !in a
    ensures Split(a, c) == [a]
  {
    if |a| > 0 {
      assert c !in a[1..] by { assert forall x :: x in a[1..] ==> x in a; }
      SplitNone(a[1..], c);
      assert [a[0]] + a[1..] == a;
    }
  }

  /** `Split` on a string whose first separator follows `a`. */
  lemma {:induction false} SplitAt(a: string, c: char, b: string)
    requires c !in a
    ensures Split(a + [c] + b, c) == [a] + Split(b, c)
  {
    var s := a + [c] + b;
    if |a| == 0 {
      assert s == [c] + b;
      assert s[1..] == b;
    } else {
      assert c !in a[1..] by { assert forall x :: x in a[1..] ==> x in a; }
      assert s[1..] == a[1..] + [c] + b;
      SplitAt(a[1..], c, b);
      assert s[0] == a[0] && a[0] != c;
      assert [a[0]] + a[1..] == a;
    }
  }

  /** The first field of `x + tail` split on `c`, when `tail` is empty or
      begins with `c`, is `x`. */
  lemma {:induction false} FirstField(x: string, c: char, tail: string)
    requires c !in x
    requires tail == [] || tail[0] == c
    ensures Split(x + tail, c)[0] == x
  {
    if tail == [] {
      assert x + tail == x;
      SplitNone(x, c);
    } else {
      assert x + tail == x + [c] + tail[1..];
      SplitAt(x, c, tail[1..]);
    }
  }

  lemma {:induction false} NotIn(x: string, y: string, c: char)
    requires c !in x && c !in y
    ensures c !in x + y
  {
    assert forall z :: z in x + y ==> z in x || z in y;
  }

  /** The third `_` field of `STORAGE_COST_<class><tail>` is the class. */
  lemma {:induction false} KeyFields(storageClass: string, keyTail: string)
    requires '_' !in storageClass
    requires keyTail == [] || keyTail[0] == '_'
    ensures |Split(StoragePrefix + storageClass + keyTail, '_')| >= 3
    ensures Split(StoragePrefix + storageClass + keyTail, '_')[2] == storageClass
  {
    var rest := storageClass + keyTail;
    assert StoragePrefix + storageClass + keyTail == "STORAGE" + ['_'] + ("COST" + ['_'] + rest);
    SplitAt("STORAGE", '_', "COST" + ['_'] + rest);
    SplitAt("COST", '_', rest);
    FirstField(storageClass, '_', keyTail);
  }

  /** The first two `=` fields of `<key>=<price><tail>` are the key and the price. */
  lemma {:induction false} ValueFields(key: string, price: string, valueTail: string)
    requires '=' !in key && '=' !in price
    requires valueTail == [] || valueTail[0] == '='
    ensures |Split(key + "=" + price + valueTail, '=')| >= 2
    ensures Split(key + "=" + price + valueTail, '=')[0] == key
    ensures Split(key + "=" + price + valueTail, '=')[1] == price
  {
    assert key + "=" + price + valueTail == key + ['='] + (price + valueTail);
    SplitAt(key, '=', price + valueTail);
    FirstField(price, '=', valueTail);
  }

  /** An entry `STORAGE_COST_<class>[_...]=<price>[=...]` prices `class` at
      `price`: the class is the third `_` field of the key and the price is
      the text between the first and the second `=`. */
  lemma {:induction false} ReadEntryFields(storageClass: string, keyTail: string, price: string, valueTail: string)
    requires '_' !in storageClass && '=' !in storageClass && '=' !in keyTail && '=' !in price
    requires keyTail == [] || keyTail[0] == '_'
    requires valueTail == [] || valueTail[0] == '='
    ensures ReadEntry(StoragePrefix + storageClass + keyTail + "=" + price + valueTail) == Priced(storageClass, price)
  {
    var key := StoragePrefix + storageClass + keyTail;
    var e := key + "=" + price + valueTail;
    assert e[..|StoragePrefix|] == StoragePrefix;
    NotIn(storageClass, keyTail, '=');
    NotIn(StoragePrefix, storageClass + keyTail, '=');
    assert key == StoragePrefix + (storageClass + keyTail);
    ValueFields(key, price, valueTail);
    KeyFields(storageClass, keyTail);
  }

  /** Why LoadEnv gives up: it returns an error, it exits the process, or
      it indexes past the end of a split (a panic). */
  datatype LoadFailure = Returned(message: string) | Exited(message: string) | Panicked

  /** The entry `e` stops the parse: a storage entry that is malformed or
      whose price does not parse. */
  predicate Rejects(e: string, parse: Cluster.FloatParser) {
    ReadEntry(e).Malformed? || (ReadEntry(e).Priced? && parse(ReadEntry(e).priceText).None?)
  }

  /** What the parse reports for the entry that stops it. */
  function RejectionOf(e: string): LoadFailure {
    match ReadEntry(e)
    case Priced(c, _) => Returned("STORAGE_COST_" + c + " is not set or invalid float value")
    case _ => Panicked
  }

  /** The `for _, env := range os.Environ()` loop: every storage entry in
      turn, a later one for a class overwriting an earlier one, stopping at
      the first entry whose price does not parse. */
  function StorageTable(environ: Environ, parse: Cluster.FloatParser): Result<map<string, real>, LoadFailure> {
    if |environ| == 0 then Success(map[])
    else
      var e := environ[|environ| - 1];
      match StorageTable(environ[..|environ| - 1], parse)
      case Failure(f) => Failure(f)
      case Success(t) =>
        match ReadEntry(e)
        case NotStorage => Success(t)
        case Malformed => Failure(Panicked)
        case Priced(c, text) =>
          match parse(text)
          case None => Failure(RejectionOf(e))
          case Some(v) => Success(t[c := v])
  }

  /** `e` is a storage entry for class `c`. */
  predicate PricesClass(e: string, c: string) {
    ReadEntry(e).Priced? && ReadEntry(e).storageClass == c
  }

  /** The table fails exactly when some entry is rejected, and then with
      the error of the first such entry. */
  lemma {:induction false} StorageTableFailure(environ: Environ, parse: Cluster.FloatParser)
    ensures StorageTable(environ, parse).Failure? <==> exists i :: 0 <= i < |environ| && Rejects(environ[i], parse)
    ensures StorageTable(environ, parse).Failure? ==>
              exists i :: 0 <= i < |environ| && Rejects(environ[i], parse) &&
                (forall j :: 0 <= j < i ==> !Rejects(environ[j], parse)) &&
                StorageTable(environ, parse).error == RejectionOf(environ[i])
  {
    StorageTableFails(environ, parse);
    if StorageTable(environ, parse).Failure? {
      StorageTableFirstRejection(environ, parse);
    }
  }

  lemma {:induction false} StorageTableFails(environ: Environ, parse: Cluster.FloatParser)
    ensures StorageTable(environ, parse).Failure? <==> exists i :: 0 <= i < |environ| && Rejects(environ[i], parse)
  {
    if |environ| > 0 {
      var init := environ[..|environ| - 1];
      StorageTableFails(init, parse);
      assert forall i :: 0 <= i < |init| ==> init[i] == environ[i];
    }
  }

  lemma {:induction false} StorageTableFirstRejection(environ: Environ, parse: Cluster.FloatParser)
    requires StorageTable(environ, parse).Failure?
    ensures exists i :: 0 <= i < |environ| && Rejects(environ[i], parse) &&
              (forall j :: 0 <= j < i ==> !Rejects(environ[j], parse)) &&
              StorageTable(environ, parse).error == RejectionOf(environ[i])
  {
    var init := environ[..|environ| - 1];
    var e := environ[|environ| - 1];
    var r := StorageTable(environ, parse);
    if StorageTable(init, parse).Failure? {
      StorageTableFirstRejection(init, parse);
      var i :| 0 <= i < |init| && Rejects(init[i], parse) &&
               (forall j :: 0 <= j < i ==> !Rejects(init[j], parse)) &&
               StorageTable(init, parse).error == RejectionOf(init[i]);
      assert environ[i] == init[i];
      assert forall j :: 0 <= j < i ==> environ[j] == init[j];
    } else {
      StorageTableFails(init, parse);
      assert forall j :: 0 <= j < |init| ==> environ[j] == init[j] && !Rejects(init[j], parse);
      assert environ[|init|] == e;
    }
  }

  /** `t` holds exactly the classes the storage entries of `environ` name,
      each at the price of the last entry for it. */
  ghost predicate TableFits(environ: Environ, parse: Cluster.FloatParser, t: map<string, real>) {
    KeysFit(environ, t) && PricesFit(environ, parse, t)
  }

  /** `t` holds exactly the classes the storage entries of `environ` name. */
  ghost predicate KeysFit(environ: Environ, t: map<string, real>) {
    forall c :: c in t <==> exists i :: 0 <= i < |environ| && PricesClass(environ[i], c)
  }

  /** Each class in `t` is at the price of the last entry for it. */
  ghost predicate PricesFit(environ: Environ, parse: Cluster.FloatParser, t: map<string, real>) {
    forall c :: c in t ==> LastPrice(environ, parse, c, t[c])
  }

  /** The last entry for `c` in `environ` prices it at `v`. */
  ghost predicate LastPrice(environ: Environ, parse: Cluster.FloatParser, c: string, v: real) {
    exists i :: 0 <= i < |environ| && PricesClass(environ[i], c) &&
      parse(ReadEntry(environ[i]).priceText) == Some(v) &&
      forall j :: i < j < |environ| ==> !PricesClass(environ[j], c)
  }

  lemma {:induction false} StorageTableContents(environ: Environ, parse: Cluster.FloatParser)
    requires StorageTable(environ, parse).Success?
    ensures TableFits(environ, parse, StorageTable(environ, parse).value)
  {
    if |environ| > 0 {
      var init := environ[..|environ| - 1];
      StorageTableContents(init, parse);
      TableStep(environ, init, parse, StorageTable(init, parse).value);
    }
  }

  /** The value the table holds after entry `e`. */
  function Next(t0: map<string, real>, e: string, parse: Cluster.FloatParser): map<string, real>
    requires !Rejects(e, parse)
  {
    if ReadEntry(e).Priced? then t0[ReadEntry(e).storageClass := parse(ReadEntry(e).priceText).value] else t0
  }

  /** One more entry keeps the table fitting the entries read so far. */
  lemma {:induction false} TableStep(environ: Environ, init: Environ, parse: Cluster.FloatParser, t0: map<string, real>)
    requires |environ| > 0 && init == environ[..|environ| - 1]
    requires TableFits(init, parse, t0)
    requires !Rejects(environ[|environ| - 1], parse)
    ensures TableFits(environ, parse, Next(t0, environ[|environ| - 1], parse))
  {
    TableKeysStep(environ, init, parse, t0);
    TablePricesStep(environ, init, parse, t0);
  }

  lemma {:induction false} TableKeysStep(environ: Environ, init: Environ, parse: Cluster.FloatParser, t0: map<string, real>)
    requires |environ| > 0 && init == environ[..|environ| - 1]
    requires KeysFit(init, t0)
    requires !Rejects(environ[|environ| - 1], parse)
    ensures KeysFit(environ, Next(t0, environ[|environ| - 1], parse))
  {
    var t := Next(t0, environ[|environ| - 1], parse);
    forall c ensures c in t <==> exists i :: 0 <= i < |environ| && PricesClass(environ[i], c) {
      if PricesClass(environ[|environ| - 1], c) {
        assert PricesClass(environ[|init|], c);
      } else if c in t0 {
        KeyKept(environ, init, c);
      } else {
        KeyAbsent(environ, init, c);
      }
    }
  }

  /** A class some earlier entry names is named by the longer list too. */
  lemma {:induction false} KeyKept(environ: Environ, init: Environ, c: string)
    requires |environ| > 0 && init == environ[..|environ| - 1]
    requires exists i :: 0 <= i < |init| && PricesClass(init[i], c)
    ensures exists i :: 0 <= i < |environ| && PricesClass(environ[i], c)
  {
    var i :| 0 <= i < |init| && PricesClass(init[i], c);
    assert environ[i] == init[i];
  }

  /** A class no entry names, the last one included, stays unnamed. */
  lemma {:induction false} KeyAbsent(environ: Environ, init: Environ, c: string)
    requires |environ| > 0 && init == environ[..|environ| - 1]
    requires !exists i :: 0 <= i < |init| && PricesClass(init[i], c)
    requires !PricesClass(environ[|environ| - 1], c)
    ensures !exists i :: 0 <= i < |environ| && PricesClass(environ[i], c)
  {
    forall i | 0 <= i < |environ| ensures !PricesClass(environ[i], c) {
      if i < |init| {
        assert environ[i] == init[i] && !PricesClass(init[i], c);
      } else {
        assert i == |environ| - 1;
      }
    }
  }

  lemma {:induction false} TablePricesStep(environ: Environ, init: Environ, parse: Cluster.FloatParser, t0: map<string, real>)
    requires |environ| > 0 && init == environ[..|environ| - 1]
    requires PricesFit(init, parse, t0)
    requires !Rejects(environ[|environ| - 1], parse)
    ensures PricesFit(environ, parse, Next(t0, environ[|environ| - 1], parse))
  {
    var e := environ[|environ| - 1];
    var t := Next(t0, e, parse);
    forall c | c in t ensures LastPrice(environ, parse, c, t[c]) {
      if PricesClass(e, c) {
        PriceNew(environ, parse, c, t[c]);
      } else {
        PriceKept(environ, init, parse, c, t0[c]);
      }
    }
  }

  /** The last entry, when it prices `c`, is the last entry for `c`. */
  lemma {:induction false} PriceNew(environ: Environ, parse: Cluster.FloatParser, c: string, v: real)
    requires |environ| > 0 && PricesClass(environ[|environ| - 1], c)
    requires parse(ReadEntry(environ[|environ| - 1]).priceText) == Some(v)
    ensures LastPrice(environ, parse, c, v)
  {
    assert PricesClass(environ[|environ| - 1], c);
  }

  /** An entry that does not price `c` keeps the last entry for it. */
  lemma {:induction false} PriceKept(environ: Environ, init: Environ, parse: Cluster.FloatParser, c: string, v: real)
    requires |environ| > 0 && init == environ[..|environ| - 1]
    requires LastPrice(init, parse, c, v) && !PricesClass(environ[|environ| - 1], c)
    ensures LastPrice(environ, parse, c, v)
  {
    var i :| 0 <= i < |init| && PricesClass(init[i], c) &&
            parse(ReadEntry(init[i]).priceText) == Some(v) &&
            forall j :: i < j < |init| ==> !PricesClass(init[j], c);
    assert environ[i] == init[i];
    forall j | i < j < |environ| ensures !PricesClass(environ[j], c) {
      if j < |init| {
        assert environ[j] == init[j] && !PricesClass(init[j], c);
      } else {
        assert j == |environ| - 1;
      }
    }
    assert PricesClass(environ[i], c) && parse(ReadEntry(environ[i]).priceText) == Some(v);
  }

  /** The first cluster class the table does not price, if any. */
  function Uncovered(classes: seq<string>, table: map<string, real>): (r: Option<nat>)
    ensures r.None? <==> forall k :: 0 <= k < |classes| ==> classes[k] in table
    ensures r.Some? ==> r.value < |classes| && classes[r.value] !in table &&
                        forall k :: 0 <= k < r.value ==> classes[k] in table
  {
    if |classes| == 0 then None
    else if classes[0] !in table then Some(0)
    else match Uncovered(classes[1..], table)
      case None => None
      case Some(k) => Some(k + 1)
  }

  // ---------------------------------------------------------------------
  // LoadEnv
  // ---------------------------------------------------------------------

  /** Everything LoadEnv sets that the cost engine and its handlers read.
      `secretKey` is `None` when the source draws a random key instead. */
  datatype Settings = Settings(
    clientId: string,
    clientSecret: string,
    callbackUrl: string,
    cors: string,
    maxRequests: int,
    secretKey: Option<string>,
    discountLabel: string,
    cpuCost: real,
    memoryCost: real,
    ingressCost: real,
    ingressCostPerDomain: bool,
    excludeIngressVcluster: bool,
    slackToken: string,
    storageCost: map<string, real>,
    costPersistency: bool,
    costPersistencyInterval: int,
    debug: bool)

  /** The part of the settings the cost engine reads. */
  function PricingConfig(s: Settings): (c: Pricing.Config)
    ensures c.storageCost == s.storageCost && c.discountLabel == s.discountLabel && c.debug == s.debug
  {
    Pricing.Config(s.cpuCost, s.memoryCost, s.ingressCost, s.storageCost, s.discountLabel,
                   s.ingressCostPerDomain, s.excludeIngressVcluster, s.debug)
  }

  const DefaultDiscountLabel: string := "natron.io/discount"

  /** The table after the `STORAGE_COST == nil` fallback: the source has
      just assigned it a map made by `make`, never nil, so the fallback to
      a single "default" class never applies. `None` stands for nil. */
  function WithFallback(table: Option<map<string, real>>): map<string, real> {
    match table
    case Some(t) => t
    case None => map["default" := 1.0]
  }

  /** The storage part of LoadEnv: the parsed table, then the class listing,
      then the coverage check, then the nil fallback. */
  function LoadStorage(environ: Environ, parseFloat: Cluster.FloatParser,
                       clusterClasses: Result<seq<string>, string>): (r: Result<map<string, real>, LoadFailure>)
    ensures r.Success? ==> clusterClasses.Success?
    ensures r.Success? ==>
              (forall k :: 0 <= k < |clusterClasses.value| ==> clusterClasses.value[k] in r.value)
  {
    match StorageTable(environ, parseFloat)
    case Failure(f) => Failure(f)
    case Success(parsed) =>
      match clusterClasses
      case Failure(e) => Failure(Exited("cannot get storage classes in cluster " + e))
      case Success(classes) =>
        match Uncovered(classes, parsed)
        case Some(k) => Failure(Exited("Storage class " + classes[k] + " is not set"))
        case None => Success(WithFallback(Some(parsed)))
  }

  /** LoadEnv. `clusterClasses` is what GetStorageClassesInCluster hands
      back; `parseFloat` and `atoi` are strconv's parsers. */
  function LoadEnv(environ: Environ, parseFloat: Cluster.FloatParser, atoi: IntParser,
                   clusterClasses: Result<seq<string>, string>): (r: Result<Settings, LoadFailure>)
    ensures Getenv(environ, "CLIENT_ID") == "" ==> r == Failure(Returned("CLIENT_ID is not set"))
    ensures Getenv(environ, "CLIENT_ID") != "" && Getenv(environ, "CLIENT_SECRET") == "" ==>
              r == Failure(Returned("CLIENT_SECRET is not set"))
    ensures r.Success? ==>
              && LoadStorage(environ, parseFloat, clusterClasses) == Success(r.value.storageCost)
              && r.value.cpuCost != 0.0 && r.value.memoryCost != 0.0 && r.value.ingressCost != 0.0
              && r.value.costPersistencyInterval != 0
              && r.value.discountLabel != ""
  {
    var clientId := Getenv(environ, "CLIENT_ID");
    var clientSecret := Getenv(environ, "CLIENT_SECRET");
    if clientId == "" then Failure(Returned("CLIENT_ID is not set"))
    else if clientSecret == "" then Failure(Returned("CLIENT_SECRET is not set"))
    else LoadConfigured(environ, parseFloat, atoi, clusterClasses, clientId, clientSecret)
  }

  /** LoadEnv once the credentials are present: the Slack checks, the
      storage prices, then every other setting with its default. */
  function LoadConfigured(environ: Environ, parseFloat: Cluster.FloatParser, atoi: IntParser,
                          clusterClasses: Result<seq<string>, string>,
                          clientId: string, clientSecret: string): (r: Result<Settings, LoadFailure>)
    ensures r.Success? ==>
              && LoadStorage(environ, parseFloat, clusterClasses) == Success(r.value.storageCost)
              && r.value.cpuCost != 0.0 && r.value.memoryCost != 0.0 && r.value.ingressCost != 0.0
              && r.value.costPersistencyInterval != 0
              && r.value.discountLabel != ""
  {
    var slackToken := Getenv(environ, "SLACK_TOKEN");
    if Getenv(environ, "SLACK_BROADCAST_CHANNEL_ID") == "" && slackToken != "" then
      Failure(Exited("SLACK_BROADCAST_CHANNEL_ID is not set"))
    else if Getenv(environ, "SLACK_URL") == "" && slackToken != "" then
      Failure(Exited("SLACK_URL is not set"))
    else
      match LoadStorage(environ, parseFloat, clusterClasses)
      case Failure(f) => Failure(f)
      case Success(parsed) => Success(Assemble(environ, parseFloat, atoi, clientId, clientSecret, slackToken, parsed))
  }

  /** The settings LoadEnv hands back once every check has passed: each
      optional entry read with its default. */
  function Assemble(environ: Environ, parseFloat: Cluster.FloatParser, atoi: IntParser,
                    clientId: string, clientSecret: string, slackToken: string,
                    parsed: map<string, real>): (s: Settings)
    ensures s.storageCost == parsed
    ensures s.cpuCost != 0.0 && s.memoryCost != 0.0 && s.ingressCost != 0.0
    ensures s.costPersistencyInterval != 0
    ensures s.discountLabel != ""
  {
    var secret := Getenv(environ, "SECRET_KEY");
    Settings(
      clientId,
      clientSecret,
      TextOrDefault(environ, "CALLBACK_URL", "http://localhost:3000"),
      TextOrDefault(environ, "CORS", "*"),
      match atoi(Getenv(environ, "MAX_REQUESTS")) case Some(n) => n case None => 100,
      if secret == "" then None else Some(secret),
      TextOrDefault(environ, "DISCOUNT_LABEL", DefaultDiscountLabel),
      PriceOrDefault(Getenv(environ, "CPU_COST"), parseFloat),
      PriceOrDefault(Getenv(environ, "MEMORY_COST"), parseFloat),
      PriceOrDefault(Getenv(environ, "INGRESS_COST"), parseFloat),
      Flag(environ, "INGRESS_COST_PER_DOMAIN"),
      Flag(environ, "EXCLUDE_INGRESS_VCLUSTER"),
      slackToken,
      parsed,
      Flag(environ, "COST_PERSISTENCY"),
      IntervalOrDefault(Getenv(environ, "COST_PERSISTENCY_INTERVAL"), atoi),
      Flag(environ, "DEBUG"))
  }

  /** The storage part of LoadEnv fails on the first rejected storage
      entry, then on a class listing error, then on a cluster class left
      unpriced; on success the price table is exactly the parsed one. */
  lemma {:induction false} LoadStorageSpec(environ: Environ, parseFloat: Cluster.FloatParser,
                        clusterClasses: Result<seq<string>, string>)
    ensures var r := LoadStorage(environ, parseFloat, clusterClasses);
      && (StorageTable(environ, parseFloat).Failure? ==> r == Failure(StorageTable(environ, parseFloat).error))
      && (StorageTable(environ, parseFloat).Success? && clusterClasses.Failure? ==>
            r == Failure(Exited("cannot get storage classes in cluster " + clusterClasses.error)))
      && (StorageTable(environ, parseFloat).Success? && clusterClasses.Success? ==>
            (r.Failure? <==> exists k :: 0 <= k < |clusterClasses.value| &&
                                         clusterClasses.value[k] !in StorageTable(environ, parseFloat).value))
      && (r.Success? ==> r.value == StorageTable(environ, parseFloat).value)
  {
  }

  /** The `STORAGE_COST == nil` fallback never fires: a class "default" is
      priced only when an entry names it. */
  lemma {:induction false} NoDefaultFallback(environ: Environ, parseFloat: Cluster.FloatParser,
                          clusterClasses: Result<seq<string>, string>)
    requires LoadStorage(environ, parseFloat, clusterClasses).Success?
    ensures "default" in LoadStorage(environ, parseFloat, clusterClasses).value ==>
              exists i :: 0 <= i < |environ| && PricesClass(environ[i], "default")
  {
    StorageTableContents(environ, parseFloat);
  }

  /** With the required entries present and Slack unconfigured, LoadEnv
      stands or falls with its storage part. */
  lemma {:induction false} LoadEnvStorage(environ: Environ, parseFloat: Cluster.FloatParser, atoi: IntParser,
                       clusterClasses: Result<seq<string>, string>)
    requires Getenv(environ, "CLIENT_ID") != "" && Getenv(environ, "CLIENT_SECRET") != ""
    requires Getenv(environ, "SLACK_TOKEN") == ""
    ensures var r := LoadEnv(environ, parseFloat, atoi, clusterClasses);
      && (r.Failure? <==> LoadStorage(environ, parseFloat, clusterClasses).Failure?)
      && (r.Failure? ==> r.error == LoadStorage(environ, parseFloat, clusterClasses).error)
  {
  }

  /** The flags and numbers LoadEnv settles on: each flag is on exactly
      when its entry parses to true, each unit price is the parsed value
      unless that is missing or zero, and so is the interval; a non-empty
      DISCOUNT_LABEL is taken as it is. */
  lemma {:induction false} LoadEnvDefaults(environ: Environ, parseFloat: Cluster.FloatParser, atoi: IntParser,
                        clusterClasses: Result<seq<string>, string>)
    requires LoadEnv(environ, parseFloat, atoi, clusterClasses).Success?
    ensures var s := LoadEnv(environ, parseFloat, atoi, clusterClasses).value;
      && (s.ingressCostPerDomain <==> ParseBool(Getenv(environ, "INGRESS_COST_PER_DOMAIN")) == Some(true))
      && (s.excludeIngressVcluster <==> ParseBool(Getenv(environ, "EXCLUDE_INGRESS_VCLUSTER")) == Some(true))
      && (s.costPersistency <==> ParseBool(Getenv(environ, "COST_PERSISTENCY")) == Some(true))
      && (s.debug <==> ParseBool(Getenv(environ, "DEBUG")) == Some(true))
      && (parseFloat(Getenv(environ, "CPU_COST")) == Some(s.cpuCost) || s.cpuCost == 1.0)
      && (parseFloat(Getenv(environ, "MEMORY_COST")) == Some(s.memoryCost) || s.memoryCost == 1.0)
      && (parseFloat(Getenv(environ, "INGRESS_COST")) == Some(s.ingressCost) || s.ingressCost == 1.0)
      && (atoi(Getenv(environ, "COST_PERSISTENCY_INTERVAL")) == Some(s.costPersistencyInterval) ||
          s.costPersistencyInterval == 3600)
      && (Getenv(environ, "DISCOUNT_LABEL") == "" ==> s.discountLabel == DefaultDiscountLabel)
      && (Getenv(environ, "DISCOUNT_LABEL") != "" ==> s.discountLabel == Getenv(environ, "DISCOUNT_LABEL"))
      && s.cpuCost == PriceOrDefault(Getenv(environ, "CPU_COST"), parseFloat)
      && s.memoryCost == PriceOrDefault(Getenv(environ, "MEMORY_COST"), parseFloat)
      && s.ingressCost == PriceOrDefault(Getenv(environ, "INGRESS_COST"), parseFloat)
      && s.costPersistencyInterval == IntervalOrDefault(Getenv(environ, "COST_PERSISTENCY_INTERVAL"), atoi)
  {
  }
}

=== FILE: handlers.dfy ===
/** The HTTP handlers of controllers/costController.go and
    controllers/quotaController.go, reduced to their decisions: who is
    refused and with which status, which tenants appear in the answer and
    what each is charged, and the per-class storage quota map; with
    `Contains` of util/parse.go and its DEBUG bypass. */
module Handlers {
  import opened Wrappers
  import opened Pricing
  import opened Cluster
  import Store
  import Seqs

  // ---------------------------------------------------------------------
  // Contains and the access decision
  // ---------------------------------------------------------------------

  /** util.Contains: scans `tenants` for `tenant`; with DEBUG on, a tenant
      that is not listed is let through as well. */
  function Contains(tenant: string, tenants: seq<string>, debug: bool): (r: bool)
    ensures r <==> tenant in tenants || debug
  {
    if |tenants| == 0 then debug
    else tenants[0] == tenant || Contains(tenant, tenants[1..], debug)
  }

  /** The cases of the source's unit test, and the DEBUG bypass. */
  lemma {:induction false} ContainsCases(x: string)
    ensures Contains("tenant1", ["tenant1", "tenant2", "tenant3"], false)
    ensures !Contains("tenant4", ["tenant1", "tenant2", "tenant3"], false)
    ensures Contains(x, [], true)
  {
  }

  /** An error status and its message. */
  datatype Denial = Denial(code: nat, message: string)

  const Unauthorized: Denial := Denial(401, "Unauthorized")
  const Forbidden: Denial := Denial(403, "Forbidden")
  const InternalError: Denial := Denial(500, "Internal Server Error")

  /** What a handler sends: an error status, or a JSON body. */
  datatype Reply<B> = Refused(denial: Denial) | Ok(body: B)

  /** The check every handler opens with: no authorized tenant at all is
      401; a named tenant that Contains rejects is 403. */
  function Gate(tenants: seq<string>, tenant: string, debug: bool): (r: Option<Denial>)
    ensures r == Some(Unauthorized) <==> |tenants| == 0
    ensures r == Some(Forbidden) <==> |tenants| > 0 && tenant != "" && tenant !in tenants && !debug
    ensures r.None? <==> |tenants| > 0 && (tenant == "" || tenant in tenants || debug)
  {
    if |tenants| == 0 then Some(Unauthorized)
    else if tenant != "" && !Contains(tenant, tenants, debug) then Some(Forbidden)
    else None
  }

  // ---------------------------------------------------------------------
  // Shaping the cost answers
  // ---------------------------------------------------------------------

  /** The body of a cost handler: the whole map, or one tenant's entry. */
  datatype Answer<V> = All(costs: map<string, V>) | One(value: V)

  /** No tenant parameter: the whole map; otherwise that tenant's entry,
      Go's zero value when it has none. */
  function Shape<V>(costs: map<string, V>, tenant: string, zero: V): (a: Answer<V>)
    ensures tenant == "" <==> a.All?
    ensures a.All? ==> a.costs == costs
    ensures a.One? && tenant in costs ==> a.value == costs[tenant]
    ensures a.One? && tenant !in costs ==> a.value == zero
  {
    if tenant == "" then All(costs) else One(Lookup(costs, tenant, zero))
  }

  /** A handler's reply together with the discounts as the aggregation
      pass left them (package variables in the source). */
  datatype Handled<B> = Handled(reply: Reply<B>, discounts: Discounts)

  /** The CPU and memory cost maps: every listed tenant whose request sum
      is not zero, priced by `price`. */
  function NonZeroCosts(tenants: seq<string>, sums: map<string, nat>, price: nat -> real): (costs: map<string, real>)
    ensures forall t :: t in costs <==> t in tenants && Lookup(sums, t, 0) != 0
    ensures forall t :: t in costs ==> costs[t] == price(Lookup(sums, t, 0))
  {
    if |tenants| == 0 then map[]
    else
      var init := NonZeroCosts(tenants[..|tenants| - 1], sums, price);
      var t := tenants[|tenants| - 1];
      Seqs.Snoc(tenants);
      if Lookup(sums, t, 0) != 0 then init[t := price(Lookup(sums, t, 0))] else init
  }

  /** The ingress cost map: every listed tenant with a (non-nil) host list,
      priced by `price`. */
  function HostCosts(tenants: seq<string>, hosts: map<string, seq<string>>, price: seq<string> -> real): (costs: map<string, real>)
    ensures forall t :: t in costs <==> t in tenants && t in hosts
    ensures forall t :: t in costs ==> costs[t] == price(hosts[t])
  {
    if |tenants| == 0 then map[]
    else
      var init := HostCosts(tenants[..|tenants| - 1], hosts, price);
      var t := tenants[|tenants| - 1];
      Seqs.Snoc(tenants);
      if t in hosts then init[t := price(hosts[t])] else init
  }

  // ---------------------------------------------------------------------
  // GetCPUCostSum, GetMemoryCostSum, GetIngressCostSum
  // ---------------------------------------------------------------------

  /** The common course of a cost handler: the gate, then the aggregation
      pass `read` (an error is 500), then the shaped cost map. */
  function Respond<V>(tenants: seq<string>, tenant: string, debug: bool, read: Read<V>,
                      costs: map<string, real>, disc: Discounts, updated: Discounts): (h: Handled<Answer<real>>)
    ensures Gate(tenants, tenant, debug).Some? ==> h == Handled(Refused(Gate(tenants, tenant, debug).value), disc)
    ensures Gate(tenants, tenant, debug).None? ==> h.discounts == updated
    ensures Gate(tenants, tenant, debug).None? && read.Error().Some? ==> h.reply == Refused(InternalError)
    ensures Gate(tenants, tenant, debug).None? && read.Error().None? ==> h.reply == Ok(Shape(costs, tenant, 0.0))
  {
    match Gate(tenants, tenant, debug)
    case Some(denial) => Handled(Refused(denial), disc)
    case None =>
      if read.Error().Some? then Handled(Refused(InternalError), updated)
      else Handled(Ok(Shape(costs, tenant, 0.0)), updated)
  }

  /** GetCPUCostSum. `disc` holds the discounts before the call. */
  function CpuCostSum(cfg: Config, parse: FloatParser, snap: Snapshot, disc: Discounts,
                      tenants: seq<string>, tenant: string): Handled<Answer<real>>
  {
    var read := CpuRequestsSum(cfg.discountLabel, parse, snap, tenants, disc.cpu);
    Respond(tenants, tenant, cfg.debug, read,
            NonZeroCosts(tenants, read.Returned(), (n: nat) => CpuCost(cfg, read.discount, n as real)),
            disc, disc.(cpu := read.discount))
  }

  /** GetMemoryCostSum. */
  function MemoryCostSum(cfg: Config, parse: FloatParser, snap: Snapshot, disc: Discounts,
                         tenants: seq<string>, tenant: string): Handled<Answer<real>>
  {
    var read := MemoryRequestsSum(cfg.discountLabel, parse, snap, tenants, disc.memory);
    Respond(tenants, tenant, cfg.debug, read,
            NonZeroCosts(tenants, read.Returned(), (n: nat) => MemoryCost(cfg, read.discount, n as real)),
            disc, disc.(memory := read.discount))
  }

  /** GetIngressCostSum: per host, or per distinct domain under
      INGRESS_COST_PER_DOMAIN. */
  function IngressCostSum(cfg: Config, parse: FloatParser, snap: Snapshot, disc: Discounts,
                          tenants: seq<string>, tenant: string): Handled<Answer<real>>
  {
    var read := IngressRequestsSum(cfg.discountLabel, parse, cfg.excludeIngressVcluster, snap, tenants, disc.ingress);
    Respond(tenants, tenant, cfg.debug, read,
            HostCosts(tenants, read.Returned(), (hosts: seq<string>) => Store.TenantIngressCost(cfg, read.discount, hosts)),
            disc, disc.(ingress := read.discount))
  }

  /** The CPU handler, for a caller allowed through the gate, against the
      cluster: the pass fails (500) exactly when some pod listing or label
      stops it; otherwise the whole map holds exactly the listed tenants
      whose pods request a non-zero CPU total, each charged for that total
      at the discount the last pod left; a single tenant reads as 0 when it
      is not among them, which is what an unlisted tenant let through by
      DEBUG always sees. */
  lemma {:induction false} CpuCostSumMeaning(cfg: Config, parse: FloatParser, snap: Snapshot, disc: Discounts,
                          tenants: seq<string>, tenant: string)
    requires Distinct(tenants)
    requires Gate(tenants, tenant, cfg.debug).None?
    ensures var h := CpuCostSum(cfg, parse, snap, disc, tenants, tenant);
      var read := CpuRequestsSum(cfg.discountLabel, parse, snap, tenants, disc.cpu);
      && (read.status.Failed? ==> h.reply == Refused(InternalError))
      && (read.status.Complete? ==> h.reply.Ok? && h.discounts.cpu == read.discount)
      && (read.status.Complete? && tenant == "" ==>
            && h.reply.body.All?
            && (forall t :: t in h.reply.body.costs <==> t in tenants && Total(PodsOf(snap, t), CpuMillis) != 0)
            && (forall t :: t in h.reply.body.costs ==>
                  h.reply.body.costs[t] == CpuCost(cfg, read.discount, Total(PodsOf(snap, t), CpuMillis) as real)))
      && (read.status.Complete? && tenant != "" && tenant !in tenants ==> h.reply.body == One(0.0))
      && (read.status.Complete? && tenant != "" && tenant in tenants ==>
            h.reply.body == One(if Total(PodsOf(snap, tenant), CpuMillis) != 0
                                then CpuCost(cfg, read.discount, Total(PodsOf(snap, tenant), CpuMillis) as real)
                                else 0.0))
  {
    RequestSumsSpec(snap, cfg.discountLabel, parse, CpuMillis, tenants, disc.cpu);
  }

  /** The memory handler, for a caller allowed through the gate: as the CPU
      handler, over the pods' memory requests in bytes priced per GiB. */
  lemma {:induction false} MemoryCostSumMeaning(cfg: Config, parse: FloatParser, snap: Snapshot, disc: Discounts,
                             tenants: seq<string>, tenant: string)
    requires Distinct(tenants)
    requires Gate(tenants, tenant, cfg.debug).None?
    ensures var h := MemoryCostSum(cfg, parse, snap, disc, tenants, tenant);
      var read := MemoryRequestsSum(cfg.discountLabel, parse, snap, tenants, disc.memory);
      && (read.status.Failed? ==> h.reply == Refused(InternalError))
      && (read.status.Complete? ==> h.reply.Ok? && h.discounts.memory == read.discount)
      && (read.status.Complete? && tenant == "" ==>
            && h.reply.body.All?
            && (forall t :: t in h.reply.body.costs <==> t in tenants && Total(PodsOf(snap, t), MemoryBytes) != 0)
            && (forall t :: t in h.reply.body.costs ==>
                  h.reply.body.costs[t] == MemoryCost(cfg, read.discount, Total(PodsOf(snap, t), MemoryBytes) as real)))
      && (read.status.Complete? && tenant != "" && tenant !in tenants ==> h.reply.body == One(0.0))
      && (read.status.Complete? && tenant != "" && tenant in tenants ==>
            h.reply.body == One(if Total(PodsOf(snap, tenant), MemoryBytes) != 0
                                then MemoryCost(cfg, read.discount, Total(PodsOf(snap, tenant), MemoryBytes) as real)
                                else 0.0))
  {
    RequestSumsSpec(snap, cfg.discountLabel, parse, MemoryBytes, tenants, disc.memory);
  }

  /** A pass abandoned on an out-of-range discount label is no error: the
      handler answers 200 with no tenant charged. */
  lemma {:induction false} AbandonedPassAnswersEmpty(cfg: Config, parse: FloatParser, snap: Snapshot, disc: Discounts,
                                  tenants: seq<string>)
    requires |tenants| > 0
    requires CpuRequestsSum(cfg.discountLabel, parse, snap, tenants, disc.cpu).status.Abandoned?
    ensures CpuCostSum(cfg, parse, snap, disc, tenants, "").reply == Ok(All(map[]))
  {
  }

  /** The ingress handler, for a caller allowed through the gate, against
      the cluster: the whole map holds exactly the tenants with at least one
      counted rule host, each charged per host or per distinct domain; a
      single tenant reads its own charge, or 0 without counted hosts. */
  lemma {:induction false} IngressCostSumMeaning(cfg: Config, parse: FloatParser, snap: Snapshot, disc: Discounts,
                              tenants: seq<string>, tenant: string)
    requires Distinct(tenants)
    requires Gate(tenants, tenant, cfg.debug).None?
    ensures var h := IngressCostSum(cfg, parse, snap, disc, tenants, tenant);
      var read := IngressRequestsSum(cfg.discountLabel, parse, cfg.excludeIngressVcluster, snap, tenants, disc.ingress);
      var hosts := (t: string) => CountedHosts(IngressesOf(snap, t), cfg.excludeIngressVcluster);
      var charge := (t: string) =>
        IngressCost(cfg, read.discount, if cfg.ingressCostPerDomain then |DomainSet(hosts(t))| else |hosts(t)|);
      && (read.status.Failed? ==> h.reply == Refused(InternalError))
      && (read.status.Complete? ==> h.reply.Ok? && h.discounts.ingress == read.discount)
      && (read.status.Complete? && tenant == "" ==>
            && h.reply.body.All?
            && (forall t :: t in h.reply.body.costs <==> t in tenants && |hosts(t)| > 0)
            && (forall t :: t in h.reply.body.costs ==> h.reply.body.costs[t] == charge(t)))
      && (read.status.Complete? && tenant != "" ==>
            h.reply.body == One(if tenant in tenants && |hosts(tenant)| > 0 then charge(tenant) else 0.0))
  {
    IngressRequestsSpec(snap, cfg.discountLabel, parse, cfg.excludeIngressVcluster, tenants, disc.ingress);
  }

  // ---------------------------------------------------------------------
  // GetStorageCostSum
  // ---------------------------------------------------------------------

  /** Class `c` has a non-zero byte total in `classes`. */
  predicate Charged(classes: map<string, nat>, c: string) {
    c in classes && classes[c] != 0
  }

  /** `costs` prices exactly the charged classes, each by GetStorageCost. */
  ghost predicate ClassCostsFit(cfg: Config, d: real, classes: map<string, nat>, costs: map<string, real>) {
    && (forall c :: c in costs <==> Charged(classes, c))
    && (forall c :: c in costs ==> StorageCost(cfg, d, c, classes[c] as real) == Success(costs[c]))
  }

  /** The inner loop over one tenant's classes, in whatever order Go's map
      iteration picks: zero-size classes are skipped, and an unpriced class
      stops the handler. The outcome does not depend on the order. */
  method PriceClasses(cfg: Config, d: real, classes: map<string, nat>) returns (r: Option<map<string, real>>)
    ensures r.None? <==> exists c :: Charged(classes, c) && c !in cfg.storageCost
    ensures r.Some? ==> ClassCostsFit(cfg, d, classes, r.value)
  {
    var costs: map<string, real> := map[];
    var todo := classes.Keys;
    while todo != {}
      invariant todo <= classes.Keys
      invariant forall c :: c in costs <==> Charged(classes, c) && c !in todo
      invariant forall c :: c in costs ==> StorageCost(cfg, d, c, classes[c] as real) == Success(costs[c])
      invariant forall c :: c in classes && c !in todo && Charged(classes, c) ==> c in cfg.storageCost
      decreases |todo|
    {
      var c :| c in todo;
      todo := todo - {c};
      if classes[c] != 0 {
        match StorageCost(cfg, d, c, classes[c] as real)
        case Failure(_) =>
          return None;
        case Success(v) =>
          costs := costs[c := v];
      }
    }
    return Some(costs);
  }

  /** Some listed tenant has a charged class without a price. */
  ghost predicate Unpriced(cfg: Config, sums: map<string, map<string, nat>>, tenants: seq<string>) {
    exists i, c :: 0 <= i < |tenants| && Charged(Lookup(sums, tenants[i], map[]), c) && c !in cfg.storageCost
  }

  /** The storage cost map: for every listed tenant, the costs of its
      charged classes, with tenants left without any removed. */
  method StorageCosts(cfg: Config, d: real, sums: map<string, map<string, nat>>, tenants: seq<string>)
    returns (r: Option<map<string, map<string, real>>>)
    ensures r.None? <==> Unpriced(cfg, sums, tenants)
    ensures r.Some? ==> forall t :: t in r.value <==> t in tenants && exists c :: Charged(Lookup(sums, t, map[]), c)
    ensures r.Some? ==> forall t :: t in r.value ==> ClassCostsFit(cfg, d, Lookup(sums, t, map[]), r.value[t])
  {
    var all: map<string, map<string, real>> := map[];
    for i := 0 to |tenants|
      invariant forall t :: t in all <==> t in tenants[..i]
      invariant forall t :: t in all ==> ClassCostsFit(cfg, d, Lookup(sums, t, map[]), all[t])
      invariant forall j, c :: 0 <= j < i && Charged(Lookup(sums, tenants[j], map[]), c) ==> c in cfg.storageCost
    {
      var costs := PriceClasses(cfg, d, Lookup(sums, tenants[i], map[]));
      if costs.None? {
        return None;
      }
      all := all[tenants[i] := costs.value];
      assert tenants[..i + 1] == tenants[..i] + [tenants[i]];
    }
    assert tenants[..|tenants|] == tenants;
    // remove tenants with no storage costs
    var kept := map t | t in all && |all[t]| > 0 :: all[t];
    forall t | t in all ensures |all[t]| > 0 <==> exists c :: Charged(Lookup(sums, t, map[]), c) {
      if exists c :: Charged(Lookup(sums, t, map[]), c) {
        var c :| Charged(Lookup(sums, t, map[]), c);
        assert c in all[t];
      }
    }
    return Some(kept);
  }

  /** GetStorageCostSum. */
  method StorageCostSum(cfg: Config, parse: FloatParser, snap: Snapshot, disc: Discounts,
                        tenants: seq<string>, tenant: string) returns (h: Handled<Answer<map<string, real>>>)
    ensures Gate(tenants, tenant, cfg.debug).Some? ==> h == Handled(Refused(Gate(tenants, tenant, cfg.debug).value), disc)
    ensures var read := StorageRequestsSum(cfg.discountLabel, parse, snap, tenants, disc.storage);
      Gate(tenants, tenant, cfg.debug).None? ==>
        && h.discounts == disc.(storage := read.discount)
        && (read.Error().Some? ==> h.reply == Refused(InternalError))
        && (read.Error().None? && Unpriced(cfg, read.Returned(), tenants) ==> h.reply == Refused(InternalError))
        && (read.Error().None? && !Unpriced(cfg, read.Returned(), tenants) ==>
              && h.reply.Ok?
              && (tenant == "" <==> h.reply.body.All?)
              && (h.reply.body.All? ==>
                    && (forall t :: t in h.reply.body.costs <==>
                          t in tenants && exists c :: Charged(Lookup(read.Returned(), t, map[]), c))
                    && (forall t :: t in h.reply.body.costs ==>
                          ClassCostsFit(cfg, read.discount, Lookup(read.Returned(), t, map[]), h.reply.body.costs[t])))
              && (h.reply.body.One? && tenant !in tenants ==> h.reply.body.value == map[])
              && (h.reply.body.One? && tenant in tenants ==>
                    ClassCostsFit(cfg, read.discount, Lookup(read.Returned(), tenant, map[]), h.reply.body.value)))
  {
    var gate := Gate(tenants, tenant, cfg.debug);
    if gate.Some? {
      return Handled(Refused(gate.value), disc);
    }
    var read := StorageRequestsSum(cfg.discountLabel, parse, snap, tenants, disc.storage);
    var updated := disc.(storage := read.discount);
    if read.Error().Some? {
      return Handled(Refused(InternalError), updated);
    }
    var costs := StorageCosts(cfg, read.discount, read.Returned(), tenants);
    if costs.None? {
      return Handled(Refused(InternalError), updated);
    }
    return Handled(Ok(Shape(costs.value, tenant, map[])), updated);
  }

  // ---------------------------------------------------------------------
  // The quota handlers
  // ---------------------------------------------------------------------

  /** A tenant's resource quota: the CPU (millicores) and memory (bytes)
      hard limits and every hard limit by resource name, as int64 values. */
  datatype Quota = Quota(cpuMilli: int, memoryBytes: int, hard: map<string, int>)

  /** Reads of `quotas` are GetRessourceQuota; it is asked for the tenant
      parameter as given, the empty one included. */
  type QuotaLookup = string -> Result<Quota, string>

  /** The common gate and quota lookup of the quota handlers. */
  function QuotaOf(tenants: seq<string>, tenant: string, debug: bool, quotas: QuotaLookup): (r: Result<Quota, Denial>)
    ensures Gate(tenants, tenant, debug).Some? ==> r == Failure(Gate(tenants, tenant, debug).value)
    ensures Gate(tenants, tenant, debug).None? && quotas(tenant).Failure? ==> r == Failure(InternalError)
    ensures Gate(tenants, tenant, debug).None? && quotas(tenant).Success? ==> r == Success(quotas(tenant).value)
  {
    match Gate(tenants, tenant, debug)
    case Some(denial) => Failure(denial)
    case None =>
      match quotas(tenant)
      case Failure(_) => Failure(InternalError)
      case Success(q) => Success(q)
  }

  /** GetCPUQuota. */
  function CpuQuota(tenants: seq<string>, tenant: string, debug: bool, quotas: QuotaLookup): (r: Reply<int>)
    ensures r.Ok? <==> QuotaOf(tenants, tenant, debug, quotas).Success?
    ensures r.Ok? ==> r.body == quotas(tenant).value.cpuMilli
    ensures QuotaOf(tenants, tenant, debug, quotas).Failure? ==> r == Refused(QuotaOf(tenants, tenant, debug, quotas).error)
  {
    match QuotaOf(tenants, tenant, debug, quotas)
    case Failure(denial) => Refused(denial)
    case Success(q) => Ok(q.cpuMilli)
  }

  /** GetMemoryQuota. */
  function MemoryQuota(tenants: seq<string>, tenant: string, debug: bool, quotas: QuotaLookup): (r: Reply<int>)
    ensures r.Ok? <==> QuotaOf(tenants, tenant, debug, quotas).Success?
    ensures r.Ok? ==> r.body == quotas(tenant).value.memoryBytes
    ensures QuotaOf(tenants, tenant, debug, quotas).Failure? ==> r == Refused(QuotaOf(tenants, tenant, debug, quotas).error)
  {
    match QuotaOf(tenants, tenant, debug, quotas)
    case Failure(denial) => Refused(denial)
    case Success(q) => Ok(q.memoryBytes)
  }

  const TwoTo63: int := 0x8000_0000_0000_0000
  const TwoTo64: int := 0x1_0000_0000_0000_0000

  /** Go's int64 arithmetic: the result of an operation taken modulo 2^64
      into [-2^63, 2^63). */
  function Wrap64(x: int): (r: int)
    ensures -TwoTo63 <= r < TwoTo63
    ensures (r - x) % TwoTo64 == 0
    ensures -TwoTo63 <= x < TwoTo63 ==> r == x
  {
    (x + TwoTo63) % TwoTo64 - TwoTo63
  }

  /** Wrapping after each of the two multiplications by 1024 is wrapping
      once after multiplying by 1024 * 1024. */
  lemma {:induction false} WrapTwice(x: int)
    ensures Wrap64(Wrap64(x * 1024) * 1024) == Wrap64(x * 1048576)
  {
    var a := Wrap64(x * 1024);
    var k := (a - x * 1024) / TwoTo64;
    assert a == x * 1024 + k * TwoTo64;
    assert a * 1024 == x * 1048576 + (k * 1024) * TwoTo64;
    WrapShift(x * 1048576, k * 1024);
  }

  lemma {:induction false} WrapShift(x: int, k: int)
    ensures Wrap64(x + k * TwoTo64) == Wrap64(x)
  {
    var a := x + TwoTo63;
    var q := a / TwoTo64;
    var r := a % TwoTo64;
    assert a + k * TwoTo64 == (q + k) * TwoTo64 + r;
    DivModUnique(a + k * TwoTo64, q + k, r);
  }

  lemma {:induction false} DivModUnique(b: int, q: int, r: int)
    requires 0 <= r < TwoTo64 && b == q * TwoTo64 + r
    ensures b % TwoTo64 == r
  {
  }

  /** The resource name of the storage quota of a class. */
  function QuotaKey(storageClass: string): string {
    storageClass + ".storageclass.storage.k8s.io/requests.storage"
  }

  /** The quota of one class, in bytes: the hard limit of its resource name
      times 1024 * 1024 in int64 arithmetic, or 0 without one. */
  function ClassQuota(hard: map<string, int>, storageClass: string): (r: int)
    ensures QuotaKey(storageClass) !in hard ==> r == 0
    ensures QuotaKey(storageClass) in hard ==> r == Wrap64(hard[QuotaKey(storageClass)] * 1048576)
    ensures QuotaKey(storageClass) in hard && -TwoTo63 <= hard[QuotaKey(storageClass)] * 1048576 < TwoTo63 ==>
              r == hard[QuotaKey(storageClass)] * 1048576
  {
    var key := QuotaKey(storageClass);
    if key in hard then
      WrapTwice(hard[key]);
      Wrap64(Wrap64(hard[key] * 1024) * 1024)
    else 0
  }

  /** The loop over the cluster's storage classes: one entry per class. */
  function QuotaMap(classes: seq<string>, hard: map<string, int>): (r: map<string, int>)
    ensures forall c :: c in r <==> c in classes
    ensures forall c :: c in r ==> r[c] == ClassQuota(hard, c)
  {
    if |classes| == 0 then map[]
    else
      var c := classes[|classes| - 1];
      Seqs.Snoc(classes);
      QuotaMap(classes[..|classes| - 1], hard)[c := ClassQuota(hard, c)]
  }

  /** GetStorageQuota: the gate, the quota lookup (500 on error), the
      storage class listing (500 on error), then the per-class map. */
  function StorageQuota(tenants: seq<string>, tenant: string, debug: bool, quotas: QuotaLookup,
                        classes: Result<seq<string>, string>): (r: Reply<map<string, int>>)
    ensures QuotaOf(tenants, tenant, debug, quotas).Failure? ==> r == Refused(QuotaOf(tenants, tenant, debug, quotas).error)
    ensures QuotaOf(tenants, tenant, debug, quotas).Success? && classes.Failure? ==> r == Refused(InternalError)
    ensures r.Ok? ==> classes.Success? && QuotaOf(tenants, tenant, debug, quotas).Success?
    ensures r.Ok? ==> forall c :: c in r.body <==> c in classes.value
    ensures r.Ok? ==> forall c :: c in r.body ==> r.body[c] == ClassQuota(quotas(tenant).value.hard, c)
  {
    match QuotaOf(tenants, tenant, debug, quotas)
    case Failure(denial) => Refused(denial)
    case Success(q) =>
      match classes
      case Failure(_) => Refused(InternalError)
      case Success(cs) => Ok(QuotaMap(cs, q.hard))
  }
}

=== FILE: pricing.dfy ===
/** The unit-cost calculator of util/costs.go: linear price formulas for
    CPU, memory, storage and ingress, each scaled by the remaining fraction
    `1 - discount`, and the extraction of second-level domains from ingress
    hostnames for per-domain pricing. Prices are `real`; IEEE rounding is
    not modelled. */
module Pricing {
  import opened Wrappers
  import Text
  import Seqs

  /** Bytes in one GiB (1024 * 1024 * 1024): memory and storage are priced per GiB. */
  const BytesPerGiB: real := 1073741824.0

  /** Millicores in one core: CPU is priced per core. */
  const MilliPerCore: real := 1000.0

  /** The process-wide settings the cost engine reads (package globals in
      the source), gathered into one immutable value. `storageCost` maps a
      storage class to its price per GiB. */
  datatype Config = Config(
    cpuCost: real,
    memoryCost: real,
    ingressCost: real,
    storageCost: map<string, real>,
    discountLabel: string,
    ingressCostPerDomain: bool,
    excludeIngressVcluster: bool,
    debug: bool)

  /** The four discount fractions (CPU_DISCOUNT_PERCENT and its siblings).
      The source keeps them as package variables that every aggregation
      pass overwrites; here they are an explicit value threaded through. */
  datatype Discounts = Discounts(cpu: real, memory: real, storage: real, ingress: real)

  /** Go's zero values: the discounts before any aggregation ran. */
  const NoDiscounts: Discounts := Discounts(0.0, 0.0, 0.0, 0.0)

  /** A discount the aggregation accepts: a fraction in [0, 1]. */
  predicate ValidFraction(d: real) {
    0.0 <= d <= 1.0
  }

  /** `units` priced at `price` each, of which the fraction `1 - d` is charged. */
  function Charge(price: real, units: real, d: real): real {
    price * units * (1.0 - d)
  }

  /** A full discount charges nothing, no discount charges the list price,
      and a valid discount keeps a non-negative charge between the two. */
  lemma {:induction false} ChargeBounds(price: real, units: real, d: real)
    ensures d == 1.0 ==> Charge(price, units, d) == 0.0
    ensures d == 0.0 ==> Charge(price, units, d) == price * units
    ensures price >= 0.0 && units >= 0.0 && ValidFraction(d) ==>
              0.0 <= Charge(price, units, d) <= price * units
  {
    if price >= 0.0 && units >= 0.0 && ValidFraction(d) {
      var full := price * units;
      assert full >= 0.0 by { MulNonNegative(price, units); }
      MulNonNegative(full, 1.0 - d);
      assert Charge(price, units, d) == full - full * d;
      MulNonNegative(full, d);
    }
  }

  /** Raising the discount never raises the charge. */
  lemma {:induction false} ChargeAntitone(price: real, units: real, d1: real, d2: real)
    requires price >= 0.0 && units >= 0.0
    requires d1 <= d2
    ensures Charge(price, units, d2) <= Charge(price, units, d1)
  {
    var full := price * units;
    MulNonNegative(price, units);
    MulNonNegative(full, d2 - d1);
    assert Charge(price, units, d1) - Charge(price, units, d2) == full * (d2 - d1);
  }

  /** The charge is linear in the units: pricing a pooled quantity at one
      discount is pricing each part at that discount and adding. */
  lemma {:induction false} ChargeAdditive(price: real, u1: real, u2: real, d: real)
    ensures Charge(price, u1 + u2, d) == Charge(price, u1, d) + Charge(price, u2, d)
  {
    assert price * (u1 + u2) == price * u1 + price * u2;
    assert (price * u1 + price * u2) * (1.0 - d) == price * u1 * (1.0 - d) + price * u2 * (1.0 - d);
  }

  lemma {:induction false} MulNonNegative(a: real, b: real)
    requires a >= 0.0 && b >= 0.0
    ensures a * b >= 0.0
  {
  }

  /** GetCPUCost: the price of `millicores` at CPU_COST per core. */
  function CpuCost(cfg: Config, d: real, millicores: real): (r: real)
    ensures d == 1.0 ==> r == 0.0
    ensures d == 0.0 && millicores == MilliPerCore ==> r == cfg.cpuCost
    ensures cfg.cpuCost >= 0.0 && millicores >= 0.0 && ValidFraction(d) ==>
              0.0 <= r <= cfg.cpuCost * (millicores / MilliPerCore)
  {
    ChargeBounds(cfg.cpuCost, millicores / MilliPerCore, d);
    Charge(cfg.cpuCost, millicores / MilliPerCore, d)
  }

  /** GetMemoryCost: the price of `bytes` at MEMORY_COST per GiB. */
  function MemoryCost(cfg: Config, d: real, bytes: real): (r: real)
    ensures d == 1.0 ==> r == 0.0
    ensures d == 0.0 && bytes == BytesPerGiB ==> r == cfg.memoryCost
    ensures cfg.memoryCost >= 0.0 && bytes >= 0.0 && ValidFraction(d) ==>
              0.0 <= r <= cfg.memoryCost * (bytes / BytesPerGiB)
  {
    ChargeBounds(cfg.memoryCost, bytes / BytesPerGiB, d);
    Charge(cfg.memoryCost, bytes / BytesPerGiB, d)
  }

  /** The error GetStorageCost returns for an unpriced class. */
  function UnknownClass(storageClass: string): string {
    "storage class " + storageClass + " not found"
  }

  /** GetStorageCost: the price of `bytes` of `storageClass` per GiB; an
      unpriced class is an error naming the class, never a cost. */
  function StorageCost(cfg: Config, d: real, storageClass: string, bytes: real): (r: Result<real, string>)
    ensures r.Failure? <==> storageClass !in cfg.storageCost
    ensures r.Failure? ==> r.error == UnknownClass(storageClass)
    ensures r.Success? && d == 1.0 ==> r.value == 0.0
    ensures r.Success? && d == 0.0 && bytes == BytesPerGiB ==> r.value == cfg.storageCost[storageClass]
    ensures r.Success? && cfg.storageCost[storageClass] >= 0.0 && bytes >= 0.0 && ValidFraction(d) ==>
              0.0 <= r.value <= cfg.storageCost[storageClass] * (bytes / BytesPerGiB)
  {
    if storageClass !in cfg.storageCost then
      Failure(UnknownClass(storageClass))
    else
      var price := cfg.storageCost[storageClass];
      ChargeBounds(price, bytes / BytesPerGiB, d);
      Success(Charge(price, bytes / BytesPerGiB, d))
  }

  /** GetIngressCost: INGRESS_COST per ingress hostname counted. */
  function IngressCost(cfg: Config, d: real, count: nat): (r: real)
    ensures count == 0 ==> r == 0.0
    ensures d == 1.0 ==> r == 0.0
    ensures d == 0.0 ==> r == cfg.ingressCost * count as real
    ensures cfg.ingressCost >= 0.0 && ValidFraction(d) ==> 0.0 <= r <= cfg.ingressCost * count as real
  {
    ChargeBounds(cfg.ingressCost, count as real, d);
    Charge(cfg.ingressCost, count as real, d)
  }

  /** The number of occurrences of `c` in `s`. */
  function CountChar(s: string, c: char): nat {
    if |s| == 0 then 0 else (if s[0] == c then 1 else 0) + CountChar(s[1..], c)
  }

  lemma {:induction false} CountCharAppend(a: string, b: string, c: char)
    ensures CountChar(a + b, c) == CountChar(a, c) + CountChar(b, c)
  {
    if |a| > 0 {
      assert (a + b)[0] == a[0];
      assert (a + b)[1..] == a[1..] + b;
      CountCharAppend(a[1..], b, c);
    } else {
      assert a + b == b;
    }
  }

  lemma {:induction false} CountCharAbsent(s: string, c: char)
    requires c !in s
    ensures CountChar(s, c) == 0
  {
    if |s| > 0 {
      assert forall x :: x in s[1..] ==> x in s;
      CountCharAbsent(s[1..], c);
    }
  }

  /** The domain a hostname is charged under: the last two `.`-separated
      labels joined by `.`; a hostname without a dot has none. */
  function DomainOf(host: string): (r: Option<string>)
    ensures r.None? <==> '.' !in host
    ensures r.Some? ==> Suffix(host, r.value) && CountChar(r.value, '.') == 1
  {
    var parts := Text.Split(host, '.');
    var n := |parts|;
    if n > 1 then
      var d := parts[n - 2] + "." + parts[n - 1];
      JoinSplitsLast(parts, '.');
      assert host == Text.Join(parts[..n - 2] + [d], '.') by {
        assert parts == parts[..n - 2] + [parts[n - 2], parts[n - 1]];
      }
      JoinEndsWithLast(parts[..n - 2] + [d], '.');
      CountCharAppend(parts[n - 2] + ".", parts[n - 1], '.');
      CountCharAppend(parts[n - 2], ".", '.');
      CountCharAbsent(parts[n - 2], '.');
      CountCharAbsent(parts[n - 1], '.');
      Some(d)
    else
      assert host == parts[0];
      None
  }

  /** The domain starts right after a dot of the host, or is the whole
      host: with its single dot, it is exactly the last two labels. */
  lemma {:induction false} DomainOfBoundary(host: string)
    ensures DomainOf(host).Some? ==>
              var d := DomainOf(host).value;
              |d| == |host| || (|d| < |host| && host[|host| - |d| - 1] == '.')
  {
    var parts := Text.Split(host, '.');
    var n := |parts|;
    if n > 1 {
      var d := parts[n - 2] + "." + parts[n - 1];
      assert DomainOf(host) == Some(d);
      JoinSplitsLast(parts, '.');
      assert host == Text.Join(parts[..n - 2] + [d], '.') by {
        assert parts == parts[..n - 2] + [parts[n - 2], parts[n - 1]];
      }
      JoinLastBoundary(parts[..n - 2], d, '.');
    }
  }

  /** `suffix` ends `s`. */
  predicate Suffix(s: string, suffix: string) {
    |suffix| <= |s| && s[|s| - |suffix|..] == suffix
  }

  /** Joining ends with the last piece. */
  lemma {:induction false} JoinEndsWithLast(parts: seq<string>, c: char)
    requires |parts| >= 1
    ensures Suffix(Text.Join(parts, c), parts[|parts| - 1])
  {
    if |parts| > 1 {
      JoinEndsWithLast(parts[1..], c);
    }
  }

  /** Joining one more piece puts `c` before it. */
  lemma {:induction false} JoinSnoc(parts: seq<string>, d: string, c: char)
    requires |parts| >= 1
    ensures Text.Join(parts + [d], c) == Text.Join(parts, c) + [c] + d
  {
    if |parts| == 1 {
      assert (parts + [d])[1..] == [d];
    } else {
      JoinSnoc(parts[1..], d, c);
      assert (parts + [d])[1..] == parts[1..] + [d];
    }
  }

  /** The last piece of a join is either all of it or preceded by `c`. */
  lemma {:induction false} JoinLastBoundary(parts: seq<string>, d: string, c: char)
    ensures var j := Text.Join(parts + [d], c);
            |d| == |j| || (|d| < |j| && j[|j| - |d| - 1] == c)
  {
    if |parts| == 0 {
      assert parts + [d] == [d];
    } else {
      JoinSnoc(parts, d, c);
    }
  }

  /** Joining more than one piece puts `c` between the last two. */
  lemma {:induction false} JoinSplitsLast(parts: seq<string>, c: char)
    requires |parts| >= 2
    ensures Text.Join(parts, c) ==
            Text.Join(parts[..|parts| - 2] + [parts[|parts| - 2] + [c] + parts[|parts| - 1]], c)
  {
    var n := |parts|;
    if n > 2 {
      JoinSplitsLast(parts[1..], c);
      assert parts[1..][..n - 3] == parts[1..n - 2];
      var merged := parts[..n - 2] + [parts[n - 2] + [c] + parts[n - 1]];
      assert merged[1..] == parts[1..n - 2] + [parts[n - 2] + [c] + parts[n - 1]];
    }
  }

  /** The distinct domains of a hostname list: the reference the
      per-domain pricing is stated against. */
  function DomainSet(hosts: seq<string>): set<string> {
    set h | h in hosts && DomainOf(h).Some? :: DomainOf(h).value
  }

  /** The domain-collection loop of GetIngressCostByDomain: every dotted
      hostname adds its domain to a set, dot-free hostnames are skipped. */
  method DistinctDomains(hosts: seq<string>) returns (domains: set<string>)
    ensures domains == DomainSet(hosts)
  {
    domains := {};
    var i := 0;
    while i < |hosts|
      invariant 0 <= i <= |hosts|
      invariant domains == DomainSet(hosts[..i])
    {
      var d := DomainOf(hosts[i]);
      DomainSetStep(hosts[..i + 1], hosts[..i]);
      if d.Some? {
        domains := domains + {d.value};
      }
      i := i + 1;
    }
    assert hosts[..i] == hosts;
  }

  /** One more host adds its domain, if it has one. */
  lemma {:induction false} DomainSetStep(hosts: seq<string>, init: seq<string>)
    requires |hosts| > 0 && init == hosts[..|hosts| - 1]
    ensures DomainSet(hosts) == DomainSet(init) +
              (if DomainOf(hosts[|hosts| - 1]).Some? then {DomainOf(hosts[|hosts| - 1]).value} else {})
  {
    Seqs.Snoc(hosts);
  }

  /** The pricing loop of GetIngressCostByDomain: `perDomain` added once
      for each member of `domains`. */
  method SumPerDomain(domains: set<string>, perDomain: real) returns (sum: real)
    ensures sum == |domains| as real * perDomain
  {
    sum := 0.0;
    var counted: nat := 0;
    var remaining := domains;
    while remaining != {}
      invariant remaining <= domains
      invariant counted + |remaining| == |domains|
      invariant sum == counted as real * perDomain
      decreases remaining
    {
      var x :| x in remaining;
      remaining := remaining - {x};
      sum := sum + perDomain;
      counted := counted + 1;
    }
  }

  /** GetIngressCostByDomain: one INGRESS_COST (discounted) per distinct
      domain of the hostnames. */
  method IngressCostByDomain(cfg: Config, d: real, hosts: seq<string>) returns (sum: real)
    ensures sum == IngressCost(cfg, d, |DomainSet(hosts)|)
  {
    var domains := DistinctDomains(hosts);
    sum := SumPerDomain(domains, cfg.ingressCost * (1.0 - d));
    PerDomainIsCharge(cfg.ingressCost, |domains| as real, d);
  }

  lemma {:induction false} PerDomainIsCharge(price: real, n: real, d: real)
    ensures n * (price * (1.0 - d)) == Charge(price, n, d)
  {
  }

  /** A three-label hostname is charged under its last two labels. */
  lemma {:induction false} DomainOfThree(a: string, b: string, c: string)
    requires '.' !in a && '.' !in b && '.' !in c
    ensures DomainOf(a + "." + b + "." + c) == Some(b + "." + c)
  {
    SplitThree(a, b, c);
  }

  lemma {:induction false} SplitThree(a: string, b: string, c: string)
    requires '.' !in a && '.' !in b && '.' !in c
    ensures Text.Split(a + "." + b + "." + c, '.') == [a, b, c]
  {
    var parts := [a, b, c];
    assert Text.Join(parts, '.') == a + "." + b + "." + c by {
      assert parts[1..] == [b, c];
      assert [b, c][1..] == [c];
      assert Text.Join([c], '.') == c;
      assert Text.Join([b, c], '.') == b + "." + c;
      assert Text.Join(parts, '.') == a + "." + (b + "." + c);
    }
    Text.SplitJoin(parts, '.');
  }

  /** The shape of the worked example `[a.example.com, b.example.com,
      x.other.org]`: hostnames that share their last two labels are charged
      once, so three hostnames over two domains cost two domains. */
  lemma {:induction false} SharedDomainsChargedOnce(a: string, b: string, x: string,
                                 d1: string, t1: string, d2: string, t2: string)
    requires '.' !in a && '.' !in b && '.' !in x
    requires '.' !in d1 && '.' !in t1 && '.' !in d2 && '.' !in t2
    requires d1 + "." + t1 != d2 + "." + t2
    ensures DomainSet([a + "." + d1 + "." + t1, b + "." + d1 + "." + t1, x + "." + d2 + "." + t2])
            == {d1 + "." + t1, d2 + "." + t2}
    ensures |DomainSet([a + "." + d1 + "." + t1, b + "." + d1 + "." + t1, x + "." + d2 + "." + t2])| == 2
  {
    DomainOfThree(a, d1, t1);
    DomainOfThree(b, d1, t1);
    DomainOfThree(x, d2, t2);
    DomainSetOfThree(a + "." + d1 + "." + t1, b + "." + d1 + "." + t1, x + "." + d2 + "." + t2,
                     d1 + "." + t1, d2 + "." + t2);
  }

  /** Three hostnames whose domains are `e1`, `e1` and `e2` have exactly
      the domains `e1` and `e2`. */
  lemma {:induction false} DomainSetOfThree(h0: string, h1: string, h2: string, e1: string, e2: string)
    requires DomainOf(h0) == Some(e1) && DomainOf(h1) == Some(e1) && DomainOf(h2) == Some(e2)
    requires e1 != e2
    ensures DomainSet([h0, h1, h2]) == {e1, e2}
    ensures |DomainSet([h0, h1, h2])| == 2
  {
    var hosts := [h0, h1, h2];
    DomainSetWithinThree(h0, h1, h2, e1, e2);
    DomainSetHas(hosts, 0);
    DomainSetHas(hosts, 2);
    assert DomainSet(hosts) == {e1, e2};
    assert |{e1, e2}| == 2 by {
      assert {e1, e2} == {e1} + {e2} && e2 !in {e1};
    }
  }

  /** Every domain of three hostnames is one of theirs. */
  lemma {:induction false} DomainSetWithinThree(h0: string, h1: string, h2: string, e1: string, e2: string)
    requires DomainOf(h0) == Some(e1) && DomainOf(h1) == Some(e1) && DomainOf(h2) == Some(e2)
    ensures DomainSet([h0, h1, h2]) <= {e1, e2}
  {
    var hosts := [h0, h1, h2];
    forall y | y in DomainSet(hosts)
      ensures y == e1 || y == e2
    {
      var h :| h in hosts && DomainOf(h).Some? && DomainOf(h).value == y;
      var i :| 0 <= i < |hosts| && hosts[i] == h;
      assert DomainOf(hosts[i]).value == y;
      if i == 0 {
        assert hosts[0] == h0;
      } else if i == 1 {
        assert hosts[1] == h1;
      } else {
        assert hosts[2] == h2;
      }
    }
  }

  /** The domain of each dotted hostname is in the set. */
  lemma {:induction false} DomainSetHas(hosts: seq<string>, i: nat)
    requires i < |hosts| && DomainOf(hosts[i]).Some?
    ensures DomainOf(hosts[i]).value in DomainSet(hosts)
  {
    assert hosts[i] in hosts;
  }
}

=== FILE: report.dfy ===
/** The monthly rollup (the Get*CostsByMonthAndTenant functions and
    CreateMonthlyCostReport in util/costs.go): per-tenant means of the
    snapshot rows of the last month, summed into one summary row per
    tenant and month, stored by upsert. */
module Report {
  import opened Wrappers
  import opened Calendar
  import opened Store
  import Seqs

  // ---------------------------------------------------------------------
  // Means
  // ---------------------------------------------------------------------

  function Sum(xs: seq<real>): real {
    if |xs| == 0 then 0.0 else Sum(xs[..|xs| - 1]) + xs[|xs| - 1]
  }

  /** The average of `xs`, and 0 for no values at all. */
  function Mean(xs: seq<real>): (r: real)
    ensures |xs| == 0 ==> r == 0.0
    ensures r * |xs| as real == Sum(xs)
  {
    if |xs| == 0 then
      assert xs == [];
      0.0
    else Sum(xs) / |xs| as real
  }

  lemma {:induction false} SumBounds(xs: seq<real>, lo: real, hi: real)
    requires forall i :: 0 <= i < |xs| ==> lo <= xs[i] <= hi
    ensures lo * |xs| as real <= Sum(xs) <= hi * |xs| as real
  {
    if |xs| > 0 {
      var init := xs[..|xs| - 1];
      assert forall i :: 0 <= i < |init| ==> init[i] == xs[i];
      SumBounds(init, lo, hi);
    }
  }

  /** A mean lies between the least and the greatest value averaged. */
  lemma {:induction false} MeanBounds(xs: seq<real>, lo: real, hi: real)
    requires |xs| > 0
    requires forall i :: 0 <= i < |xs| ==> lo <= xs[i] <= hi
    ensures lo <= Mean(xs) <= hi
  {
    SumBounds(xs, lo, hi);
  }

  /** Averaging n copies of a value gives the value back. */
  lemma {:induction false} MeanOfConstant(xs: seq<real>, v: real)
    requires |xs| > 0
    requires forall i :: 0 <= i < |xs| ==> xs[i] == v
    ensures Mean(xs) == v
  {
    MeanBounds(xs, v, v);
  }

  // ---------------------------------------------------------------------
  // The window queries
  // ---------------------------------------------------------------------

  /** `tenant_id = ? AND created_at BETWEEN ? AND ?`. */
  predicate Selected(tenantId: nat, at: Instant, id: nat, from: Instant, to: Instant) {
    tenantId == id && InWindow(at, from, to)
  }

  /** The values of the rows of tenant `id` created within the window, in
      table order. */
  function WindowValues(rows: seq<CostRow>, id: nat, from: Instant, to: Instant): (r: seq<real>)
    ensures |r| <= |rows|
  {
    if |rows| == 0 then []
    else
      var last := rows[|rows| - 1];
      WindowValues(rows[..|rows| - 1], id, from, to) + (if Selected(last.tenantId, last.at, id, from, to) then [last.value] else [])
  }

  /** The window query picks exactly the selected rows: a value is in the
      result exactly when some selected row carries it, and rows appended
      later add only their own selected values. */
  lemma {:induction false} WindowValuesMeaning(rows: seq<CostRow>, id: nat, from: Instant, to: Instant)
    ensures forall v :: v in WindowValues(rows, id, from, to) <==>
              exists i :: 0 <= i < |rows| && Selected(rows[i].tenantId, rows[i].at, id, from, to) && rows[i].value == v
  {
    if |rows| > 0 {
      var init := rows[..|rows| - 1];
      WindowValuesMeaning(init, id, from, to);
      assert forall i :: 0 <= i < |init| ==> init[i] == rows[i];
    }
  }

  lemma {:induction false} WindowValuesAppend(a: seq<CostRow>, b: seq<CostRow>, id: nat, from: Instant, to: Instant)
    ensures WindowValues(a + b, id, from, to) == WindowValues(a, id, from, to) + WindowValues(b, id, from, to)
  {
    if |b| == 0 {
      assert a + b == a;
    } else {
      var init := b[..|b| - 1];
      WindowValuesAppend(a, init, id, from, to);
      assert (a + b)[..|a + b| - 1] == a + init;
    }
  }

  /** GetCPUCostsByMonthAndTenant, GetMemoryCostsByMonthAndTenant and
      GetIngressCostsByMonthAndTenant: the average value of the tenant's
      rows in the window, 0 when there are none. */
  function MonthlyMean(rows: seq<CostRow>, id: nat, from: Instant, to: Instant): (r: real)
    ensures |WindowValues(rows, id, from, to)| == 0 ==> r == 0.0
    ensures r * |WindowValues(rows, id, from, to)| as real == Sum(WindowValues(rows, id, from, to))
  {
    Mean(WindowValues(rows, id, from, to))
  }

  // ---------------------------------------------------------------------
  // Storage: a mean per class
  // ---------------------------------------------------------------------

  /** The average storage cost of one class. */
  datatype ClassMean = ClassMean(storageClass: string, value: real)

  function WindowRows(rows: seq<StorageRow>, id: nat, from: Instant, to: Instant): (r: seq<StorageRow>)
    ensures forall x :: x in r <==> x in rows && Selected(x.tenantId, x.at, id, from, to)
  {
    if |rows| == 0 then []
    else
      var last := rows[|rows| - 1];
      WindowRows(rows[..|rows| - 1], id, from, to) + (if Selected(last.tenantId, last.at, id, from, to) then [last] else [])
  }

  /** The values of the rows of class `c`, in order. */
  function ClassValues(rows: seq<StorageRow>, c: string): seq<real> {
    if |rows| == 0 then []
    else
      var last := rows[|rows| - 1];
      ClassValues(rows[..|rows| - 1], c) + (if last.storageClass == c then [last.value] else [])
  }

  /** The classes of `rows`, each once, in order of first appearance: one
      order in which Go may visit the keys of the per-class map. Every
      class listed has at least one value to average. */
  function ClassOrder(rows: seq<StorageRow>): (r: seq<string>)
    ensures forall i, j :: 0 <= i < j < |r| ==> r[i] != r[j]
    ensures forall c :: c in r ==> |ClassValues(rows, c)| > 0
  {
    if |rows| == 0 then []
    else
      var init := ClassOrder(rows[..|rows| - 1]);
      var c := rows[|rows| - 1].storageClass;
      if c in init then init else init + [c]
  }

  /** A class is listed exactly when some row has it. */
  lemma {:induction false} ClassOrderMeaning(rows: seq<StorageRow>, c: string)
    ensures c in ClassOrder(rows) <==> exists x :: x in rows && x.storageClass == c
  {
    if |rows| > 0 {
      var init := rows[..|rows| - 1];
      ClassOrderMeaning(init, c);
      Seqs.Snoc(rows);
    }
  }

  /** GetStorageCostsByMonthAndTenant: one mean per class that has at least
      one row of the tenant in the window, each class once. */
  function StorageMeans(rows: seq<StorageRow>, id: nat, from: Instant, to: Instant): (r: seq<ClassMean>)
    ensures MeansFit(WindowRows(rows, id, from, to), r)
  {
    MeansOfClassOrder(WindowRows(rows, id, from, to));
    MeansOf(WindowRows(rows, id, from, to), ClassOrder(WindowRows(rows, id, from, to)))
  }

  /** `means` holds one genuine mean per class of `w`, no class twice. */
  predicate MeansFit(w: seq<StorageRow>, means: seq<ClassMean>) {
    && (forall i, j :: 0 <= i < j < |means| ==> means[i].storageClass != means[j].storageClass)
    && (forall k :: 0 <= k < |means| ==> IsClassMean(w, means[k]))
  }

  /** Averaging every class of `w` in first-appearance order gives one
      genuine mean per class. */
  lemma {:induction false} MeansOfClassOrder(w: seq<StorageRow>)
    ensures MeansFit(w, MeansOf(w, ClassOrder(w)))
  {
    var classes := ClassOrder(w);
    var r := MeansOf(w, classes);
    forall i, j | 0 <= i < j < |r|
      ensures r[i].storageClass != r[j].storageClass
    {
      assert r[i].storageClass == classes[i] && r[j].storageClass == classes[j];
    }
    forall k | 0 <= k < |r|
      ensures IsClassMean(w, r[k])
    {
      assert classes[k] in classes;
      assert r[k].storageClass == classes[k];
    }
  }

  /** `m` is the average of the values of its class, of which there is at
      least one. */
  predicate IsClassMean(w: seq<StorageRow>, m: ClassMean) {
    var vs := ClassValues(w, m.storageClass);
    |vs| > 0 && m.value * |vs| as real == Sum(vs)
  }

  /** The mean of every class of `classes`, in that order. */
  function MeansOf(w: seq<StorageRow>, classes: seq<string>): (r: seq<ClassMean>)
    ensures |r| == |classes|
    ensures forall k :: 0 <= k < |r| ==> r[k].storageClass == classes[k]
    ensures forall k :: 0 <= k < |r| ==>
              r[k].value * |ClassValues(w, classes[k])| as real == Sum(ClassValues(w, classes[k]))
  {
    seq(|classes|, k requires 0 <= k < |classes| => ClassMean(classes[k], Mean(ClassValues(w, classes[k]))))
  }

  function MeanClasses(means: seq<ClassMean>): (r: seq<string>)
    ensures |r| == |means| && forall k :: 0 <= k < |means| ==> r[k] == means[k].storageClass
  {
    seq(|means|, k requires 0 <= k < |means| => means[k].storageClass)
  }

  /** A class has a mean exactly when the tenant has a row of that class in
      the window. */
  lemma {:induction false} StorageMeansClasses(rows: seq<StorageRow>, id: nat, from: Instant, to: Instant, c: string)
    ensures c in MeanClasses(StorageMeans(rows, id, from, to)) <==>
            exists x :: x in rows && Selected(x.tenantId, x.at, id, from, to) && x.storageClass == c
  {
    var w := WindowRows(rows, id, from, to);
    assert MeanClasses(StorageMeans(rows, id, from, to)) == ClassOrder(w);
    ClassOrderMeaning(w, c);
  }

  function MeansTotal(means: seq<ClassMean>): real {
    if |means| == 0 then 0.0 else MeansTotal(means[..|means| - 1]) + means[|means| - 1].value
  }

  // ---------------------------------------------------------------------
  // Summaries
  // ---------------------------------------------------------------------

  /** The summary row of tenant `t` for the month `period`: the four monthly
      means over the window, the storage figure being the sum of the
      per-class means, and their total. */
  function Summary(db: Db, t: Tenant, from: Instant, to: Instant, period: YearMonth): (m: MonthlyRow)
    ensures m.tenantId == t.id && m.month == period.month && m.year == period.year
    ensures m.total == m.cpu + m.memory + m.storage + m.ingress
    ensures m.storage == MeansTotal(StorageMeans(db.storage, t.id, from, to))
    ensures |WindowValues(db.cpu, t.id, from, to)| == 0 ==> m.cpu == 0.0
    ensures |WindowValues(db.memory, t.id, from, to)| == 0 ==> m.memory == 0.0
    ensures |WindowValues(db.ingress, t.id, from, to)| == 0 ==> m.ingress == 0.0
    ensures m.cpu == MonthlyMean(db.cpu, t.id, from, to)
    ensures m.memory == MonthlyMean(db.memory, t.id, from, to)
    ensures m.ingress == MonthlyMean(db.ingress, t.id, from, to)
  {
    var cpu := MonthlyMean(db.cpu, t.id, from, to);
    var memory := MonthlyMean(db.memory, t.id, from, to);
    var storage := MeansTotal(StorageMeans(db.storage, t.id, from, to));
    var ingress := MonthlyMean(db.ingress, t.id, from, to);
    MonthlyRow(t.id, period.month, period.year, cpu, memory, storage, ingress, cpu + memory + storage + ingress)
  }

  function Summaries(db: Db, tenants: seq<Tenant>, from: Instant, to: Instant, period: YearMonth): (r: seq<MonthlyRow>)
    ensures |r| == |tenants|
    ensures forall i :: 0 <= i < |tenants| ==> r[i] == Summary(db, tenants[i], from, to, period)
  {
    seq(|tenants|, i requires 0 <= i < |tenants| => Summary(db, tenants[i], from, to, period))
  }

  // ---------------------------------------------------------------------
  // The monthly table: upsert by (tenant, month, year)
  // ---------------------------------------------------------------------

  datatype MonthKey = MonthKey(tenantId: nat, month: int, year: int)

  function KeyOf(m: MonthlyRow): MonthKey {
    MonthKey(m.tenantId, m.month, m.year)
  }

  /** No two rows of the monthly table share a key. */
  predicate UniqueKeys(rows: seq<MonthlyRow>) {
    forall i, j :: 0 <= i < j < |rows| ==> KeyOf(rows[i]) != KeyOf(rows[j])
  }

  /** `First` by key: the position of the first row with key `k`. */
  function FindKey(rows: seq<MonthlyRow>, k: MonthKey): (r: Option<nat>)
    ensures r.None? <==> forall i :: 0 <= i < |rows| ==> KeyOf(rows[i]) != k
    ensures r.Some? ==> r.value < |rows| && KeyOf(rows[r.value]) == k &&
                        forall j :: 0 <= j < r.value ==> KeyOf(rows[j]) != k
  {
    if |rows| == 0 then None
    else if KeyOf(rows[0]) == k then Some(0)
    else match FindKey(rows[1..], k)
      case None => None
      case Some(i) => Some(i + 1)
  }

  /** The row stored under key `k`, if any. */
  function Stored(rows: seq<MonthlyRow>, k: MonthKey): Option<MonthlyRow> {
    match FindKey(rows, k)
    case None => None
    case Some(i) => Some(rows[i])
  }

  /** The upsert as written: `First(&monthlyCost)` loads the stored row
      into the very struct that holds the new figures, so `Save` writes the
      stored row back and an existing summary keeps its old values. */
  function UpsertAsWritten(rows: seq<MonthlyRow>, m: MonthlyRow): seq<MonthlyRow> {
    match FindKey(rows, KeyOf(m))
    case None => rows + [m]
    case Some(i) => rows[i := rows[i]]
  }

  /** The upsert as intended: the new figures replace a stored summary of
      the same key, or are added when there is none. */
  function Upsert(rows: seq<MonthlyRow>, m: MonthlyRow): seq<MonthlyRow> {
    match FindKey(rows, KeyOf(m))
    case None => rows + [m]
    case Some(i) => rows[i := m]
  }

  /** After the upsert the summary is stored under its key, every other
      key keeps what it had, and the table still has one row per key. */
  lemma {:induction false} UpsertStores(rows: seq<MonthlyRow>, m: MonthlyRow)
    requires UniqueKeys(rows)
    ensures UniqueKeys(Upsert(rows, m))
    ensures Stored(Upsert(rows, m), KeyOf(m)) == Some(m)
    ensures forall k :: k != KeyOf(m) ==> Stored(Upsert(rows, m), k) == Stored(rows, k)
    ensures |Upsert(rows, m)| == |rows| + (if Stored(rows, KeyOf(m)).None? then 1 else 0)
  {
    var r := Upsert(rows, m);
    var p := match FindKey(rows, KeyOf(m)) case None => |rows| case Some(i) => i;
    assert p < |r| && r[p] == m;
    assert forall i :: 0 <= i < |r| && i != p ==> i < |rows| && r[i] == rows[i];
    assert UniqueKeys(r);
    var j := FindKey(r, KeyOf(m));
    assert j.Some? && j.value == p;
    forall k | k != KeyOf(m) ensures Stored(r, k) == Stored(rows, k) {
      var a := FindKey(r, k);
      var b := FindKey(rows, k);
      if a.Some? && b.Some? {
        assert a.value == b.value;
      }
    }
  }

  /** Upserting the same summary twice is upserting it once. */
  lemma {:induction false} UpsertIdempotent(rows: seq<MonthlyRow>, m: MonthlyRow)
    requires UniqueKeys(rows)
    ensures Upsert(Upsert(rows, m), m) == Upsert(rows, m)
  {
    UpsertStores(rows, m);
  }

  /** The upsert as written keeps the table to one row per key too, but
      leaves an existing summary as it was. */
  lemma {:induction false} UpsertAsWrittenKeepsStale(rows: seq<MonthlyRow>, m: MonthlyRow)
    requires UniqueKeys(rows)
    ensures UniqueKeys(UpsertAsWritten(rows, m))
    ensures Stored(rows, KeyOf(m)).Some? ==> UpsertAsWritten(rows, m) == rows
    ensures Stored(rows, KeyOf(m)).None? ==> UpsertAsWritten(rows, m) == Upsert(rows, m)
  {
    UpsertStores(rows, m);
  }

  /** A stored summary with other figures than the new one: the upsert as
      written leaves the stale figures in place, the corrected one stores
      the new ones. */
  lemma {:induction false} StaleSummaryExample(stale: MonthlyRow, m: MonthlyRow)
    requires KeyOf(stale) == KeyOf(m) && stale != m
    ensures Stored(UpsertAsWritten([stale], m), KeyOf(m)) == Some(stale)
    ensures Stored(Upsert([stale], m), KeyOf(m)) == Some(m)
  {
  }

  // ---------------------------------------------------------------------
  // CreateMonthlyCostReport
  // ---------------------------------------------------------------------

  /** The source's behaviour, or the one its comments describe. */
  datatype Variant = AsWritten | Corrected

  /** The start of the window, `now` minus one month. */
  function From(v: Variant, now: Instant): (r: Instant)
    requires ValidInstant(now)
    ensures ValidInstant(r) && AtOrBefore(r, now)
    ensures v.Corrected? ==> MonthOf(r.date) == MonthBefore(MonthOf(now.date))
  {
    match v
    case AsWritten => WindowStartAsWritten(now)
    case Corrected => WindowStart(now)
  }

  /** Stores the summaries one after the other; each store is one write. */
  function StoreSummaries(v: Variant, summaries: seq<MonthlyRow>, o: Outcome): Outcome {
    if |summaries| == 0 then o
    else
      var mid := StoreSummaries(v, summaries[..|summaries| - 1], o);
      var m := summaries[|summaries| - 1];
      var rows := match v
        case AsWritten => UpsertAsWritten(mid.db.monthly, m)
        case Corrected => Upsert(mid.db.monthly, m);
      Commit(mid, mid.db.(monthly := rows))
  }

  /** CreateMonthlyCostReport: sync the tenants, then compute a summary for
      every tenant of the table over the month before `now` (labelled with
      the month and year of `now` minus one month), then store them. */
  function CreateMonthlyCostReport(v: Variant, namespaces: Result<seq<string>, string>,
                                   now: Instant, db: Db, budget: Budget): Outcome
    requires ValidInstant(now)
  {
    match namespaces
    case Failure(e) => Outcome(db, budget, Some(NamespaceError(e)))
    case Success(ns) =>
      var o := SyncTenants(Outcome(db, budget, None), ns);
      if o.error.Some? then o
      else
        var from := From(v, now);
        StoreSummaries(v, Summaries(o.db, o.db.tenants, from, now, MonthOf(from.date)), o)
  }

  // ---------------------------------------------------------------------
  // What the rollup stores
  // ---------------------------------------------------------------------

  function Keys(rows: seq<MonthlyRow>): (r: seq<MonthKey>)
    ensures |r| == |rows| && forall i :: 0 <= i < |rows| ==> r[i] == KeyOf(rows[i])
  {
    seq(|rows|, i requires 0 <= i < |rows| => KeyOf(rows[i]))
  }

  /** Whatever is in a prefix of the table is found the same way in the
      whole table. */
  lemma {:induction false} StoredInPrefix(a: seq<MonthlyRow>, b: seq<MonthlyRow>, k: MonthKey)
    requires a <= b && Stored(a, k).Some?
    ensures Stored(b, k) == Stored(a, k)
  {
    var i := FindKey(a, k).value;
    assert b[i] == a[i];
  }

  /** What storing `summaries` with the corrected upsert leaves in `r`: it
      stops at the first failed write, touches nothing but the monthly
      table, keeps one row per key, leaves the keys it was not given alone,
      and when no write fails every summary is stored under its key. */
  ghost predicate StoreFits(summaries: seq<MonthlyRow>, o: Outcome, r: Outcome) {
    && (r.error.None? || r.error == Some(WriteFailed))
    && r.db == o.db.(monthly := r.db.monthly)
    && UniqueKeys(r.db.monthly)
    && (forall k :: k !in Keys(summaries) ==> Stored(r.db.monthly, k) == Stored(o.db.monthly, k))
    && (r.error.None? ==> forall i :: 0 <= i < |summaries| ==> Stored(r.db.monthly, KeyOf(summaries[i])) == Some(summaries[i]))
  }

  lemma {:induction false} StoreSummariesSpec(summaries: seq<MonthlyRow>, o: Outcome)
    requires o.error.None? && UniqueKeys(o.db.monthly) && UniqueKeys(summaries)
    ensures StoreFits(summaries, o, StoreSummaries(Corrected, summaries, o))
  {
    if |summaries| > 0 {
      var init := summaries[..|summaries| - 1];
      var m := summaries[|summaries| - 1];
      assert UniqueKeys(init);
      StoreSummariesSpec(init, o);
      var mid := StoreSummaries(Corrected, init, o);
      Seqs.Snoc(summaries);
      StoreStep(init, m, o, mid);
    }
  }

  lemma {:induction false} StoreStep(init: seq<MonthlyRow>, m: MonthlyRow, o: Outcome, mid: Outcome)
    requires StoreFits(init, o, mid) && UniqueKeys(init + [m])
    ensures StoreFits(init + [m], o, Commit(mid, mid.db.(monthly := Upsert(mid.db.monthly, m))))
  {
    var summaries := init + [m];
    var r := Commit(mid, mid.db.(monthly := Upsert(mid.db.monthly, m)));
    assert Keys(summaries) == Keys(init) + [KeyOf(m)];
    if mid.error.None? {
      UpsertStores(mid.db.monthly, m);
      if r.error.None? {
        forall i | 0 <= i < |summaries|
          ensures Stored(r.db.monthly, KeyOf(summaries[i])) == Some(summaries[i])
        {
          if i < |init| {
            assert summaries[i] == init[i];
            assert KeyOf(summaries[i]) != KeyOf(summaries[|init|]);
          }
        }
      }
    }
  }

  /** Without a write budget nothing fails. */
  lemma {:induction false} StoreSummariesUnlimited(v: Variant, summaries: seq<MonthlyRow>, o: Outcome)
    requires o.error.None? && o.budget.Unlimited?
    ensures StoreSummaries(v, summaries, o).error.None?
    ensures StoreSummaries(v, summaries, o).budget.Unlimited?
  {
    if |summaries| > 0 {
      StoreSummariesUnlimited(v, summaries[..|summaries| - 1], o);
    }
  }

  /** Storing summaries with the upsert as written only ever appends: every
      row that was stored stays as it was, whatever the new figures. */
  lemma {:induction false} StoreSummariesAsWritten(summaries: seq<MonthlyRow>, o: Outcome)
    ensures var r := StoreSummaries(AsWritten, summaries, o);
      && o.db.monthly <= r.db.monthly
      && r.db == o.db.(monthly := r.db.monthly)
      && (forall k :: Stored(o.db.monthly, k).Some? ==> Stored(r.db.monthly, k) == Stored(o.db.monthly, k))
  {
    if |summaries| > 0 {
      var init := summaries[..|summaries| - 1];
      StoreSummariesAsWritten(init, o);
    }
    var r := StoreSummaries(AsWritten, summaries, o);
    forall k | Stored(o.db.monthly, k).Some?
      ensures Stored(r.db.monthly, k) == Stored(o.db.monthly, k)
    {
      StoredInPrefix(o.db.monthly, r.db.monthly, k);
    }
  }

  /** Tenants with distinct keys get summaries with distinct keys. */
  lemma {:induction false} SummariesUnique(db: Db, tenants: seq<Tenant>, from: Instant, to: Instant, period: YearMonth)
    requires IncreasingIds(tenants)
    ensures UniqueKeys(Summaries(db, tenants, from, to, period))
  {
  }

  /** The corrected rollup with nothing failing: every namespace has a
      tenant, and every tenant has exactly one summary for the previous
      calendar month, computed over the month up to `now` from the tables
      as the sync left them; other months keep their rows. */
  lemma {:induction false} CreateMonthlyCostReportStores(ns: seq<string>, now: Instant, db: Db)
    requires ValidInstant(now) && WellFormed(db) && UniqueKeys(db.monthly)
    ensures var r := CreateMonthlyCostReport(Corrected, Success(ns), now, db, Unlimited);
      var synced := SyncTenants(Outcome(db, Unlimited, None), ns).db;
      var period := MonthBefore(MonthOf(now.date));
      && r.error.None?
      && r.db == synced.(monthly := r.db.monthly)
      && (forall s :: s in ns ==> HasSlug(r.db.tenants, s))
      && UniqueKeys(r.db.monthly)
      && (forall t :: t in r.db.tenants ==>
            Stored(r.db.monthly, MonthKey(t.id, period.month, period.year)) ==
            Some(Summary(synced, t, WindowStart(now), now, period)))
      && (forall k: MonthKey :: k.month != period.month || k.year != period.year ==>
            Stored(r.db.monthly, k) == Stored(db.monthly, k))
  {
    var o := SyncTenants(Outcome(db, Unlimited, None), ns);
    SyncTenantsSpec(Outcome(db, Unlimited, None), ns);
    SyncNeverFailsUnlimited(ns, Outcome(db, Unlimited, None));
    var from := WindowStart(now);
    var r := CreateMonthlyCostReport(Corrected, Success(ns), now, db, Unlimited);
    assert r == StoreSummaries(Corrected, Summaries(o.db, o.db.tenants, from, now, MonthOf(from.date)), o);
    SummariesStored(o, from, now, MonthOf(from.date));
  }

  /** Storing one summary per tenant of the table with the corrected upsert
      and no write budget: nothing fails, each tenant's summary is stored
      under its key for `period`, and the keys of other months are left
      alone. */
  lemma {:induction false} SummariesStored(o: Outcome, from: Instant, to: Instant, period: YearMonth)
    requires o.error.None? && o.budget.Unlimited?
    requires UniqueKeys(o.db.monthly) && IncreasingIds(o.db.tenants)
    ensures var r := StoreSummaries(Corrected, Summaries(o.db, o.db.tenants, from, to, period), o);
      && r.error.None?
      && r.db == o.db.(monthly := r.db.monthly)
      && UniqueKeys(r.db.monthly)
      && (forall t :: t in r.db.tenants ==>
            Stored(r.db.monthly, MonthKey(t.id, period.month, period.year)) ==
            Some(Summary(o.db, t, from, to, period)))
      && (forall k: MonthKey :: k.month != period.month || k.year != period.year ==>
            Stored(r.db.monthly, k) == Stored(o.db.monthly, k))
  {
    var summaries := Summaries(o.db, o.db.tenants, from, to, period);
    SummariesUnique(o.db, o.db.tenants, from, to, period);
    StoreSummariesSpec(summaries, o);
    StoreSummariesUnlimited(Corrected, summaries, o);
    var r := StoreSummaries(Corrected, summaries, o);
    forall t | t in r.db.tenants
      ensures Stored(r.db.monthly, MonthKey(t.id, period.month, period.year)) == Some(Summary(o.db, t, from, to, period))
    {
      var i :| 0 <= i < |o.db.tenants| && o.db.tenants[i] == t;
      assert KeyOf(summaries[i]) == MonthKey(t.id, period.month, period.year);
    }
    forall k: MonthKey | k.month != period.month || k.year != period.year
      ensures Stored(r.db.monthly, k) == Stored(o.db.monthly, k)
    {
      assert k !in Keys(summaries);
    }
  }

  /** The rollup as written never changes a stored summary: run a second
      time in the same month, it keeps the first run's figures. */
  lemma {:induction false} CreateMonthlyCostReportAsWrittenKeeps(namespaces: Result<seq<string>, string>, now: Instant, db: Db, budget: Budget)
    requires ValidInstant(now) && WellFormed(db)
    ensures var r := CreateMonthlyCostReport(AsWritten, namespaces, now, db, budget);
      forall k :: Stored(db.monthly, k).Some? ==> Stored(r.db.monthly, k) == Stored(db.monthly, k)
  {
    if namespaces.Success? {
      var o := SyncTenants(Outcome(db, budget, None), namespaces.value);
      SyncTenantsSpec(Outcome(db, budget, None), namespaces.value);
      if o.error.None? {
        var from := From(AsWritten, now);
        StoreSummariesAsWritten(Summaries(o.db, o.db.tenants, from, now, MonthOf(from.date)), o);
      }
    }
  }
}

=== FILE: seqs.dfy ===
/** Facts about sequences that the recursive definitions, which all peel
    off the last element, need at every step. Stated once here, where the
    context is small, so that the callers need not rebuild them. */
module Seqs {

  /** A non-empty sequence is its prefix followed by its last element. */
  lemma {:induction false} Snoc<T>(xs: seq<T>)
    requires |xs| > 0
    ensures xs == xs[..|xs| - 1] + [xs[|xs| - 1]]
    ensures forall x :: x in xs <==> x in xs[..|xs| - 1] || x == xs[|xs| - 1]
  {
    assert xs == xs[..|xs| - 1] + [xs[|xs| - 1]];
  }

  /** The members of a non-empty list of names, as a set. */
  lemma {:induction false} SetSnoc(xs: seq<string>, init: seq<string>)
    requires |xs| > 0 && init == xs[..|xs| - 1]
    ensures (set x | x in xs) == (set x | x in init) + {xs[|xs| - 1]}
  {
    Snoc(xs);
  }
}

=== FILE: store.dfy ===
/** The cost store and the periodic snapshot (SaveCostsToDB in
    util/costs.go). The database is an explicit value: one row sequence per
    table in insertion order. A write may fail; which one is decided by a
    write budget handed in with the state. */
module Store {
  import opened Wrappers
  import opened Pricing
  import opened Cluster
  import opened Calendar
  import Seqs

  // ---------------------------------------------------------------------
  // Tables
  // ---------------------------------------------------------------------

  datatype Tenant = Tenant(id: nat, slug: string)

  /** A CPUCost, MemoryCost or IngressCost row. */
  datatype CostRow = CostRow(tenantId: nat, value: real, at: Instant)

  datatype StorageRow = StorageRow(tenantId: nat, storageClass: string, value: real, at: Instant)

  datatype MonthlyRow = MonthlyRow(tenantId: nat, month: int, year: int,
                                   cpu: real, memory: real, storage: real, ingress: real, total: real)

  /** `nextId` is the key the next created tenant receives. */
  datatype Db = Db(
    tenants: seq<Tenant>,
    nextId: nat,
    cpu: seq<CostRow>,
    memory: seq<CostRow>,
    storage: seq<StorageRow>,
    ingress: seq<CostRow>,
    monthly: seq<MonthlyRow>)

  /** How many more writes succeed before one fails; `Unlimited` when none
      fails. Reads never fail. */
  datatype Budget = Unlimited | Remaining(n: nat)

  datatype RunError =
    | NamespaceError(message: string)
    | AggregationError(error: ReadError)
    | PriceError(message: string)
    | WriteFailed

  /** The state of a run: the database, the writes it may still make and
      the error that stopped it, if any. */
  datatype Outcome = Outcome(db: Db, budget: Budget, error: Option<RunError>)

  /** One write of `updated` in place of the current database. A stopped
      run writes nothing more; an exhausted budget stops the run and leaves
      the database as it was. */
  function Commit(o: Outcome, updated: Db): (r: Outcome)
    ensures o.error.Some? ==> r == o
    ensures r.error.None? ==> r.db == updated && o.error.None?
    ensures r.error.Some? ==> r.db == o.db
    ensures o.error.None? && o.budget.Unlimited? ==> r == o.(db := updated)
    ensures o.error.None? && r.error.Some? ==> r.error == Some(WriteFailed) && o.budget == Remaining(0)
  {
    if o.error.Some? then o
    else match o.budget
      case Unlimited => o.(db := updated)
      case Remaining(n) =>
        if n == 0 then o.(error := Some(WriteFailed))
        else Outcome(updated, Remaining(n - 1), None)
  }

  /** Every table of `a` is a prefix of the same table of `b`, and the
      monthly table is untouched: `b` came from `a` by inserts only. */
  predicate Extends(a: Db, b: Db) {
    && a.tenants <= b.tenants
    && a.nextId <= b.nextId
    && a.cpu <= b.cpu
    && a.memory <= b.memory
    && a.storage <= b.storage
    && a.ingress <= b.ingress
    && a.monthly == b.monthly
  }

  lemma {:induction false} ExtendsTransitive(a: Db, b: Db, c: Db)
    requires Extends(a, b) && Extends(b, c)
    ensures Extends(a, c)
  {
  }

  // ---------------------------------------------------------------------
  // Tenants: get-or-create by slug
  // ---------------------------------------------------------------------

  predicate HasSlug(ts: seq<Tenant>, slug: string) {
    exists i :: 0 <= i < |ts| && ts[i].slug == slug
  }

  /** The tenant table holds a slug at most once and every key lies below
      the next key to hand out, so keys are unique too. */
  predicate WellFormed(db: Db) {
    && (forall i, j :: 0 <= i < j < |db.tenants| ==> db.tenants[i].slug != db.tenants[j].slug)
    && IncreasingIds(db.tenants)
    && (forall i :: 0 <= i < |db.tenants| ==> db.tenants[i].id < db.nextId)
  }

  predicate IncreasingIds(ts: seq<Tenant>) {
    forall i, j :: 0 <= i < j < |ts| ==> ts[i].id < ts[j].id
  }

  function CreateTenant(db: Db, slug: string): (r: Db)
    ensures r.tenants == db.tenants + [Tenant(db.nextId, slug)]
    ensures WellFormed(db) && !HasSlug(db.tenants, slug) ==> WellFormed(r)
  {
    db.(tenants := db.tenants + [Tenant(db.nextId, slug)], nextId := db.nextId + 1)
  }

  /** `First(&tenant)` by slug, then `Create` when it found nothing. */
  function SyncTenant(o: Outcome, slug: string): Outcome {
    if o.error.Some? || HasSlug(o.db.tenants, slug) then o
    else Commit(o, CreateTenant(o.db, slug))
  }

  /** The get-or-create loop over the namespaces. */
  function SyncTenants(o: Outcome, slugs: seq<string>): Outcome {
    if |slugs| == 0 then o
    else SyncTenant(SyncTenants(o, slugs[..|slugs| - 1]), slugs[|slugs| - 1])
  }

  /** Syncing only inserts tenants, each with a slug it was asked for that
      the table did not hold, keeps the table well formed, and when it
      finishes without error every slug asked for has a tenant. */
  lemma {:induction false} SyncTenantsSpec(o: Outcome, slugs: seq<string>)
    requires WellFormed(o.db)
    ensures var r := SyncTenants(o, slugs);
      && Extends(o.db, r.db)
      && r.db.cpu == o.db.cpu && r.db.memory == o.db.memory
      && r.db.storage == o.db.storage && r.db.ingress == o.db.ingress
      && WellFormed(r.db)
      && (forall i :: |o.db.tenants| <= i < |r.db.tenants| ==>
            r.db.tenants[i].slug in slugs && !HasSlug(o.db.tenants, r.db.tenants[i].slug))
      && (r.error.None? ==> forall s :: s in slugs ==> HasSlug(r.db.tenants, s))
      && (r.error.Some? ==> r.error == o.error || r.error == Some(WriteFailed))
  {
    if |slugs| > 0 {
      var init := slugs[..|slugs| - 1];
      var s := slugs[|slugs| - 1];
      SyncTenantsSpec(o, init);
      var mid := SyncTenants(o, init);
      var r := SyncTenant(mid, s);
      Seqs.Snoc(slugs);
      if mid.error.None? && !HasSlug(mid.db.tenants, s) && r.error.None? {
        assert r.db.tenants[|mid.db.tenants|].slug == s;
        forall x | HasSlug(mid.db.tenants, x) ensures HasSlug(r.db.tenants, x) {
          var i :| 0 <= i < |mid.db.tenants| && mid.db.tenants[i].slug == x;
          assert r.db.tenants[i] == mid.db.tenants[i];
        }
        forall i | |o.db.tenants| <= i < |r.db.tenants|
          ensures !HasSlug(o.db.tenants, r.db.tenants[i].slug)
        {
          if i < |mid.db.tenants| {
            assert r.db.tenants[i] == mid.db.tenants[i];
          }
        }
      }
    }
  }

  /** When every slug already has a tenant, syncing changes nothing and
      spends no write. */
  lemma {:induction false} SyncTenantsNoop(o: Outcome, slugs: seq<string>)
    requires forall s :: s in slugs ==> HasSlug(o.db.tenants, s)
    ensures SyncTenants(o, slugs) == o
  {
    if |slugs| > 0 {
      var init := slugs[..|slugs| - 1];
      assert forall s :: s in init ==> s in slugs;
      SyncTenantsNoop(o, init);
    }
  }

  /** Running the get-or-create loop twice is the same as running it once. */
  lemma {:induction false} SyncTenantsIdempotent(o: Outcome, slugs: seq<string>)
    requires WellFormed(o.db)
    requires SyncTenants(o, slugs).error.None?
    ensures SyncTenants(SyncTenants(o, slugs), slugs) == SyncTenants(o, slugs)
  {
    SyncTenantsSpec(o, slugs);
    SyncTenantsNoop(SyncTenants(o, slugs), slugs);
  }

  // ---------------------------------------------------------------------
  // The snapshot: one row per tenant and kind
  // ---------------------------------------------------------------------

  /** What the four aggregation passes handed back. */
  datatype Usage = Usage(
    cpu: map<string, nat>,
    memory: map<string, nat>,
    storage: map<string, map<string, nat>>,
    ingress: map<string, seq<string>>)

  /** The ingress charge of one tenant's hosts: per host, or per distinct
      domain under INGRESS_COST_PER_DOMAIN. */
  function TenantIngressCost(cfg: Config, d: real, hosts: seq<string>): (r: real)
    ensures !cfg.ingressCostPerDomain ==> r == IngressCost(cfg, d, |hosts|)
    ensures cfg.ingressCostPerDomain ==> r == IngressCost(cfg, d, |DomainSet(hosts)|)
    ensures |hosts| == 0 ==> r == 0.0
  {
    assert |hosts| == 0 ==> DomainSet(hosts) == {};
    if cfg.ingressCostPerDomain then IngressCost(cfg, d, |DomainSet(hosts)|)
    else IngressCost(cfg, d, |hosts|)
  }

  /** Some order of the members of `s`: Go visits map keys in an
      unspecified order, so the model fixes none. */
  ghost function Enumerate(s: set<string>): (r: seq<string>)
    ensures |r| == |s|
    ensures forall x :: x in r <==> x in s
    ensures forall i, j :: 0 <= i < j < |r| ==> r[i] != r[j]
    decreases |s|
  {
    if s == {} then []
    else
      var x :| x in s;
      var rest := Enumerate(s - {x});
      [x] + rest
  }

  /** The storage row of class `c` for tenant `t`, priced when the class
      has a price (an unpriced class is never written). */
  function StorageRowFor(cfg: Config, d: real, t: Tenant, bytes: map<string, nat>, c: string, now: Instant): StorageRow {
    match StorageCost(cfg, d, c, Lookup(bytes, c, 0) as real)
    case Success(v) => StorageRow(t.id, c, v, now)
    case Failure(_) => StorageRow(t.id, c, 0.0, now)
  }

  /** The storage rows of one tenant for `classes` visited in order: each
      class is priced, an unpriced class stops the run with the pricing
      error. */
  function WriteClasses(cfg: Config, d: real, t: Tenant, bytes: map<string, nat>, classes: seq<string>,
                        now: Instant, o: Outcome): Outcome
  {
    if |classes| == 0 then o
    else
      var mid := WriteClasses(cfg, d, t, bytes, classes[..|classes| - 1], now, o);
      var c := classes[|classes| - 1];
      if mid.error.Some? then mid
      else match StorageCost(cfg, d, c, Lookup(bytes, c, 0) as real)
        case Failure(e) => mid.(error := Some(PriceError(e)))
        case Success(v) => Commit(mid, mid.db.(storage := mid.db.storage + [StorageRow(t.id, c, v, now)]))
  }

  /** The three tables that take one row per tenant per snapshot. */
  datatype CostKind = CpuKind | MemoryKind | IngressKind

  function CostTable(db: Db, k: CostKind): seq<CostRow> {
    match k
    case CpuKind => db.cpu
    case MemoryKind => db.memory
    case IngressKind => db.ingress
  }

  function WithCostTable(db: Db, k: CostKind, rows: seq<CostRow>): Db {
    match k
    case CpuKind => db.(cpu := rows)
    case MemoryKind => db.(memory := rows)
    case IngressKind => db.(ingress := rows)
  }

  /** The snapshot row of kind `k` for tenant `t`: its usage priced at the
      current discounts. A tenant missing from a usage map reads as zero
      usage. */
  function SnapshotRow(cfg: Config, d: Discounts, u: Usage, now: Instant, k: CostKind, t: Tenant): (r: CostRow)
    ensures r.tenantId == t.id && r.at == now
    ensures k.CpuKind? && t.slug !in u.cpu ==> r.value == 0.0
    ensures k.MemoryKind? && t.slug !in u.memory ==> r.value == 0.0
    ensures k.IngressKind? && t.slug !in u.ingress ==> r.value == 0.0
  {
    match k
    case CpuKind => CostRow(t.id, CpuCost(cfg, d.cpu, Lookup(u.cpu, t.slug, 0) as real), now)
    case MemoryKind => CostRow(t.id, MemoryCost(cfg, d.memory, Lookup(u.memory, t.slug, 0) as real), now)
    case IngressKind => CostRow(t.id, TenantIngressCost(cfg, d.ingress, Lookup(u.ingress, t.slug, [])), now)
  }

  function WriteRow(cfg: Config, d: Discounts, u: Usage, now: Instant, k: CostKind, t: Tenant, o: Outcome): Outcome {
    Commit(o, WithCostTable(o.db, k, CostTable(o.db, k) + [SnapshotRow(cfg, d, u, now, k, t)]))
  }

  function TenantClasses(u: Usage, t: Tenant): map<string, nat> {
    Lookup(u.storage, t.slug, map[])
  }

  /** A row write only appends to its own table. */
  lemma {:induction false} WriteRowExtends(cfg: Config, d: Discounts, u: Usage, now: Instant, k: CostKind, t: Tenant, o: Outcome)
    ensures var r := WriteRow(cfg, d, u, now, k, t, o);
            Extends(o.db, r.db) && r.db.tenants == o.db.tenants && r.db.nextId == o.db.nextId
  {
  }

  /** Without write failures a row write appends the tenant's row of kind
      `k` to that table and leaves every other table alone. */
  lemma {:induction false} WriteRowUnlimited(cfg: Config, d: Discounts, u: Usage, now: Instant, k: CostKind, t: Tenant, o: Outcome)
    requires o.error.None? && o.budget.Unlimited?
    ensures var r := WriteRow(cfg, d, u, now, k, t, o);
      && r.error.None? && r.budget.Unlimited?
      && r.db.tenants == o.db.tenants && r.db.nextId == o.db.nextId && r.db.monthly == o.db.monthly
      && r.db.storage == o.db.storage
      && (forall j :: CostTable(r.db, j) == CostTable(o.db, j) + (if j == k then [SnapshotRow(cfg, d, u, now, k, t)] else []))
  {
  }

  /** One tenant's snapshot: a CPU row, a memory row, a storage row per
      class the tenant requests, and an ingress row. */
  ghost function WriteTenant(cfg: Config, d: Discounts, u: Usage, now: Instant, t: Tenant, o: Outcome): Outcome {
    var o2 := WriteRow(cfg, d, u, now, MemoryKind, t, WriteRow(cfg, d, u, now, CpuKind, t, o));
    var bytes := TenantClasses(u, t);
    var o3 := WriteClasses(cfg, d.storage, t, bytes, Enumerate(bytes.Keys), now, o2);
    WriteRow(cfg, d, u, now, IngressKind, t, o3)
  }

  ghost function WriteSnapshots(cfg: Config, d: Discounts, u: Usage, now: Instant, tenants: seq<Tenant>, o: Outcome): Outcome {
    if |tenants| == 0 then o
    else WriteTenant(cfg, d, u, now, tenants[|tenants| - 1], WriteSnapshots(cfg, d, u, now, tenants[..|tenants| - 1], o))
  }

  // ---------------------------------------------------------------------
  // SaveCostsToDB
  // ---------------------------------------------------------------------

  /** The four aggregation passes in the order the snapshot runs them: what
      they handed back, the discounts as they left them, and the error of
      the pass that stopped the sequence. */
  datatype Passes = Passes(usage: Usage, discounts: Discounts, error: Option<ReadError>)

  /** The passes over the namespaces `ns`, each starting from the discount
      the previous run left (`disc`). A failed pass stops the later ones:
      its own error is the run's error, and the later passes leave their
      discounts alone; an abandoned pass hands back
      no usage but lets the sequence go on. */
  function RunPasses(cfg: Config, parse: FloatParser, snap: Snapshot, ns: seq<string>, disc: Discounts): (r: Passes)
    ensures var cpu := CpuRequestsSum(cfg.discountLabel, parse, snap, ns, disc.cpu);
      && r.discounts.cpu == cpu.discount
      && (cpu.status.Failed? ==> r.error == Some(cpu.status.error) && r.discounts.(cpu := disc.cpu) == disc)
    ensures var cpu := CpuRequestsSum(cfg.discountLabel, parse, snap, ns, disc.cpu);
            var memory := MemoryRequestsSum(cfg.discountLabel, parse, snap, ns, disc.memory);
      !cpu.status.Failed? && memory.status.Failed? ==>
        r.error == Some(memory.status.error) && r.discounts == disc.(cpu := cpu.discount, memory := memory.discount)
    ensures var cpu := CpuRequestsSum(cfg.discountLabel, parse, snap, ns, disc.cpu);
            var memory := MemoryRequestsSum(cfg.discountLabel, parse, snap, ns, disc.memory);
            var storage := StorageRequestsSum(cfg.discountLabel, parse, snap, ns, disc.storage);
      !cpu.status.Failed? && !memory.status.Failed? && storage.status.Failed? ==>
        && r.error == Some(storage.status.error)
        && r.discounts == disc.(cpu := cpu.discount, memory := memory.discount, storage := storage.discount)
    ensures var cpu := CpuRequestsSum(cfg.discountLabel, parse, snap, ns, disc.cpu);
            var memory := MemoryRequestsSum(cfg.discountLabel, parse, snap, ns, disc.memory);
            var storage := StorageRequestsSum(cfg.discountLabel, parse, snap, ns, disc.storage);
            var ingress := IngressRequestsSum(cfg.discountLabel, parse, cfg.excludeIngressVcluster, snap, ns, disc.ingress);
      !cpu.status.Failed? && !memory.status.Failed? && !storage.status.Failed? && ingress.status.Failed? ==>
        && r.error == Some(ingress.status.error)
        && r.discounts == Discounts(cpu.discount, memory.discount, storage.discount, ingress.discount)
    ensures r.error.None? ==>
      && r.usage.cpu == CpuRequestsSum(cfg.discountLabel, parse, snap, ns, disc.cpu).Returned()
      && r.usage.memory == MemoryRequestsSum(cfg.discountLabel, parse, snap, ns, disc.memory).Returned()
      && r.usage.storage == StorageRequestsSum(cfg.discountLabel, parse, snap, ns, disc.storage).Returned()
      && r.usage.ingress == IngressRequestsSum(cfg.discountLabel, parse, cfg.excludeIngressVcluster, snap, ns, disc.ingress).Returned()
      && r.discounts == Discounts(
           CpuRequestsSum(cfg.discountLabel, parse, snap, ns, disc.cpu).discount,
           MemoryRequestsSum(cfg.discountLabel, parse, snap, ns, disc.memory).discount,
           StorageRequestsSum(cfg.discountLabel, parse, snap, ns, disc.storage).discount,
           IngressRequestsSum(cfg.discountLabel, parse, cfg.excludeIngressVcluster, snap, ns, disc.ingress).discount)
    ensures r.error.None? <==>
      && !CpuRequestsSum(cfg.discountLabel, parse, snap, ns, disc.cpu).status.Failed?
      && !MemoryRequestsSum(cfg.discountLabel, parse, snap, ns, disc.memory).status.Failed?
      && !StorageRequestsSum(cfg.discountLabel, parse, snap, ns, disc.storage).status.Failed?
      && !IngressRequestsSum(cfg.discountLabel, parse, cfg.excludeIngressVcluster, snap, ns, disc.ingress).status.Failed?
  {
    var none := Usage(map[], map[], map[], map[]);
    var cpu := CpuRequestsSum(cfg.discountLabel, parse, snap, ns, disc.cpu);
    var d1 := disc.(cpu := cpu.discount);
    if cpu.Error().Some? then Passes(none, d1, cpu.Error())
    else
      var memory := MemoryRequestsSum(cfg.discountLabel, parse, snap, ns, disc.memory);
      var d2 := d1.(memory := memory.discount);
      if memory.Error().Some? then Passes(none, d2, memory.Error())
      else
        var storage := StorageRequestsSum(cfg.discountLabel, parse, snap, ns, disc.storage);
        var d3 := d2.(storage := storage.discount);
        if storage.Error().Some? then Passes(none, d3, storage.Error())
        else
          var ingress := IngressRequestsSum(cfg.discountLabel, parse, cfg.excludeIngressVcluster, snap, ns, disc.ingress);
          var d4 := d3.(ingress := ingress.discount);
          if ingress.Error().Some? then Passes(none, d4, ingress.Error())
          else Passes(Usage(cpu.Returned(), memory.Returned(), storage.Returned(), ingress.Returned()), d4, None)
  }

  /** A run's result and the discounts as the passes it ran left them. */
  datatype Saved = Saved(out: Outcome, discounts: Discounts)

  /** SaveCostsToDB. `namespaces` is the cluster's namespace listing,
      `disc` the discounts left by earlier runs and `now` the clock. The
      tenants are synced, then the passes run over the namespaces, then
      every tenant of the table (not only those of the namespaces) gets its
      snapshot rows. */
  ghost function SaveCostsToDB(cfg: Config, parse: FloatParser, snap: Snapshot,
                               namespaces: Result<seq<string>, string>, disc: Discounts,
                               now: Instant, db: Db, budget: Budget): Saved
  {
    match namespaces
    case Failure(e) => Saved(Outcome(db, budget, Some(NamespaceError(e))), disc)
    case Success(ns) =>
      var o := SyncTenants(Outcome(db, budget, None), ns);
      if o.error.Some? then Saved(o, disc)
      else
        var p := RunPasses(cfg, parse, snap, ns, disc);
        if p.error.Some? then Saved(o.(error := Some(AggregationError(p.error.value))), p.discounts)
        else Saved(WriteSnapshots(cfg, p.discounts, p.usage, now, o.db.tenants, o), p.discounts)
  }

  // ---------------------------------------------------------------------
  // Reference rows
  // ---------------------------------------------------------------------

  predicate ClassesPriced(cfg: Config, classes: seq<string>) {
    forall c :: c in classes ==> c in cfg.storageCost
  }

  predicate MapPriced(cfg: Config, bytes: map<string, nat>) {
    forall c :: c in bytes ==> c in cfg.storageCost
  }

  /** Every storage class any of `tenants` requests has a price. */
  predicate AllPriced(cfg: Config, u: Usage, tenants: seq<Tenant>) {
    forall i :: 0 <= i < |tenants| ==> MapPriced(cfg, TenantClasses(u, tenants[i]))
  }

  function ClassRows(cfg: Config, d: real, t: Tenant, bytes: map<string, nat>, classes: seq<string>, now: Instant): seq<StorageRow> {
    if |classes| == 0 then []
    else ClassRows(cfg, d, t, bytes, classes[..|classes| - 1], now) + [StorageRowFor(cfg, d, t, bytes, classes[|classes| - 1], now)]
  }

  function SnapshotRows(cfg: Config, d: Discounts, u: Usage, now: Instant, k: CostKind, tenants: seq<Tenant>): seq<CostRow> {
    if |tenants| == 0 then []
    else SnapshotRows(cfg, d, u, now, k, tenants[..|tenants| - 1]) + [SnapshotRow(cfg, d, u, now, k, tenants[|tenants| - 1])]
  }

  ghost function StorageRows(cfg: Config, d: Discounts, u: Usage, now: Instant, tenants: seq<Tenant>): seq<StorageRow> {
    if |tenants| == 0 then []
    else
      var t := tenants[|tenants| - 1];
      var bytes := TenantClasses(u, t);
      StorageRows(cfg, d, u, now, tenants[..|tenants| - 1]) + ClassRows(cfg, d.storage, t, bytes, Enumerate(bytes.Keys), now)
  }

  // ---------------------------------------------------------------------
  // What an unlimited snapshot writes
  // ---------------------------------------------------------------------

  /** Without write failures, a tenant's storage loop writes one row per
      class in visiting order when every class is priced, and otherwise
      stops on an unpriced class with the error naming it. Nothing but the
      storage table changes. */
  lemma {:induction false} WriteClassesUnlimited(cfg: Config, d: real, t: Tenant, bytes: map<string, nat>,
                                                  classes: seq<string>, now: Instant, o: Outcome)
    requires o.error.None? && o.budget.Unlimited?
    ensures var r := WriteClasses(cfg, d, t, bytes, classes, now, o);
      && r.budget.Unlimited?
      && r.db == o.db.(storage := r.db.storage)
      && (r.error.None? <==> ClassesPriced(cfg, classes))
      && (r.error.None? ==> r.db.storage == o.db.storage + ClassRows(cfg, d, t, bytes, classes, now))
      && (r.error.Some? ==> exists c :: c in classes && c !in cfg.storageCost && r.error == Some(PriceError(UnknownClass(c))))
  {
    if |classes| > 0 {
      var init := classes[..|classes| - 1];
      var c := classes[|classes| - 1];
      WriteClassesUnlimited(cfg, d, t, bytes, init, now, o);
      Seqs.Snoc(classes);
    }
  }

  lemma {:induction false} WriteTenantUnlimited(cfg: Config, d: Discounts, u: Usage, now: Instant, t: Tenant, o: Outcome)
    requires o.error.None? && o.budget.Unlimited?
    ensures var r := WriteTenant(cfg, d, u, now, t, o);
      && r.budget.Unlimited?
      && r.db.tenants == o.db.tenants && r.db.nextId == o.db.nextId && r.db.monthly == o.db.monthly
      && (r.error.None? <==> MapPriced(cfg, TenantClasses(u, t)))
      && (r.error.None? ==>
            && (forall k :: CostTable(r.db, k) == CostTable(o.db, k) + [SnapshotRow(cfg, d, u, now, k, t)])
            && r.db.storage == o.db.storage +
                 ClassRows(cfg, d.storage, t, TenantClasses(u, t), Enumerate(TenantClasses(u, t).Keys), now))
      && (r.error.Some? ==> r.error.value.PriceError?)
  {
    var o1 := WriteRow(cfg, d, u, now, CpuKind, t, o);
    var o2 := WriteRow(cfg, d, u, now, MemoryKind, t, o1);
    var bytes := TenantClasses(u, t);
    WriteRowUnlimited(cfg, d, u, now, CpuKind, t, o);
    WriteRowUnlimited(cfg, d, u, now, MemoryKind, t, o1);
    WriteClassesUnlimited(cfg, d.storage, t, bytes, Enumerate(bytes.Keys), now, o2);
    var o3 := WriteClasses(cfg, d.storage, t, bytes, Enumerate(bytes.Keys), now, o2);
    if o3.error.None? {
      WriteRowUnlimited(cfg, d, u, now, IngressKind, t, o3);
    }
  }

  /** `r` is what an unlimited snapshot of `tenants` started from `o`
      should leave: the same tenants, success exactly when every requested
      class is priced, and then one CPU, memory and ingress row per tenant in
      table order plus the tenants' class rows; otherwise a pricing error. */
  ghost predicate SnapshotFits(cfg: Config, d: Discounts, u: Usage, now: Instant,
                               tenants: seq<Tenant>, o: Outcome, r: Outcome) {
    && r.budget.Unlimited?
    && r.db.tenants == o.db.tenants && r.db.nextId == o.db.nextId && r.db.monthly == o.db.monthly
    && (r.error.None? <==> AllPriced(cfg, u, tenants))
    && (r.error.None? ==>
          && (forall k :: CostTable(r.db, k) == CostTable(o.db, k) + SnapshotRows(cfg, d, u, now, k, tenants))
          && r.db.storage == o.db.storage + StorageRows(cfg, d, u, now, tenants))
    && (r.error.Some? ==> r.error.value.PriceError?)
  }

  /** Without write failures, the snapshot succeeds exactly when every
      class any tenant requests is priced; then each of the CPU, memory and
      ingress tables gains one row per tenant in table order and the
      storage table gains the tenants' class rows. Otherwise it stops on a
      pricing error. */
  lemma {:induction false} WriteSnapshotsUnlimited(cfg: Config, d: Discounts, u: Usage, now: Instant,
                                                    tenants: seq<Tenant>, o: Outcome)
    requires o.error.None? && o.budget.Unlimited?
    ensures SnapshotFits(cfg, d, u, now, tenants, o, WriteSnapshots(cfg, d, u, now, tenants, o))
  {
    if |tenants| > 0 {
      var init := tenants[..|tenants| - 1];
      var t := tenants[|tenants| - 1];
      WriteSnapshotsUnlimited(cfg, d, u, now, init, o);
      var mid := WriteSnapshots(cfg, d, u, now, init, o);
      WriteSnapshotsSnoc(cfg, d, u, now, tenants, o);
      SnapshotStep(cfg, d, u, now, init, t, o, mid);
    }
  }

  /** The snapshot of a non-empty list is the last tenant's snapshot after
      the snapshot of the others. */
  lemma {:induction false} WriteSnapshotsSnoc(cfg: Config, d: Discounts, u: Usage, now: Instant, tenants: seq<Tenant>, o: Outcome)
    requires |tenants| > 0
    ensures tenants == tenants[..|tenants| - 1] + [tenants[|tenants| - 1]]
    ensures WriteSnapshots(cfg, d, u, now, tenants, o) ==
            WriteTenant(cfg, d, u, now, tenants[|tenants| - 1], WriteSnapshots(cfg, d, u, now, tenants[..|tenants| - 1], o))
  {
    Seqs.Snoc(tenants);
  }

  lemma {:induction false} SnapshotStep(cfg: Config, d: Discounts, u: Usage, now: Instant,
                     init: seq<Tenant>, t: Tenant, o: Outcome, mid: Outcome)
    requires o.error.None? && o.budget.Unlimited?
    requires SnapshotFits(cfg, d, u, now, init, o, mid)
    ensures SnapshotFits(cfg, d, u, now, init + [t], o, WriteTenant(cfg, d, u, now, t, mid))
  {
    var tenants := init + [t];
    PricedSnoc(cfg, u, init, t);
    if mid.error.Some? {
      WriteTenantStopped(cfg, d, u, now, t, mid);
    } else {
      WriteTenantUnlimited(cfg, d, u, now, t, mid);
      var r := WriteTenant(cfg, d, u, now, t, mid);
      if r.error.None? {
        StepCostTables(cfg, d, u, now, init, t, o, mid, r);
        StorageRowsSnoc(cfg, d, u, now, init, t);
        var mine := ClassRows(cfg, d.storage, t, TenantClasses(u, t), Enumerate(TenantClasses(u, t).Keys), now);
        AppendAssoc(o.db.storage, StorageRows(cfg, d, u, now, init), mine);
      }
    }
  }

  lemma {:induction false} PricedSnoc(cfg: Config, u: Usage, init: seq<Tenant>, t: Tenant)
    ensures AllPriced(cfg, u, init + [t]) <==> AllPriced(cfg, u, init) && MapPriced(cfg, TenantClasses(u, t))
  {
    var tenants := init + [t];
    assert forall i :: 0 <= i < |init| ==> init[i] == tenants[i];
    assert tenants[|init|] == t;
  }

  lemma {:induction false} StepCostTables(cfg: Config, d: Discounts, u: Usage, now: Instant,
                       init: seq<Tenant>, t: Tenant, o: Outcome, mid: Outcome, r: Outcome)
    requires forall k :: CostTable(mid.db, k) == CostTable(o.db, k) + SnapshotRows(cfg, d, u, now, k, init)
    requires forall k :: CostTable(r.db, k) == CostTable(mid.db, k) + [SnapshotRow(cfg, d, u, now, k, t)]
    ensures forall k :: CostTable(r.db, k) == CostTable(o.db, k) + SnapshotRows(cfg, d, u, now, k, init + [t])
  {
    var tenants := init + [t];
    assert tenants[..|tenants| - 1] == init;
    forall k ensures CostTable(r.db, k) == CostTable(o.db, k) + SnapshotRows(cfg, d, u, now, k, tenants) {
      assert SnapshotRows(cfg, d, u, now, k, tenants) == SnapshotRows(cfg, d, u, now, k, init) + [SnapshotRow(cfg, d, u, now, k, t)];
    }
  }

  lemma {:induction false} StorageRowsSnoc(cfg: Config, d: Discounts, u: Usage, now: Instant, init: seq<Tenant>, t: Tenant)
    ensures StorageRows(cfg, d, u, now, init + [t]) ==
            StorageRows(cfg, d, u, now, init) +
            ClassRows(cfg, d.storage, t, TenantClasses(u, t), Enumerate(TenantClasses(u, t).Keys), now)
  {
    PricedSnoc(cfg, u, init, t);
    var tenants := init + [t];
    assert tenants[..|tenants| - 1] == init;
  }

  lemma {:induction false} WriteClassesStopped(cfg: Config, d: real, t: Tenant, bytes: map<string, nat>,
                                                classes: seq<string>, now: Instant, o: Outcome)
    requires o.error.Some?
    ensures WriteClasses(cfg, d, t, bytes, classes, now, o) == o
  {
    if |classes| > 0 {
      WriteClassesStopped(cfg, d, t, bytes, classes[..|classes| - 1], now, o);
    }
  }

  /** A stopped run writes nothing for later tenants. */
  lemma {:induction false} WriteTenantStopped(cfg: Config, d: Discounts, u: Usage, now: Instant, t: Tenant, o: Outcome)
    requires o.error.Some?
    ensures WriteTenant(cfg, d, u, now, t, o) == o
  {
    var bytes := TenantClasses(u, t);
    WriteClassesStopped(cfg, d.storage, t, bytes, Enumerate(bytes.Keys), now, o);
  }

  lemma {:induction false} AppendAssoc<T>(a: seq<T>, b: seq<T>, c: seq<T>)
    ensures a + b + c == a + (b + c)
  {
  }

  // ---------------------------------------------------------------------
  // What the reference rows say
  // ---------------------------------------------------------------------

  /** One snapshot row per tenant, in table order, holding that tenant's
      priced usage. */
  lemma {:induction false} SnapshotRowsMeaning(cfg: Config, d: Discounts, u: Usage, now: Instant,
                                                k: CostKind, tenants: seq<Tenant>)
    ensures |SnapshotRows(cfg, d, u, now, k, tenants)| == |tenants|
    ensures forall i :: 0 <= i < |tenants| ==>
              SnapshotRows(cfg, d, u, now, k, tenants)[i] == SnapshotRow(cfg, d, u, now, k, tenants[i])
  {
    if |tenants| > 0 {
      var init := tenants[..|tenants| - 1];
      SnapshotRowsMeaning(cfg, d, u, now, k, init);
      assert forall i :: 0 <= i < |init| ==> init[i] == tenants[i];
    }
  }

  /** A tenant's class rows: one per class visited, priced for that class. */
  lemma {:induction false} ClassRowsMeaning(cfg: Config, d: real, t: Tenant, bytes: map<string, nat>,
                                             classes: seq<string>, now: Instant)
    ensures |ClassRows(cfg, d, t, bytes, classes, now)| == |classes|
    ensures forall i :: 0 <= i < |classes| ==>
              ClassRows(cfg, d, t, bytes, classes, now)[i] == StorageRowFor(cfg, d, t, bytes, classes[i], now)
  {
    if |classes| > 0 {
      var init := classes[..|classes| - 1];
      ClassRowsMeaning(cfg, d, t, bytes, init, now);
      assert forall i :: 0 <= i < |init| ==> init[i] == classes[i];
    }
  }

  /** No two storage rows share a tenant and a class. */
  predicate UniqueClassRows(rows: seq<StorageRow>) {
    forall a, b :: 0 <= a < b < |rows| ==>
      rows[a].tenantId != rows[b].tenantId || rows[a].storageClass != rows[b].storageClass
  }

  /** Every class a tenant requests gets its priced storage row. */
  lemma {:induction false} StorageRowsCover(cfg: Config, d: Discounts, u: Usage, now: Instant, tenants: seq<Tenant>)
    ensures forall i, c :: 0 <= i < |tenants| && c in TenantClasses(u, tenants[i]) ==>
              StorageRowFor(cfg, d.storage, tenants[i], TenantClasses(u, tenants[i]), c, now) in StorageRows(cfg, d, u, now, tenants)
  {
    if |tenants| > 0 {
      var init := tenants[..|tenants| - 1];
      var t := tenants[|tenants| - 1];
      StorageRowsCover(cfg, d, u, now, init);
      ClassRowsCover(cfg, d.storage, t, TenantClasses(u, t), Enumerate(TenantClasses(u, t).Keys), now);
      CoverStep(cfg, d, u, now, init, t, tenants, StorageRows(cfg, d, u, now, init),
                ClassRows(cfg, d.storage, t, TenantClasses(u, t), Enumerate(TenantClasses(u, t).Keys), now),
                StorageRows(cfg, d, u, now, tenants));
    }
  }

  lemma {:induction false} ClassRowsCover(cfg: Config, d: real, t: Tenant, bytes: map<string, nat>, classes: seq<string>, now: Instant)
    requires forall c :: c in classes <==> c in bytes
    ensures forall c :: c in bytes ==> StorageRowFor(cfg, d, t, bytes, c, now) in ClassRows(cfg, d, t, bytes, classes, now)
  {
    ClassRowsMeaning(cfg, d, t, bytes, classes, now);
    forall c | c in bytes ensures StorageRowFor(cfg, d, t, bytes, c, now) in ClassRows(cfg, d, t, bytes, classes, now) {
      var j :| 0 <= j < |classes| && classes[j] == c;
    }
  }

  lemma {:induction false} ClassRowsOnly(cfg: Config, d: real, t: Tenant, bytes: map<string, nat>, classes: seq<string>, now: Instant)
    requires forall c :: c in classes <==> c in bytes
    ensures forall r :: r in ClassRows(cfg, d, t, bytes, classes, now) ==>
              r.tenantId == t.id && r.storageClass in bytes && r == StorageRowFor(cfg, d, t, bytes, r.storageClass, now)
  {
    ClassRowsMeaning(cfg, d, t, bytes, classes, now);
  }

  lemma {:induction false} CoverStep(cfg: Config, d: Discounts, u: Usage, now: Instant, init: seq<Tenant>, t: Tenant,
                  ts: seq<Tenant>, before: seq<StorageRow>, mine: seq<StorageRow>, rows: seq<StorageRow>)
    requires |ts| > 0 && init == ts[..|ts| - 1] && t == ts[|ts| - 1] && rows == before + mine
    requires forall i, c :: 0 <= i < |init| && c in TenantClasses(u, init[i]) ==>
               StorageRowFor(cfg, d.storage, init[i], TenantClasses(u, init[i]), c, now) in before
    requires forall c :: c in TenantClasses(u, t) ==>
               StorageRowFor(cfg, d.storage, t, TenantClasses(u, t), c, now) in mine
    ensures forall i, c :: 0 <= i < |ts| && c in TenantClasses(u, ts[i]) ==>
              StorageRowFor(cfg, d.storage, ts[i], TenantClasses(u, ts[i]), c, now) in rows
  {
    forall i, c | 0 <= i < |ts| && c in TenantClasses(u, ts[i])
      ensures StorageRowFor(cfg, d.storage, ts[i], TenantClasses(u, ts[i]), c, now) in rows
    {
      if i < |init| {
        assert ts[i] == init[i];
      }
    }
  }

  /** Every storage row of a snapshot is the priced row of a class one of
      the tenants requests. */
  lemma {:induction false} StorageRowsOnly(cfg: Config, d: Discounts, u: Usage, now: Instant, tenants: seq<Tenant>)
    ensures forall r :: r in StorageRows(cfg, d, u, now, tenants) ==>
              exists i :: 0 <= i < |tenants| && r.tenantId == tenants[i].id && r.storageClass in TenantClasses(u, tenants[i]) &&
                          r == StorageRowFor(cfg, d.storage, tenants[i], TenantClasses(u, tenants[i]), r.storageClass, now)
  {
    if |tenants| > 0 {
      var init := tenants[..|tenants| - 1];
      var t := tenants[|tenants| - 1];
      StorageRowsOnly(cfg, d, u, now, init);
      StorageRowsSnoc(cfg, d, u, now, init, t);
      ClassRowsOnly(cfg, d.storage, t, TenantClasses(u, t), Enumerate(TenantClasses(u, t).Keys), now);
      Seqs.Snoc(tenants);
      OnlyStep(cfg, d, u, now, init, t, StorageRows(cfg, d, u, now, init),
               ClassRows(cfg, d.storage, t, TenantClasses(u, t), Enumerate(TenantClasses(u, t).Keys), now));
    }
  }

  lemma {:induction false} OnlyStep(cfg: Config, d: Discounts, u: Usage, now: Instant, init: seq<Tenant>, t: Tenant,
                 before: seq<StorageRow>, mine: seq<StorageRow>)
    requires forall r :: r in before ==>
               exists i :: 0 <= i < |init| && r.tenantId == init[i].id && r.storageClass in TenantClasses(u, init[i]) &&
                           r == StorageRowFor(cfg, d.storage, init[i], TenantClasses(u, init[i]), r.storageClass, now)
    requires forall r :: r in mine ==>
               r.tenantId == t.id && r.storageClass in TenantClasses(u, t) &&
               r == StorageRowFor(cfg, d.storage, t, TenantClasses(u, t), r.storageClass, now)
    ensures forall r :: r in before + mine ==>
              exists i :: 0 <= i < |init + [t]| && r.tenantId == (init + [t])[i].id && r.storageClass in TenantClasses(u, (init + [t])[i]) &&
                          r == StorageRowFor(cfg, d.storage, (init + [t])[i], TenantClasses(u, (init + [t])[i]), r.storageClass, now)
  {
    var ts := init + [t];
    forall r: StorageRow | r in before + mine
      ensures exists i :: 0 <= i < |ts| && r.tenantId == ts[i].id && r.storageClass in TenantClasses(u, ts[i]) &&
                          r == StorageRowFor(cfg, d.storage, ts[i], TenantClasses(u, ts[i]), r.storageClass, now)
    {
      if r in before {
        var i :| 0 <= i < |init| && r.tenantId == init[i].id && r.storageClass in TenantClasses(u, init[i]) &&
                 r == StorageRowFor(cfg, d.storage, init[i], TenantClasses(u, init[i]), r.storageClass, now);
        assert ts[i] == init[i];
      } else {
        assert ts[|init|] == t;
      }
    }
  }

  /** With increasing tenant keys no (tenant, class) pair is written twice. */
  lemma {:induction false} StorageRowsUnique(cfg: Config, d: Discounts, u: Usage, now: Instant, tenants: seq<Tenant>)
    requires IncreasingIds(tenants)
    ensures UniqueClassRows(StorageRows(cfg, d, u, now, tenants))
  {
    if |tenants| > 0 {
      var init := tenants[..|tenants| - 1];
      var t := tenants[|tenants| - 1];
      Seqs.Snoc(tenants);
      assert IncreasingIds(init);
      StorageRowsUnique(cfg, d, u, now, init);
      StorageRowsOnly(cfg, d, u, now, init);
      StorageRowsSnoc(cfg, d, u, now, init, t);
      var bytes := TenantClasses(u, t);
      var classes := Enumerate(bytes.Keys);
      ClassRowsOnly(cfg, d.storage, t, bytes, classes, now);
      ClassRowsDistinct(cfg, d.storage, t, bytes, classes, now);
      UniqueStep(init, t, StorageRows(cfg, d, u, now, init), ClassRows(cfg, d.storage, t, bytes, classes, now));
    }
  }

  lemma {:induction false} ClassRowsDistinct(cfg: Config, d: real, t: Tenant, bytes: map<string, nat>, classes: seq<string>, now: Instant)
    requires forall i, j :: 0 <= i < j < |classes| ==> classes[i] != classes[j]
    ensures var rows := ClassRows(cfg, d, t, bytes, classes, now);
            forall a, b :: 0 <= a < b < |rows| ==> rows[a].storageClass != rows[b].storageClass
  {
    ClassRowsMeaning(cfg, d, t, bytes, classes, now);
  }

  lemma {:induction false} UniqueStep(init: seq<Tenant>, t: Tenant, before: seq<StorageRow>, mine: seq<StorageRow>)
    requires IncreasingIds(init + [t])
    requires UniqueClassRows(before)
    requires forall r :: r in before ==> exists i :: 0 <= i < |init| && r.tenantId == init[i].id
    requires forall r :: r in mine ==> r.tenantId == t.id
    requires forall a, b :: 0 <= a < b < |mine| ==> mine[a].storageClass != mine[b].storageClass
    ensures UniqueClassRows(before + mine)
  {
    var all := before + mine;
    var ts := init + [t];
    forall a, b | 0 <= a < b < |all|
      ensures all[a].tenantId != all[b].tenantId || all[a].storageClass != all[b].storageClass
    {
      if a < |before| && b >= |before| {
        assert all[a] in before;
        var i :| 0 <= i < |init| && all[a].tenantId == init[i].id;
        assert ts[i] == init[i] && ts[|init|] == t;
        assert all[b] == mine[b - |before|];
      } else if a >= |before| {
        assert all[a] == mine[a - |before|] && all[b] == mine[b - |before|];
      }
    }
  }

  // ---------------------------------------------------------------------
  // Failed writes: earlier rows stay, nothing follows
  // ---------------------------------------------------------------------

  lemma {:induction false} WriteClassesExtends(cfg: Config, d: real, t: Tenant, bytes: map<string, nat>,
                                                classes: seq<string>, now: Instant, o: Outcome)
    ensures var r := WriteClasses(cfg, d, t, bytes, classes, now, o);
            Extends(o.db, r.db) && r.db.tenants == o.db.tenants && r.db.nextId == o.db.nextId
  {
    if |classes| > 0 {
      WriteClassesExtends(cfg, d, t, bytes, classes[..|classes| - 1], now, o);
    }
  }

  lemma {:induction false} WriteTenantExtends(cfg: Config, d: Discounts, u: Usage, now: Instant, t: Tenant, o: Outcome)
    ensures var r := WriteTenant(cfg, d, u, now, t, o);
            Extends(o.db, r.db) && r.db.tenants == o.db.tenants && r.db.nextId == o.db.nextId
  {
    var o1 := WriteRow(cfg, d, u, now, CpuKind, t, o);
    var o2 := WriteRow(cfg, d, u, now, MemoryKind, t, o1);
    var bytes := TenantClasses(u, t);
    var o3 := WriteClasses(cfg, d.storage, t, bytes, Enumerate(bytes.Keys), now, o2);
    WriteRowExtends(cfg, d, u, now, CpuKind, t, o);
    WriteRowExtends(cfg, d, u, now, MemoryKind, t, o1);
    WriteClassesExtends(cfg, d.storage, t, bytes, Enumerate(bytes.Keys), now, o2);
    WriteRowExtends(cfg, d, u, now, IngressKind, t, o3);
    ExtendsTransitive(o.db, o1.db, o2.db);
    ExtendsTransitive(o.db, o2.db, o3.db);
    ExtendsTransitive(o.db, o3.db, WriteRow(cfg, d, u, now, IngressKind, t, o3).db);
  }

  /** The snapshot only appends cost rows; the tenant table stays as it is. */
  lemma {:induction false} WriteSnapshotsExtends(cfg: Config, d: Discounts, u: Usage, now: Instant,
                                                  tenants: seq<Tenant>, o: Outcome)
    ensures var r := WriteSnapshots(cfg, d, u, now, tenants, o);
            Extends(o.db, r.db) && r.db.tenants == o.db.tenants && r.db.nextId == o.db.nextId
  {
    if |tenants| > 0 {
      WriteSnapshotsExtends(cfg, d, u, now, tenants[..|tenants| - 1], o);
      WriteTenantExtends(cfg, d, u, now, tenants[|tenants| - 1], WriteSnapshots(cfg, d, u, now, tenants[..|tenants| - 1], o));
    }
  }

  /** `b` is a run under some budget and `u` the same run under an unlimited
      one: until a write fails they agree, and after one `b` holds a prefix
      of every table of `u`. */
  predicate Shadows(b: Outcome, u: Outcome) {
    && u.budget.Unlimited?
    && (b.error == Some(WriteFailed) ==> Extends(b.db, u.db))
    && (b.error != Some(WriteFailed) ==> b.db == u.db && b.error == u.error)
  }

  lemma {:induction false} CommitShadows(b: Outcome, u: Outcome, nb: Db, nu: Db)
    requires Shadows(b, u)
    requires b.error != Some(WriteFailed) ==> nb == nu
    requires Extends(u.db, nu)
    ensures Shadows(Commit(b, nb), Commit(u, nu))
  {
  }

  lemma {:induction false} WriteRowShadows(cfg: Config, d: Discounts, u: Usage, now: Instant, k: CostKind, t: Tenant, ob: Outcome, ou: Outcome)
    requires Shadows(ob, ou)
    ensures Shadows(WriteRow(cfg, d, u, now, k, t, ob), WriteRow(cfg, d, u, now, k, t, ou))
  {
    CommitShadows(ob, ou, WithCostTable(ob.db, k, CostTable(ob.db, k) + [SnapshotRow(cfg, d, u, now, k, t)]),
                  WithCostTable(ou.db, k, CostTable(ou.db, k) + [SnapshotRow(cfg, d, u, now, k, t)]));
  }

  lemma {:induction false} WriteClassesShadows(cfg: Config, d: real, t: Tenant, bytes: map<string, nat>,
                                                classes: seq<string>, now: Instant, ob: Outcome, ou: Outcome)
    requires Shadows(ob, ou)
    ensures Shadows(WriteClasses(cfg, d, t, bytes, classes, now, ob), WriteClasses(cfg, d, t, bytes, classes, now, ou))
  {
    if |classes| > 0 {
      var init := classes[..|classes| - 1];
      var c := classes[|classes| - 1];
      WriteClassesShadows(cfg, d, t, bytes, init, now, ob, ou);
      WriteClassesExtends(cfg, d, t, bytes, classes, now, ou);
      var mb := WriteClasses(cfg, d, t, bytes, init, now, ob);
      var mu := WriteClasses(cfg, d, t, bytes, init, now, ou);
      WriteClassesExtends(cfg, d, t, bytes, init, now, ou);
      if mb.error.None? {
        match StorageCost(cfg, d, c, Lookup(bytes, c, 0) as real)
        case Failure(e) =>
        case Success(v) =>
          CommitShadows(mb, mu, mb.db.(storage := mb.db.storage + [StorageRow(t.id, c, v, now)]),
                        mu.db.(storage := mu.db.storage + [StorageRow(t.id, c, v, now)]));
      } else if mb.error == Some(WriteFailed) {
        ExtendsTransitive(mb.db, mu.db, WriteClasses(cfg, d, t, bytes, classes, now, ou).db);
      }
    }
  }

  lemma {:induction false} WriteTenantShadows(cfg: Config, d: Discounts, u: Usage, now: Instant, t: Tenant, ob: Outcome, ou: Outcome)
    requires Shadows(ob, ou)
    ensures Shadows(WriteTenant(cfg, d, u, now, t, ob), WriteTenant(cfg, d, u, now, t, ou))
  {
    WriteRowShadows(cfg, d, u, now, CpuKind, t, ob, ou);
    var b1 := WriteRow(cfg, d, u, now, CpuKind, t, ob);
    var u1 := WriteRow(cfg, d, u, now, CpuKind, t, ou);
    WriteRowShadows(cfg, d, u, now, MemoryKind, t, b1, u1);
    var b2 := WriteRow(cfg, d, u, now, MemoryKind, t, b1);
    var u2 := WriteRow(cfg, d, u, now, MemoryKind, t, u1);
    var bytes := TenantClasses(u, t);
    WriteClassesShadows(cfg, d.storage, t, bytes, Enumerate(bytes.Keys), now, b2, u2);
    var b3 := WriteClasses(cfg, d.storage, t, bytes, Enumerate(bytes.Keys), now, b2);
    var u3 := WriteClasses(cfg, d.storage, t, bytes, Enumerate(bytes.Keys), now, u2);
    WriteRowShadows(cfg, d, u, now, IngressKind, t, b3, u3);
  }

  lemma {:induction false} WriteSnapshotsShadows(cfg: Config, d: Discounts, u: Usage, now: Instant,
                                                  tenants: seq<Tenant>, ob: Outcome, ou: Outcome)
    requires Shadows(ob, ou)
    ensures Shadows(WriteSnapshots(cfg, d, u, now, tenants, ob), WriteSnapshots(cfg, d, u, now, tenants, ou))
  {
    if |tenants| > 0 {
      var init := tenants[..|tenants| - 1];
      WriteSnapshotsShadows(cfg, d, u, now, init, ob, ou);
      WriteTenantShadows(cfg, d, u, now, tenants[|tenants| - 1],
                         WriteSnapshots(cfg, d, u, now, init, ob), WriteSnapshots(cfg, d, u, now, init, ou));
    }
  }

  lemma {:induction false} SyncTenantsShadows(slugs: seq<string>, ob: Outcome, ou: Outcome)
    requires Shadows(ob, ou)
    ensures Shadows(SyncTenants(ob, slugs), SyncTenants(ou, slugs))
  {
    if |slugs| > 0 {
      var init := slugs[..|slugs| - 1];
      var s := slugs[|slugs| - 1];
      SyncTenantsShadows(init, ob, ou);
      var mb := SyncTenants(ob, init);
      var mu := SyncTenants(ou, init);
      if mb.error == Some(WriteFailed) {
        assert Extends(mu.db, SyncTenant(mu, s).db);
      } else if mb.error.None? && !HasSlug(mb.db.tenants, s) {
        CommitShadows(mb, mu, CreateTenant(mb.db, s), CreateTenant(mu.db, s));
      }
    }
  }

  // ---------------------------------------------------------------------
  // SaveCostsToDB as a whole
  // ---------------------------------------------------------------------

  /** Whatever the budget, a run only appends: every row present before is
      still there, the monthly table is untouched, and the tenant table
      stays well formed. A namespace-listing error changes nothing. */
  lemma {:induction false} SaveCostsToDBKeepsRows(cfg: Config, parse: FloatParser, snap: Snapshot,
                               namespaces: Result<seq<string>, string>, disc: Discounts,
                               now: Instant, db: Db, budget: Budget)
    requires WellFormed(db)
    ensures var r := SaveCostsToDB(cfg, parse, snap, namespaces, disc, now, db, budget);
      && Extends(db, r.out.db)
      && WellFormed(r.out.db)
      && (namespaces.Failure? ==> r.out.db == db && r.out.error == Some(NamespaceError(namespaces.error)) && r.discounts == disc)
  {
    if namespaces.Success? {
      var ns := namespaces.value;
      var o := SyncTenants(Outcome(db, budget, None), ns);
      SyncTenantsSpec(Outcome(db, budget, None), ns);
      if o.error.None? {
        var p := RunPasses(cfg, parse, snap, ns, disc);
        if p.error.None? {
          WriteSnapshotsExtends(cfg, p.discounts, p.usage, now, o.db.tenants, o);
        }
      }
    }
  }

  /** A write that fails stops the run: the rows written before it stay,
      and they are a prefix of what the run would have written with no
      failure. A run in which no write fails ends exactly as the unlimited
      one, discounts included. */
  lemma {:induction false} SaveCostsToDBBudget(cfg: Config, parse: FloatParser, snap: Snapshot,
                            namespaces: Result<seq<string>, string>, disc: Discounts,
                            now: Instant, db: Db, budget: Budget)
    requires WellFormed(db)
    ensures var b := SaveCostsToDB(cfg, parse, snap, namespaces, disc, now, db, budget);
            var u := SaveCostsToDB(cfg, parse, snap, namespaces, disc, now, db, Unlimited);
      && Extends(b.out.db, u.out.db)
      && (b.out.error != Some(WriteFailed) ==> b.out.db == u.out.db && b.out.error == u.out.error && b.discounts == u.discounts)
  {
    if namespaces.Success? {
      var ns := namespaces.value;
      SyncTenantsShadows(ns, Outcome(db, budget, None), Outcome(db, Unlimited, None));
      var ob := SyncTenants(Outcome(db, budget, None), ns);
      var ou := SyncTenants(Outcome(db, Unlimited, None), ns);
      var p := RunPasses(cfg, parse, snap, ns, disc);
      SyncTenantsSpec(Outcome(db, Unlimited, None), ns);
      if ob.error.None? {
        if p.error.None? {
          WriteSnapshotsShadows(cfg, p.discounts, p.usage, now, ob.db.tenants, ob, ou);
        }
      } else if ou.error.None? && p.error.None? {
        WriteSnapshotsExtends(cfg, p.discounts, p.usage, now, ou.db.tenants, ou);
      }
    }
  }

  /** Without write failures and with the namespaces listed: every
      namespace has a tenant; a failed pass stops the run with its error
      before any cost row is written; otherwise the run succeeds exactly
      when every requested storage class is priced, and then every tenant
      of the table, in table order, gets one CPU, memory and ingress row
      priced from the usage and discounts the passes handed back, plus one
      row per storage class it requests. */
  lemma {:induction false} SaveCostsToDBUnlimited(cfg: Config, parse: FloatParser, snap: Snapshot,
                               ns: seq<string>, disc: Discounts, now: Instant, db: Db)
    requires WellFormed(db)
    ensures var r := SaveCostsToDB(cfg, parse, snap, Success(ns), disc, now, db, Unlimited);
            var o := SyncTenants(Outcome(db, Unlimited, None), ns);
            var p := RunPasses(cfg, parse, snap, ns, disc);
      && o.error.None?
      && (forall s :: s in ns ==> HasSlug(r.out.db.tenants, s))
      && r.discounts == p.discounts
      && (p.error.Some? ==> r.out.error == Some(AggregationError(p.error.value)) && r.out.db == o.db)
      && (p.error.None? ==> SnapshotFits(cfg, p.discounts, p.usage, now, o.db.tenants, o, r.out))
  {
    var o := SyncTenants(Outcome(db, Unlimited, None), ns);
    SyncTenantsSpec(Outcome(db, Unlimited, None), ns);
    SyncNeverFailsUnlimited(ns, Outcome(db, Unlimited, None));
    var p := RunPasses(cfg, parse, snap, ns, disc);
    if p.error.None? {
      WriteSnapshotsUnlimited(cfg, p.discounts, p.usage, now, o.db.tenants, o);
    }
  }

  lemma {:induction false} SyncNeverFailsUnlimited(slugs: seq<string>, o: Outcome)
    requires o.error.None? && o.budget.Unlimited?
    ensures SyncTenants(o, slugs).error.None? && SyncTenants(o, slugs).budget.Unlimited?
  {
    if |slugs| > 0 {
      SyncNeverFailsUnlimited(slugs[..|slugs| - 1], o);
    }
  }

  /** A pass abandoned on an out-of-range discount hands back no usage, so
      every row the snapshot writes for that kind is priced at zero. */
  lemma {:induction false} AbandonedPassChargesNothing(cfg: Config, parse: FloatParser, snap: Snapshot,
                                    ns: seq<string>, disc: Discounts, now: Instant, db: Db)
    requires WellFormed(db)
    requires CpuRequestsSum(cfg.discountLabel, parse, snap, ns, disc.cpu).status.Abandoned?
    ensures var r := SaveCostsToDB(cfg, parse, snap, Success(ns), disc, now, db, Unlimited);
            var o := SyncTenants(Outcome(db, Unlimited, None), ns);
            r.out.error.None? ==>
              forall i :: |o.db.cpu| <= i < |r.out.db.cpu| ==> r.out.db.cpu[i].value == 0.0
  {
    SaveCostsToDBUnlimited(cfg, parse, snap, ns, disc, now, db);
    var r := SaveCostsToDB(cfg, parse, snap, Success(ns), disc, now, db, Unlimited);
    var o := SyncTenants(Outcome(db, Unlimited, None), ns);
    var p := RunPasses(cfg, parse, snap, ns, disc);
    if r.out.error.None? {
      assert p.usage.cpu == map[];
      SnapshotRowsMeaning(cfg, p.discounts, p.usage, now, CpuKind, o.db.tenants);
      assert CostTable(r.out.db, CpuKind) == CostTable(o.db, CpuKind) + SnapshotRows(cfg, p.discounts, p.usage, now, CpuKind, o.db.tenants);
      forall i | |o.db.cpu| <= i < |r.out.db.cpu| ensures r.out.db.cpu[i].value == 0.0 {
        assert r.out.db.cpu[i] == SnapshotRows(cfg, p.discounts, p.usage, now, CpuKind, o.db.tenants)[i - |o.db.cpu|];
      }
    }
  }
}

=== FILE: text.dfy ===
/** The few Go `strings` routines the cost engine depends on, over
    `string == seq<char>`: `Split` on a one-character separator,
    `HasPrefix`, `Contains` and the first field of a split on a longer
    separator. */
module Text {

  /** `s` begins with `p`. */
  predicate HasPrefix(s: string, p: string) {
    |p| <= |s| && s[..|p|] == p
  }

  /** `sub` occurs in `s` at position `i`. */
  predicate OccursAt(s: string, sub: string, i: int) {
    0 <= i && i + |sub| <= |s| && s[i..i + |sub|] == sub
  }

  /** Go's `strings.Contains(s, sub)`, written as a scan from the front. */
  function Contains(s: string, sub: string): (r: bool)
    ensures r <==> exists i :: OccursAt(s, sub, i)
    decreases |s|
  {
    if HasPrefix(s, sub) then
      assert OccursAt(s, sub, 0);
      true
    else if |s| == 0 then
      assert forall i :: !OccursAt(s, sub, i);
      false
    else
      var r := Contains(s[1..], sub);
      assert forall i :: OccursAt(s[1..], sub, i) <==> OccursAt(s, sub, i + 1);
      assert !OccursAt(s, sub, 0);
      assert forall i :: OccursAt(s, sub, i) ==> i == 0 || OccursAt(s[1..], sub, i - 1);
      r
  }

  /** Joins `parts` with `c` between neighbours: the inverse of `Split`. */
  function Join(parts: seq<string>, c: char): string
    requires |parts| >= 1
  {
    if |parts| == 1 then parts[0] else parts[0] + [c] + Join(parts[1..], c)
  }

  /** Go's `strings.Split(s, string(c))`: the maximal `c`-free pieces of
      `s`, in order; always at least one piece, possibly empty. */
  function Split(s: string, c: char): (parts: seq<string>)
    ensures |parts| >= 1
    ensures Join(parts, c) == s
    ensures forall k :: 0 <= k < |parts| ==> c !in parts[k]
  {
    if |s| == 0 then [""]
    else
      var rest := Split(s[1..], c);
      if s[0] == c then
        [""] + rest
      else
        var parts := [[s[0]] + rest[0]] + rest[1..];
        assert parts[1..] == rest[1..];
        parts
  }

  /** Splitting undoes joining when no piece contains the separator. */
  lemma {:induction false} SplitJoin(parts: seq<string>, c: char)
    requires |parts| >= 1
    requires forall k :: 0 <= k < |parts| ==> c !in parts[k]
    ensures Split(Join(parts, c), c) == parts
    decreases |parts|, |parts[0]|
  {
    if |parts[0]| == 0 {
      if |parts| == 1 {
      } else {
        var tail := Join(parts[1..], c);
        assert Join(parts, c) == [c] + tail;
        assert ([c] + tail)[1..] == tail;
        SplitJoin(parts[1..], c);
        assert [""] + parts[1..] == parts;
      }
    } else {
      var first := parts[0];
      var shorter := [first[1..]] + parts[1..];
      assert shorter[1..] == parts[1..];
      assert forall k :: 0 <= k < |shorter| ==> c !in shorter[k] by {
        assert forall x :: x in first[1..] ==> x in first;
      }
      SplitJoin(shorter, c);
      var s := Join(parts, c);
      assert s == [first[0]] + Join(shorter, c) by {
        if |parts| == 1 {
        } else {
          assert first == [first[0]] + first[1..];
        }
      }
      assert s[0] == first[0] && s[1..] == Join(shorter, c);
      assert first[0] != c by { assert first[0] in first; }
      var rest := Split(s[1..], c);
      assert rest == shorter;
      assert [first[0]] + rest[0] == first;
      assert Split(s, c) == [first] + rest[1..];
      assert [first] + parts[1..] == parts;
    }
  }

  /** `strings.Split(s, sep)[0]` for a non-empty separator: the part of `s`
      before the first occurrence of `sep`, or all of `s` when there is none. */
  function Before(s: string, sep: string): (r: string)
    requires |sep| > 0
    ensures HasPrefix(s, r)
    ensures !Contains(r, sep)
    ensures r == s || HasPrefix(s[|r|..], sep)
    ensures forall i :: 0 <= i < |r| ==> !OccursAt(s, sep, i)
    decreases |s|
  {
    if HasPrefix(s, sep) then ""
    else if |s| == 0 then ""
    else
      var rest := Before(s[1..], sep);
      BeforeConsPrefix(s, rest);
      BeforeConsFree(s, sep, rest);
      BeforeConsFirst(s, sep, rest);
      [s[0]] + rest
  }

  /** Putting back the first character keeps a prefix a prefix, and the
      remainder after it the same. */
  lemma {:induction false} BeforeConsPrefix(s: string, rest: string)
    requires |s| > 0 && HasPrefix(s[1..], rest)
    ensures HasPrefix(s, [s[0]] + rest)
    ensures s[|[s[0]] + rest|..] == s[1..][|rest|..]
    ensures rest == s[1..] ==> [s[0]] + rest == s
  {
    assert s == [s[0]] + s[1..];
  }

  /** A prefix of `s` that does not start with `sep`, followed by a part
      free of `sep`, is free of `sep`. */
  lemma {:induction false} BeforeConsFree(s: string, sep: string, rest: string)
    requires |sep| > 0 && |s| > 0 && !HasPrefix(s, sep)
    requires HasPrefix(s[1..], rest) && !Contains(rest, sep)
    ensures !Contains([s[0]] + rest, sep)
  {
    var r := [s[0]] + rest;
    assert r[1..] == rest;
    assert !OccursAt(r, sep, 0) by {
      if |sep| <= |r| {
        assert r[..|sep|] == s[..|sep|];
      }
    }
    assert forall i :: 0 < i ==> (OccursAt(r, sep, i) <==> OccursAt(rest, sep, i - 1));
  }

  /** No occurrence of `sep` in `s` starts inside `[s[0]] + rest` when none
      starts at 0 and none starts inside `rest` in `s[1..]`. */
  lemma {:induction false} BeforeConsFirst(s: string, sep: string, rest: string)
    requires |s| > 0 && !HasPrefix(s, sep)
    requires forall i :: 0 <= i < |rest| ==> !OccursAt(s[1..], sep, i)
    ensures forall i :: 0 <= i < |[s[0]] + rest| ==> !OccursAt(s, sep, i)
  {
    forall i | 0 <= i < |[s[0]] + rest|
      ensures !OccursAt(s, sep, i)
    {
      if i > 0 && OccursAt(s, sep, i) {
        assert s[i..i + |sep|] == s[1..][i - 1..i - 1 + |sep|];
        assert OccursAt(s[1..], sep, i - 1);
      }
    }
  }
}

=== FILE: wrappers.dfy ===
/** Option and Result, the two failure-carrying shapes the model uses in
    place of Go's `(value, error)` pairs and nil pointers. */
module Wrappers {

  datatype Option<+T> = None | Some(value: T) {

    /** The value when present, `default` otherwise (Go's zero-value read). */
    function GetOr(default: T): T {
      match this
      case Some(v) => v
      case None => default
    }
  }

  datatype Result<+R, +E> = Success(value: R) | Failure(error: E) {

    predicate IsFailure() {
      Failure?
    }

    function PropagateFailure<U>(): Result<U, E>
      requires Failure?
    {
      Failure(error)
    }

    function Extract(): R
      requires Success?
    {
      value
    }
  }
}
